=== FILE: README.md ===
# voicepro request path, modelled in Dafny

voicepro is a desktop text-to-speech studio. A React renderer talks to an Electron
main process through a preload bridge. The main process supervises a long-lived
Python worker and talks to it by writing one JSON command per line on the worker's
stdin and reading one JSON reply per line on its stdout. The worker keeps the
projects, the action history and the application settings on disk, and calls a
speech model for generation.

This project models that request path and the renderer components that drive it:

- `preload.dfy` (module `Preload`): the bridge's allow-listed `invoke`, `send` and `on`.
- `ipc_handlers.dfy` (module `IpcHandlers`): the fourteen `ipcMain.handle` routes.
  Each one builds one command envelope, hands it to `sendToPython`, and passes on or
  reports what came back.
- `python_service.dfy` (module `PythonService`): the worker supervisor and the response
  correlator.
  - A `Session` class holds the process handle, the readline, the requests in flight,
    the spawned processes and the observable effects: notifications, stdin writes and
    kills.
  - Each of its methods is one event: a call, a stdout chunk, a line, a timer, an
    error or a close.
- `tts_server.py`'s dispatcher and store (module `TtsServer`, `tts_server.dfy`):
  - `ProjectManager` is a class over a map from file name to project record, the
    history and the settings;
  - each of its mutating operations is also a function on a `Store` value (`SaveOn`,
    `DeleteOn`, `CreateOn`, `UndoOn`), which the method is proved against and the
    lemmas speak about;
  - the records keep whatever JSON values they were built from, as the dataclasses
    do, and identifiers name files through the text `str()` gives them;
  - `handle_command` becomes `HandleCommand` and `Dispatch`;
  - `main`'s read loop becomes `Serve`.
- `lib/audio-service.ts` (module `AudioService`): the flattening of generation
  parameters into the bag the worker reads, the ordered response guards, and the
  channel each service method invokes.
- The renderer components:
  - the WAV exporter, time label, skip buttons, playback tick and playback checks
    (`AudioPreview`, working in place on an `array<Byte>`);
  - the SSML markup buttons (`TextEditor`);
  - the project panel (`ProjectPanel`);
  - the main screen's generate and new-project actions (`TtsInterface`).
- `system.dfy` (module `EndToEnd`): lemmas that connect one side's output to the next
  side's input, across the whole path.
- `js_values.dfy` and `wrappers.dfy`: JSON values, the JavaScript conversions the code
  relies on (truthiness, `trim`, `toLowerCase`, `includes`), and `Option`/`Result`.

The model is driven from outside; nothing in it does I/O itself.

- **Time, processes and streams** become explicit events or parameters.
- **Model calls** are inputs to the dispatcher (an `Env`):
  - every call into the speech model, as success data or an error message;
  - the clock;
  - the set of available architectures.
- **Files on disk** are fields of `ProjectManager`, and the model states that they
  agree with memory after every mutation.

Where the written specification of the system and the code disagree, the model
follows the code. The specification says the worker skips a line it cannot parse,
but the worker reports it on stderr and gives no reply. The host does not skip
malformed lines either: it rejects every pending request with the parse error.

## Model

| member | source | states |
|---|---|---|
| Preload.InvokeSpec | electron/src/preload.js:8-29 | `invoke` forwards channel and arguments unchanged exactly when the channel is one of the fourteen allowed ones, and otherwise throws the unauthorized-channel error |
| Preload.SendSpec | electron/src/preload.js:30-35 | `send` forwards only `keyPress`, with its data unchanged; any other channel is dropped silently |
| Preload.OnSpec | electron/src/preload.js:36-42 | `on` subscribes only to `fromMain`, and the callback receives the arguments without the IPC event |
| IpcHandlers.RouteOf | electron/src/handlers/ipcHandlers.js:5-168 | the route registered for a channel is found exactly when some registration has that channel, and it is that registration |
| IpcHandlers.ChannelsRegisteredOnce | electron/src/handlers/ipcHandlers.js:5-168 | each channel is registered once: looking up a route's channel finds that route |
| IpcHandlers.SentEnvelopeShape | electron/src/handlers/ipcHandlers.js:5-168 | every handler that sends, sends one envelope whose `type` is its route's command type, holding only its shape's fields: none, the argument under the route's field, or the two destructured template fields with their values |
| IpcHandlers.GenerateAudioRoute | electron/src/handlers/ipcHandlers.js:26-47 | only the `generate-audio` channel sends `generate-audio` commands, and it sends its argument under `params` |
| IpcHandlers.GenerateAudioWithoutParams | electron/src/handlers/ipcHandlers.js:28-30 | `generate-audio` with falsy params rejects with "No parameters provided for audio generation", sends nothing and notifies the window once |
| IpcHandlers.GenerateAudioFailuresNotifyOnce | electron/src/handlers/ipcHandlers.js:35-46 | every `generate-audio` rejection sends exactly one `generation-error` notification carrying the rethrown error; a missing result rejects with "No result received from Python process"; a success notifies nothing and returns the result as is |
| IpcHandlers.OtherHandlersPassThrough | electron/src/handlers/ipcHandlers.js:49-168 | every other handler settles exactly as `sendToPython` did and sends no notification |
| PythonService.EnvelopeJson | electron/src/services/pythonService.js:435-443 | the object written to stdin carries the command's `type`, each of its other fields unchanged, and nothing else |
| PythonService.LineOf | electron/src/services/pythonService.js:393-402 | a whitespace-only line is blank; any other line is the parse result or the parse error |
| PythonService.SettleCases | electron/src/services/pythonService.js:404-424 | the classification of a reply: falsy → null-response error; no `success` field → missing-field error; a truthy `success` resolves with `data`; otherwise rejects with `error` or "Unknown error occurred" |
| PythonService.AttachPhaseCases | electron/src/services/pythonService.js:384-449 | without a readline the request is rejected; with stdin not writable it is rejected; otherwise it listens on the current readline, with a 30 s timer exactly for commands other than `generate-audio` |
| PythonService.Deliver | electron/src/services/pythonService.js:393-425 | a line is broadcast to every request; the result has one entry per request, each the request after that line |
| PythonService.BlankLineKeepsEveryRequest | electron/src/services/pythonService.js:395-398 | a blank line leaves every request as it was: nothing settled, nothing detached |
| PythonService.NonBlankLineSettlesEveryListener | electron/src/services/pythonService.js:400-424 | a non-blank line settles and detaches every handler on the readline it came from; an unparsable line rejects with the parse error |
| PythonService.LineLeavesOthersAlone | electron/src/services/pythonService.js:400-402 | requests not listening on the line's readline are unaffected |
| PythonService.TwoInFlightSettleTogether | electron/src/services/pythonService.js:393-433 | two requests in flight on the same readline both settle on the first non-blank line, with the same outcome (there is no request id on the wire) |
| PythonService.StartSettled | electron/src/services/pythonService.js:374-381 | when a start settles, requests waiting on it go on to the one-second pause if it succeeded, or are rejected with "Failed to start Python process: " and the message; every other request is unchanged |
| PythonService.ReplaceAtFirstTilde | electron/src/services/pythonService.js:306 | only the first `~` of `SAMPLES_PATH` is replaced, by the home directory with `replace`'s `$` patterns expanded against the text before and after that `~`; what precedes and follows it is kept; a home directory without `$` is inserted as it is |
| PythonService.ExpandPlain | electron/src/services/pythonService.js:306 | a replacement text without `$` is inserted unchanged |
| PythonService.DollarAmpersandInHome | electron/src/services/pythonService.js:306 | `$&` in the home directory inserts the matched `~`: a home `h1 + "$&" + h2` with no other `$` turns the first `~` into `h1 + "~" + h2`, the rest of the text kept |
| PythonService.DefaultSamplesPath | electron/src/services/pythonService.js:307 | `path.join(home, 'voicepro/samples')` is never empty |
| PythonService.JoinSegmentsOfPath | electron/src/services/pythonService.js:307 | splitting a path on `/` and joining the segments again gives the path back |
| PythonService.ResolveNormal | electron/src/services/pythonService.js:307 | what `path.normalize` keeps has no empty or `.` segment, and `..` only in a leading run of a relative path |
| PythonService.ResolveCancels | electron/src/services/pythonService.js:307 | `path.normalize` drops `.` and empty segments, and a `..` after a plain segment cancels it (`/a/../b` resolves like `/b`) |
| PythonService.DefaultSamplesPathPlain | electron/src/services/pythonService.js:307 | a home directory whose segments are all plain gets `/voicepro/samples` appended as it is |
| PythonService.SamplesPathSpec | electron/src/services/pythonService.js:306-307 | an unset or empty variable falls back to `path.join(home, 'voicepro/samples')`; a variable without `~` is used as is; a leading `~` followed by more text becomes the home directory with its `$` patterns expanded, and a home directory without `$` is inserted as it is; the path is never empty |
| PythonService.PythonCommand | electron/src/services/pythonService.js:196-206 | `python.exe` exactly on win32, `python3` exactly on darwin and linux, `python` elsewhere |
| PythonService.Session.constructor | electron/src/services/pythonService.js:9-10 | no process, no readline, no requests or effects |
| PythonService.Session.Start | electron/src/services/pythonService.js:298-371 | a new numbered call; when it awaits `setupPythonEnv` it is pending and nothing else changes; when it goes on at once it either fails at `mkdirSync` (nothing killed or spawned) or kills a running process and spawns its own with its readline and an armed 10 s timer; no request changes |
| PythonService.Session.Begin | electron/src/services/pythonService.js:298-302 | the call is recorded as pending, with nothing spawned or settled, and no request awaits it yet |
| PythonService.Session.Launch | electron/src/services/pythonService.js:304-342 | a pending call's promise body gets past `mkdirSync`: a running process is killed, and the call's process is spawned with its readline and an armed 10 s timer; no request changes |
| PythonService.Session.FailBeforeSpawn | electron/src/services/pythonService.js:300-309 | a pending call fails because `setupPythonEnv` rejected or `mkdirSync` threw: it is rejected with the error, the requests awaiting it are rejected with "Failed to start Python process: " and that message, and no process is killed or spawned |
| PythonService.Session.StdoutChunk | electron/src/services/pythonService.js:344-351 | the first chunk containing `Server ready` clears the timer and resolves the start, and the requests waiting on it move on; any other chunk changes nothing |
| PythonService.Session.StartTimerFired | electron/src/services/pythonService.js:334-337 | an armed start timer rejects a start that has not settled yet with the initialisation timeout |
| PythonService.Session.SpawnError | electron/src/services/pythonService.js:325-332 | a spawn error rejects the start with the error and notifies the window when there is one |
| PythonService.Session.Close | electron/src/services/pythonService.js:355-365 | a close with a code other than 0 notifies the window; both handles are cleared, whichever process closed |
| PythonService.Session.Cleanup | electron/src/services/pythonService.js:452-458 | kills and forgets the process, if any; nothing else changes |
| PythonService.Session.Attach | electron/src/services/pythonService.js:384-449 | runs the promise body for one request: its phase becomes the attach outcome, and the command is written to stdin exactly when it listens |
| PythonService.Session.Send | electron/src/services/pythonService.js:373-450 | appends one request; without a process or readline, a new start call is made (without a window). The request waits on it while it awaits the environment setup or the ready marker, or is rejected at once when `mkdirSync` throws. With a process and readline, the request is attached and its command written at once |
| PythonService.Session.Resume | electron/src/services/pythonService.js:378-381 | after the one-second pause, a delaying request runs its promise body against the handles as they are now |
| PythonService.Session.DeliverLine | electron/src/services/pythonService.js:393-425 | a line from any spawned process's readline, the current one or one replaced by a restart, turns the requests into `Deliver` of the old ones for that readline; session validity is kept |
| PythonService.Session.ResponseTimerFired | electron/src/services/pythonService.js:385-391 | a listening request with an armed timer is rejected with "Timeout waiting for Python response"; any other request is unchanged |
| PythonService.RestartThenOldClose | electron/src/services/pythonService.js:311-314 | as written, when two requests arrive with no worker running and each start call awaits the environment setup and then launches, the first process's close leaves no process. The second process was never killed, so it keeps running after `cleanup()`, and no one is notified |
| PythonService.RestartThenOldCloseOwn | electron/src/services/pythonService.js:355-365 | with the close handler limited to its own process, the same events keep the second process, and `cleanup()` kills it |
| PythonService.Session.CloseOwn | electron/src/services/pythonService.js:355-365 | the close handler as intended: the same notification, and the handles are cleared only when the closing process is the current one |
| TtsServer.ErrorText | server/tts_server.py:413-416 | the error text of a `KeyError` is the key in quotes; any other exception's text is its message |
| TtsServer.Index | server/tts_server.py:215-416 | subscription succeeds exactly on an object holding the key, and yields its value; a missing key raises `KeyError(key)` |
| TtsServer.PyStr | server/tts_server.py:99-178 | the text an f-string gives an identifier: a string is itself; whole numbers, booleans and `None` are formatted; other numbers, lists and objects are the values the model does not format |
| TtsServer.IntegerIdentifier | server/tts_server.py:99-105 | a whole-number identifier is its decimal digits, so `5` and `"5"` name the same file, and the digits read back as the number |
| TtsServer.DecodeProject | server/tts_server.py:23-32 | `ProjectSettings(**data)` succeeds exactly for an object with exactly the record's keys, whatever their values, and the record's `asdict` is that object; otherwise the constructor's `TypeError` |
| TtsServer.DecodeSettings | server/tts_server.py:34-40 | `AppSettings(**data)` likewise, for the settings keys |
| TtsServer.ProjectRoundTrip | server/tts_server.py:99-119 | a project record read back from what `asdict` wrote is the same record |
| TtsServer.SettingsRoundTrip | server/tts_server.py:67-82 | a settings record read back from what `asdict` wrote is the same record |
| TtsServer.FileIsNotBackup | server/tts_server.py:129-178 | an identifier's project file is never its own backup file |
| TtsServer.SortByModifiedSpec | server/tts_server.py:121-127 | the listing is a permutation of the projects read, newest first |
| TtsServer.ProjectManager.ListProjects | server/tts_server.py:121-127 | every `*.json` file (backups included) is listed exactly once, newest first, whatever order the directory yields |
| TtsServer.UndoScan | server/tts_server.py:166-178 | an entry found is an undoable `delete_project` entry for the id, whose backup exists |
| TtsServer.UndoScanFirst | server/tts_server.py:166-178 | the entry found is the first one: every entry before it does not match or has no backup |
| TtsServer.UndoScanNone | server/tts_server.py:166-178 | without an undoable entry for the id, nothing is found and nothing is raised |
| TtsServer.SaveThenGet | server/tts_server.py:99-119 | a saved record reads back under its name, stamped with the save time; exactly one non-reversible save entry goes first in the history; no other file and not the settings change |
| TtsServer.DeleteThenGet | server/tts_server.py:129-143 | the result says whether the project existed; afterwards it is not found; a deletion records one reversible entry and otherwise nothing changes; no other file changes |
| TtsServer.NumericIdDeletesItsFile | server/tts_server.py:129-143 | `{"projectId": 5}` deletes `5.json` and reports it, and the recorded entry keeps the number as given |
| TtsServer.DeleteIsNotUndone | server/tts_server.py:129-178 | deleting writes no backup, so undoing the entry it just recorded restores nothing and changes nothing |
| TtsServer.CreateCopiesTemplate | server/tts_server.py:145-160 | a copy is made exactly when the template exists and the new name can be formatted; it has the template's text, voice and settings under the new name and times from the clock, and reads back; a missing template raises "Template … not found" and changes nothing |
| TtsServer.UndoRestores | server/tts_server.py:166-178 | a successful undo moves the backup to the project's file, so the project reads back as the backup held, and removes one history entry; settings unchanged |
| TtsServer.ProjectManager.constructor | server/tts_server.py:53-89 | loads the projects and history on disk, and the stored settings or the defaults |
| TtsServer.ProjectManager.AddHistoryEntry | server/tts_server.py:95-97 | the entry goes first in the history and is saved; nothing else changes |
| TtsServer.ProjectManager.SaveProject | server/tts_server.py:107-119 | returns and leaves the store as `SaveOn` says (see SaveThenGet), keeping the history file in step |
| TtsServer.ProjectManager.DeleteProject | server/tts_server.py:129-143 | returns and leaves the store as `DeleteOn` says (see DeleteThenGet) |
| TtsServer.ProjectManager.CreateFromTemplate | server/tts_server.py:145-160 | returns and leaves the store as `CreateOn` says (see CreateCopiesTemplate) |
| TtsServer.ProjectManager.ClearHistory | server/tts_server.py:162-164 | history in memory and on disk is empty; projects and settings unchanged |
| TtsServer.ProjectManager.UpdateSettings | server/tts_server.py:353-356 | the settings are replaced and saved; projects and history unchanged |
| TtsServer.ProjectManager.UndoAction | server/tts_server.py:166-178 | the loop returns and leaves the store as `UndoOn` says: the scan's entry is restored and removed, a malformed entry raises, otherwise nothing changes |
| TtsServer.ReplyJson | server/tts_server.py:418-434 | a missing reply is printed as `null`, and only then |
| TtsServer.FailuresAreLogged | server/tts_server.py:413-416 | the line printed for a failure reply carries one stderr log line with the same error text; no other reply is logged |
| TtsServer.ModelList | server/tts_server.py:217-223 | at most two models; each supported name is listed exactly when its architecture is available |
| TtsServer.HandleCommand | server/tts_server.py:215-416 | `Handled`: an unreadable type gives a failure with its exception, a type with no branch gives no reply, both leaving the store unchanged, and any other type gets exactly the reply and new store its branch gives (`Dispatched`); the reply is absent exactly for a readable type with no branch; what it logs is its reply's log line |
| TtsServer.Dispatch | server/tts_server.py:217-411 | `Dispatched`, every branch's reply and effect: the model list; model-backed replies after their field checks; the settings, history, project and listing reads; save, delete, create-from-template and undo reply with what their store operation returns or raises and leave the store as it does; settings updates (the only branch that writes `settings.json`) and history clearing; a missing field is its `KeyError`; read-only branches keep the store |
| TtsServer.ReplyLine | server/tts_server.py:418-434 | the printed line is `json.dumps` of the reply `handle_command` gives in the current store, with the store it leaves (`Handled`); it is `null` exactly for an unknown type, and otherwise an envelope with a `success` field; the log is what that line carries |
| TtsServer.Commands | server/tts_server.py:418-434 | as many commands as lines that parsed |
| TtsServer.Stderr | server/tts_server.py:413-434 | at least one stderr line per line that did not parse and at most one per input line |
| TtsServer.Serve | server/tts_server.py:413-434 | every parsed line gets exactly one reply line, in order (`null` exactly for an unknown type); reply `k` is what `handle_command` gives the `k`-th parsed command, observing that line's environment, in the store the commands before it left, and the stores run from the initial one to the final one (`Replayed`); stderr is, in input order, `Error: …` for each line that did not parse and `Error in handle_command: …` for each failure reply |
| AudioService.FlattenModel | lib/audio-service.ts:104-108 | the model choice, text and language go under `model_choice`, `text` and `language` |
| AudioService.FlattenEmotion | lib/audio-service.ts:110-117 | the emotion weights become `e1`..`e8` |
| AudioService.FlattenSampling | lib/audio-service.ts:126-131 | the sampling fields move to the top level under their snake-case names |
| AudioService.FlattenSameNames | lib/audio-service.ts:118-125 | the conditioning values keep their names |
| AudioService.FlattenOptional | lib/audio-service.ts:105-109 | a defined audio path is kept, `null` included |
| AudioService.FlattenDropsUndefined | lib/audio-service.ts:105-109 | an undefined audio path is left out of the bag |
| AudioService.FlattenedModelChoice | lib/audio-service.ts:104-134 | the bag is an object that always carries `model_choice` |
| AudioService.ToFloat32 | lib/audio-service.ts:155-159 | values below the overflow bound stay finite; the rest become infinities |
| AudioService.ToFloat32Array | lib/audio-service.ts:155-159 | an array converts element by element, with the same length, numbers through single precision |
| AudioService.CheckData | lib/audio-service.ts:144-164 | a result comes exactly from a two-element array whose first element is a positive number and whose second gives a `Float32Array` of finite values; that buffer and the rate are the result |
| AudioService.ValidateResponse | lib/audio-service.ts:136-164 | a falsy response fails with "No response…"; one without a truthy `success` fails with "Audio generation failed"; a success is what the data checks give |
| AudioService.GuardOrder | lib/audio-service.ts:144-153 | past the envelope test, a malformed shape fails with the format error before the rate is looked at, then a bad rate fails with the rate error |
| AudioService.OverflowingSampleFails | lib/audio-service.ts:155-159 | one sample beyond single precision makes the whole response fail with the invalid-samples error |
| AudioService.BareArrayAlwaysFails | lib/audio-service.ts:140-142 | as written, every array is rejected with "Audio generation failed" |
| AudioService.ValidateSynthesis | lib/audio-service.ts:136-164 | the corrected check on the bare `[rate, samples]` that the host resolves with: a falsy response fails with "No response…"; a result comes only from a two-element array with a positive rate, and its buffer is the `Float32Array` of the second element, all finite |
| AudioService.LengthArgumentGivesSilence | lib/audio-service.ts:155-159 | a whole number in place of the samples is read as a length: the validation passes with that many zeros |
| AudioService.WellFormedSynthesisPasses | lib/audio-service.ts:144-164 | with the corrected check, a positive rate and samples within single precision pass, as a buffer of the same samples |
| AudioService.Invocation | lib/audio-service.ts:93-101 | every method other than `generateAudio` invokes one channel with at most one argument; EndToEnd.ServiceCallEnvelope states where that argument goes |
| AudioPreview.Le16RoundTrip | components/audio-preview.tsx:143-159 | a 16-bit field reads back as the value modulo 2^16, and as the value itself for a signed 16-bit value |
| AudioPreview.Le32RoundTrip | components/audio-preview.tsx:143-159 | a 32-bit field reads back as the value modulo 2^32 |
| AudioPreview.PcmSample | components/audio-preview.tsx:162-169 | every sample written is a signed 16-bit value |
| AudioPreview.PcmSampleScale | components/audio-preview.tsx:162-169 | full scale is reached exactly at the clamp bounds, and the sign of the sample is kept |
| AudioPreview.SetUint16 | components/audio-preview.tsx:143-169 | writes the two little-endian bytes of the value at the offset, and nothing else |
| AudioPreview.SetUint32 | components/audio-preview.tsx:143-159 | writes the four little-endian bytes of the value at the offset, and nothing else |
| AudioPreview.WriteString | components/audio-preview.tsx:174-178 | writes one byte per character at the offset, and nothing else |
| AudioPreview.WriteHeader | components/audio-preview.tsx:143-159 | the 44-byte header: `RIFF`, the size, `WAVE`, the 16-byte PCM `fmt ` chunk with rate, byte rate and block alignment, then `data` with the sample bytes' size |
| AudioPreview.WriteSamples | components/audio-preview.tsx:162-169 | sample i is stored at byte 44 + 2i, little-endian; the header is kept |
| AudioPreview.ExportWav | components/audio-preview.tsx:125-172 | a fresh buffer of exactly 44 + 2n bytes holding a valid header and every sample |
| AudioPreview.PadTwo | components/audio-preview.tsx:180-184 | short strings are padded with zeros to two characters, keeping the string at the end |
| AudioPreview.FormatTimeParts | components/audio-preview.tsx:180-184 | for a non-negative time the label is minutes and two-digit seconds below 60 that add back up to the whole seconds |
| AudioPreview.SkipBack | components/audio-preview.tsx:208 | ten seconds back, never below zero |
| AudioPreview.SkipForward | components/audio-preview.tsx:216 | ten seconds forward, never past the duration |
| AudioPreview.Tick | components/audio-preview.tsx:48-54 | playback goes on exactly while before the end, advancing one second; at the end it resets to zero |
| AudioPreview.TickStaysInRange | components/audio-preview.tsx:48-54 | the time stays in [0, duration + 1) |
| AudioPreview.TicksUntilStopBound | components/audio-preview.tsx:48-54 | playback stops within duration + 2 ticks from any time in range |
| AudioPreview.CheckPlayback | components/audio-preview.tsx:61-80 | audio is accepted exactly when present with a positive rate, a non-empty buffer and only finite samples |
| TextEditor.Substring | components/text-editor.tsx:25 | within bounds, `substring` is the slice |
| TextEditor.InsertSsml | components/text-editor.tsx:18-52 | nothing changes exactly when there is no textarea |
| TextEditor.SpliceKeepsContext | components/text-editor.tsx:42 | the selection is replaced by the markup and everything before and after it is kept exactly |
| TextEditor.WrapperParts | components/text-editor.tsx:27-40 | a wrapping button's markup is its opening tag, the selection unchanged, then its closing tag |
| TextEditor.PauseReplacesSelection | components/text-editor.tsx:28-30 | a pause drops the selection and inserts a one-second break |
| TextEditor.EmphasisAndCode | components/text-editor.tsx:31-37 | `emphasis` and `code` use the `emphasis` and `say-as` (characters) elements |
| TextEditor.OtherTagsWrapByName | components/text-editor.tsx:38-39 | any other button wraps the selection in an element named after it |
| TextEditor.CaretInsertion | components/text-editor.tsx:18-52 | with an empty selection the markup is inserted at the caret and nothing is removed |
| ProjectPanel.FilteredSpec | components/project-manager.tsx:41 | the search keeps exactly the projects whose lower-cased name contains the lower-cased query, in their order |
| ProjectPanel.EmptyQueryKeepsAll | components/project-manager.tsx:41 | an empty search shows every project |
| ProjectPanel.SearchIgnoresCase | components/project-manager.tsx:41 | a project is found by its own name typed in any case |
| ProjectPanel.UmlautsIgnoreCase | components/project-manager.tsx:41 | case is ignored beyond ASCII: "Über" and "über" lower-case to the same text |
| ProjectPanel.WithoutSpec | components/project-manager.tsx:48-61 | deleting removes every entry with the id and keeps every other one, in order |
| ProjectPanel.NameOf | components/project-manager.tsx:48-61 | a name is found exactly when some entry has the id, and it is that entry's name |
| ProjectPanel.Announced | components/project-manager.tsx:48-61 | the announced name is never empty: it is the entry's name, or "Project" |
| ProjectPanel.MaxId | components/project-manager.tsx:63-71 | the largest id of a non-empty list |
| ProjectPanel.Duplicate | components/project-manager.tsx:63-71 | the copy goes first, with an id above every existing one, the name with " (Copy)", today's date and the same duration; the old list follows unchanged |
| ProjectPanel.DeleteUndoesDuplicate | components/project-manager.tsx:48-71 | deleting a fresh duplicate gives back the list it was made from |
| ProjectPanel.PanelState.constructor | components/project-manager.tsx:24-39 | the panel starts with the sample list, an empty search and no dialog |
| ProjectPanel.PanelState.HandleDeleteProject | components/project-manager.tsx:43-46 | remembers the id and opens the confirmation; the list is unchanged |
| ProjectPanel.PanelState.ConfirmDeleteProject | components/project-manager.tsx:48-61 | with a pending id, removes its entries, announces the name and closes the dialog; without one, nothing changes |
| ProjectPanel.PanelState.HandleDuplicateProject | components/project-manager.tsx:63-76 | the list becomes `Duplicate` of the old list, with a toast naming the project |
| ProjectPanel.PanelState.HandleCreateTemplate | components/project-manager.tsx:78-80 | opens the template dialog and changes nothing else |
| ProjectPanel.PanelState.ConfirmCreateTemplate | components/project-manager.tsx:82-90 | announces the template under its name, closes the dialog and clears its fields |
| ProjectPanel.DeleteFlow | components/project-manager.tsx:43-61 | asking to delete and confirming removes exactly the entries with the id, and closes the dialog |
| TtsInterface.LocalCheck | components/tts-interface.tsx:132-138 | a missing voice is reported first; then a script is rejected exactly when it is blank |
| TtsInterface.RequestCarriesSettings | components/tts-interface.tsx:142-174 | the bag carries the voice, the script, the speed as `speaking_rate` and the emotion settings, and no audio path |
| TtsInterface.Screen.constructor | components/tts-interface.tsx:32-55 | the screen starts with the default script, settings and project name, no voice, no audio, not generating |
| TtsInterface.Screen.StartGeneration | components/tts-interface.tsx:127-177 | the previous audio is dropped; a failed local check shows its message and lowers the flag; otherwise the request for the current settings is issued and the flag stays up |
| TtsInterface.Screen.FinishGeneration | components/tts-interface.tsx:177-197 | the flag is lowered either way; audio is kept only on success, and the error is shown otherwise |
| TtsInterface.Screen.HandleNewProject | components/tts-interface.tsx:200-226 | every editable setting returns to its default, with the voice `emma`; audio and the flag are left alone |
| TtsInterface.Generate | components/tts-interface.tsx:127-198 | the flag is down afterwards; the service is called exactly when the local checks pass; audio is present only as the service's success |
| TtsInterface.NewProjectCanGenerate | components/tts-interface.tsx:200-226 | after a new project, generation passes the local checks |
| JsValues.TrimEmptyIffBlank | components/tts-interface.tsx:136 | `trim()` is empty exactly when every character is whitespace |
| JsValues.LowerChar | components/project-manager.tsx:41 | `A`–`Z` go to `a`–`z`; a character the case table does not map is kept; the result is never mapped further |
| JsValues.ToLower | components/project-manager.tsx:41 | `toLowerCase` on the modelled case table (ASCII, Latin-1 and Cyrillic capitals) maps the string character by character |
| JsValues.ToLowerIdempotent | components/project-manager.tsx:41 | lower-casing twice is lower-casing once |
| JsValues.IncludesWindow | electron/src/services/pythonService.js:346 | a string is included in any string built around it |
| JsValues.NatToStringValue | components/audio-preview.tsx:180-184 | the decimal text of a number reads back as that number |
| EndToEnd.AllowListInRouteOrder | electron/src/preload.js:9-24 | the bridge's allow-list names the registered handlers one for one, in registration order |
| EndToEnd.AllowListIsHandlerTable | electron/src/handlers/ipcHandlers.js:5-168 | a channel gets through the bridge exactly when it has a handler |
| EndToEnd.NoticesAreNotDelivered | electron/src/preload.js:36-42 | the worker's `python-error` notifications go to a channel the bridge never subscribes to |
| EndToEnd.ReplySettles | server/tts_server.py:418-434 | a reply the worker writes settles the host's request as meant: success with its data, failure with the exception text or the host's fallback |
| EndToEnd.UnknownTypeIsNullResponse | electron/src/services/pythonService.js:404-407 | a command type with no branch comes back as `null`, which the host reports as a null response |
| EndToEnd.EveryRouteHasABranch | server/tts_server.py:217-393 | every command type a handler sends has a branch in the worker |
| EndToEnd.ServiceChannelsAllowed | lib/audio-service.ts:93-101 | every service method invokes a channel the bridge forwards unchanged |
| EndToEnd.CallRoute | lib/audio-service.ts:93-101 | each service method's channel is a registered route, and that route's handler builds the command the method stands for from the method's argument |
| EndToEnd.ServiceCallEnvelope | electron/src/handlers/ipcHandlers.js:5-168 | every service call other than generation reaches the handler registered for its channel, which sends the matching command type with the argument under the route's field, and the worker has a branch for it |
| EndToEnd.TemplateCallFields | electron/src/handlers/ipcHandlers.js:124-135 | `createFromTemplate` sends `{templateName, newName}`, and the handler turns it into an envelope with exactly those fields |
| EndToEnd.GenerationReachesTheModel | lib/audio-service.ts:103-134 | a request with a voice passes the bridge, is sent as `{type: "generate-audio", params}`, and passes the worker's field checks, so the reply is the model's |
| EndToEnd.CompletedGenerationDelivered | electron/src/handlers/ipcHandlers.js:39-46 | for a completed generation, the renderer receives the bare data array |
| EndToEnd.CompletedGenerationRejected | lib/audio-service.ts:140-142 | as written, that array is reported as "Audio generation failed" |
| EndToEnd.CompletedGenerationAccepted | lib/audio-service.ts:144-164 | with the corrected check, it is accepted as a buffer of the same samples at the same rate |

## Left out

- The Python installation and toolchain plumbing (pythonService.js:29-296): creating virtual environments, installing packages and locating interpreters are filesystem and process work with no logic beyond the command choice, which `PythonCommand` models.
- The speech model is not modelled: loading it, the generation body (conditioning, sampling, decoding), conditioners and voice settings. Its outcome is an input to `Dispatch` (`Env.model`).
- JSON text is not modelled: `JSON.stringify`/`json.dumps`, `JSON.parse`/`json.loads` and the newline framing. Lines are parsed values or parse errors; stdin holds the envelopes written.
- Timers, the clock and child processes are not modelled; timer firings and process events are explicit events.
- Web Audio playback and the duration estimate are not modelled, since they run in the browser. The same goes for the `Blob`/object-URL download and export progress. `ExportWav` stops at the byte buffer.
- AudioService.ToFloat32: single-precision rounding is not modelled (finite values keep their real value); only the overflow to infinity is.
- TtsServer.ConstructError: a dataclass constructor given the wrong keys raises one generic message, not CPython's text naming the unexpected or missing argument; which one CPython names first depends on the JSON key order, which the model does not keep.
- TtsServer.PyStr: `str()` of a non-integral number, a list or an object is not modelled. A branch that formats such an identifier fails with a placeholder message, where Python would go on with the formatted text (`1.5.json`). A JSON number written as `5.0` is formatted as `5`, where Python keeps `5.0`.
- TtsServer.FileOf: file names are flat keys of the directory map. An identifier containing `/` or `..`, or an absolute path, reaches outside the projects directory in Python, and one with a NUL character raises; neither is modelled.
- TtsServer.ModifiedKey: a record whose `modified` is neither a number nor a boolean sorts as 0. Python compares strings among themselves and raises `TypeError` on mixed types. Records the worker saves always carry a number.
- Files the worker reads (`projects/*.json`, `settings.json`, `history.json`) are given as decoded records. A file whose JSON would make `ProjectSettings(**data)`, `AppSettings(**data)` or `HistoryEntry(**entry)` raise is not modelled. History entries are taken to have the shape the worker writes: string id, action and details, a numeric timestamp, a boolean `reversible`, and an object or null `data`.
- TtsServer.Serve: the progress and error lines that model loading and generation print to stderr (tts_server.py:187-212, 255-274, 347) are not modelled. stderr holds `main`'s parse errors and `handle_command`'s failure log.
- JsValues.ToLower: only ASCII, Latin-1 (`À`–`Þ` except `×`) and Cyrillic (`Ѐ`–`Я`) capitals are lowered. Capitals of other scripts (Greek, Latin Extended, Armenian, …) are kept as they are, and the mappings that change the length or depend on context (`İ` to two code units, final sigma) are not modelled.
- AudioService.ToFloat32Array: an element that is a string or an array converts to NaN, where JavaScript's `ToNumber` parses a numeric string (`"0.5"`) or a one-element array. An argument that is a string or an object gives an empty buffer, where JavaScript reads a numeric string as a length and an object as array-like.
- ProjectPanel.MaxId: `Math.max` of an empty list is `-Infinity`; the model requires a non-empty list, since the panel offers duplication only for a listed project.
- A project named `x.backup` shares its file with the backup of `x`; the store keeps this collision as written. Nothing in the worker creates backup files, so `undo_action` only restores backups placed there externally (`DeleteIsNotUndone`).
- PythonService.DefaultSamplesPath: `path.join` is modelled with POSIX separators. The Windows rules (backslashes, drive letters, UNC prefixes) are not modelled.
- PythonService.Session.Start: whether a call awaits `setupPythonEnv` (an unpackaged app, or no bundled `Zonos` directory) is an input (`StartMode`), not read from the filesystem. The error messages of `setupPythonEnv` and `mkdirSync` are inputs too.
- TextEditor.InsertSsml: the selection offsets and `substring` count UTF-16 code units, while the model's strings count characters. Text outside the Basic Multilingual Plane (emoji, for instance) is therefore indexed differently, and a selection boundary inside a surrogate pair is not modelled.
- TextEditor.Substring: indexes characters, not UTF-16 code units (see `TextEditor.InsertSsml`).
- Electron's wrapping of handler errors into the renderer's rejection is not modelled: the model keeps the message and not the "Error invoking remote method" prefix.
- UI rendering is not modelled: the components' JSX, dialogs, tabs, sliders and other panels (voice selector, emotion controls, history, settings, help, license, sidebar).
- server/api.py, electron/src/main.js and electron/src/utils/envConfig.js are not part of this model.

## Findings

| source | as written | input that shows it | evidently intended | confidence | as-written member | corrected member |
|---|---|---|---|---|---|---|
| lib/audio-service.ts:140-142 | `generateAudio` tests `response.success`, but the host handler resolves with the bare `data` of the worker's envelope, a `[sampleRate, samples]` array | any completed generation, e.g. `[24000, [0.1]]` | validate the array that actually arrives: rate, then samples | not executed | AudioService.BareArrayAlwaysFails | AudioService.WellFormedSynthesisPasses |
| electron/src/services/pythonService.js:355-365 | the `close` handler clears `pythonProcess` and `pythonReadline` whichever process closed | two requests with no worker running in an app that sets up its Python environment first: each `sendToPython` starts a worker without a window, both launch (the second killing the first), then the first worker's close event; the second worker is orphaned, `cleanup()` never kills it, and no notice is sent | clear the handles only when the closing process is the current one | not executed | PythonService.RestartThenOldClose | PythonService.RestartThenOldCloseOwn |

=== FILE: audio_preview.dfy ===
/**
 * The preview player (components/audio-preview.tsx): the WAV serialiser that
 * writes a 16-bit PCM RIFF WAVE file into a zero-filled buffer through a
 * little-endian view, the time label, the skip buttons, the simulated playback
 * tick, and the checks a synthesis result must pass before it is played.
 */
module AudioPreview {
  import opened Wrappers
  import opened JsValues
  import AudioService

  type Float32 = AudioService.Float32

  newtype Byte = x: int | 0 <= x < 256

  const Two16: nat := 0x1_0000
  const Two32: nat := 0x1_0000_0000

  /* ---------------------------------------------------------------- */
  /* Little-endian reading, and the bytes each setter writes            */

  function U16At(b: seq<Byte>, o: nat): nat
    requires o + 2 <= |b|
  {
    b[o] as nat + 256 * b[o + 1] as nat
  }

  function U32At(b: seq<Byte>, o: nat): nat
    requires o + 4 <= |b|
  {
    U16At(b, o) + Two16 * U16At(b, o + 2)
  }

  /** A two's-complement 16-bit value read back. */
  function I16At(b: seq<Byte>, o: nat): int
    requires o + 2 <= |b|
  {
    var u := U16At(b, o);
    if u >= 0x8000 then u - Two16 else u
  }

  /** `ToUint8` and friends: JavaScript's modular conversions of an integral value. */
  function Low8(v: int): Byte { (v % 256) as Byte }

  function Le16(v: int): (r: seq<Byte>)
    ensures |r| == 2
  {
    var u := v % Two16;
    [Low8(u), Low8(u / 256)]
  }

  function Le32(v: int): (r: seq<Byte>)
    ensures |r| == 4
  {
    var u := v % Two32;
    Le16(u % Two16) + Le16(u / Two16)
  }

  /** What `writeString` stores for a string: each UTF-16 code unit modulo 256. */
  function Ascii(s: string): (r: seq<Byte>)
    ensures |r| == |s|
  {
    seq(|s|, i requires 0 <= i < |s| => Low8(s[i] as int))
  }

  /** Reading back what a 16- or 32-bit setter wrote yields the value modulo the width;
      a signed read of a 16-bit value in range yields the value itself. */
  lemma Le16RoundTrip(v: int)
    ensures U16At(Le16(v), 0) == v % Two16
    ensures -0x8000 <= v < 0x8000 ==> I16At(Le16(v), 0) == v
  {
    var u := v % Two16;
    assert u == (u % 256) + 256 * (u / 256);
  }

  lemma Le32RoundTrip(v: int)
    ensures U32At(Le32(v), 0) == v % Two32
  {
    var u := v % Two32;
    Le16RoundTrip(u % Two16);
    Le16RoundTrip(u / Two16);
    assert Le32(v)[..2] == Le16(u % Two16);
    assert Le32(v)[2..] == Le16(u / Two16);
    assert U16At(Le32(v), 2) == U16At(Le16(u / Two16), 0);
  }

  /* ---------------------------------------------------------------- */
  /* JavaScript number conversions                                      */

  /** Truncation toward zero. */
  function Trunc(x: real): int {
    if x >= 0.0 then x.Floor else -((-x).Floor)
  }

  /** `ToUint32` of a finite number. */
  function ToUint32(x: real): (r: nat)
    ensures r < Two32
  {
    Trunc(x) % Two32
  }

  /** The byte rate field: `sampleRate * blockAlign`, converted by `setUint32`. */
  function ByteRate(sampleRate: real, channels: nat): nat {
    ToUint32(sampleRate * (channels * 2) as real)
  }

  /** The 16-bit sample written for a float sample: clamped to [-1, 1], scaled by 32768
      when negative and by 32767 otherwise, truncated by the `Int16Array` store
      (audio-preview.tsx:165-166). `NaN` survives the clamp and stores 0. */
  function PcmSample(f: Float32): (v: int)
    ensures -0x8000 <= v < 0x8000
  {
    match f
    case Finite(x) =>
      var s := if x < -1.0 then -1.0 else if x > 1.0 then 1.0 else x;
      if s < 0.0 then Trunc(s * 32768.0) else Trunc(s * 32767.0)
    case PosInfinity => 0x7FFF
    case NegInfinity => -0x8000
    case NaN => 0
  }

  /** Full scale is reached exactly at the clamp bounds, and the sign is kept. */
  lemma PcmSampleScale(x: real)
    ensures PcmSample(AudioService.Finite(x)) == -0x8000 <==> x <= -1.0
    ensures PcmSample(AudioService.Finite(x)) == 0x7FFF <==> x >= 1.0
    ensures x >= 0.0 ==> PcmSample(AudioService.Finite(x)) >= 0
    ensures x <= 0.0 ==> PcmSample(AudioService.Finite(x)) <= 0
  {
    var s := if x < -1.0 then -1.0 else if x > 1.0 then 1.0 else x;
    if s < 0.0 {
      assert -32768.0 <= s * 32768.0 < 0.0;
      if x > -1.0 {
        assert s * 32768.0 > -32768.0;
        assert (-(s * 32768.0)).Floor < 32768;
      }
    } else if x < 1.0 {
      assert s * 32767.0 < 32767.0;
      assert (s * 32767.0).Floor < 32767;
    }
  }

  /* ---------------------------------------------------------------- */
  /* The DataView setters and `writeString`                              */

  /** Only `bytes` are written, at `offset`; everything else keeps its value. */
  ghost predicate WroteAt(a: seq<Byte>, old_a: seq<Byte>, offset: nat, bytes: seq<Byte>) {
    && |a| == |old_a| && offset + |bytes| <= |a|
    && (forall j :: 0 <= j < |a| && !(offset <= j < offset + |bytes|) ==> a[j] == old_a[j])
    && (forall j :: 0 <= j < |bytes| ==> a[offset + j] == bytes[j])
  }

  method SetUint16(view: array<Byte>, offset: nat, v: int)
    modifies view
    requires offset + 2 <= view.Length
    ensures WroteAt(view[..], old(view[..]), offset, Le16(v))
  {
    var bytes := Le16(v);
    view[offset] := bytes[0];
    view[offset + 1] := bytes[1];
  }

  /** `setInt16` writes the same bytes as `setUint16`: both reduce modulo 2^16. */
  method SetInt16(view: array<Byte>, offset: nat, v: int)
    modifies view
    requires offset + 2 <= view.Length
    ensures WroteAt(view[..], old(view[..]), offset, Le16(v))
  {
    SetUint16(view, offset, v);
  }

  method SetUint32(view: array<Byte>, offset: nat, v: int)
    modifies view
    requires offset + 4 <= view.Length
    ensures WroteAt(view[..], old(view[..]), offset, Le32(v))
  {
    var bytes := Le32(v);
    view[offset] := bytes[0];
    view[offset + 1] := bytes[1];
    view[offset + 2] := bytes[2];
    view[offset + 3] := bytes[3];
  }

  /** `writeString`: one `setUint8` per code unit (audio-preview.tsx:174-178), written
      here as the byte store `setUint8` performs. */
  method WriteString(view: array<Byte>, offset: nat, s: string)
    modifies view
    requires offset + |s| <= view.Length
    ensures WroteAt(view[..], old(view[..]), offset, Ascii(s))
  {
    var i := 0;
    while i < |s|
      invariant 0 <= i <= |s|
      invariant forall j :: 0 <= j < view.Length && !(offset <= j < offset + i) ==> view[j] == old(view[j])
      invariant forall j :: 0 <= j < i ==> view[offset + j] == Ascii(s)[j]
    {
      view[offset + i] := Low8(s[i] as int);
      i := i + 1;
    }
  }

  /* ---------------------------------------------------------------- */
  /* exportWAV                                                          */

  /** The `RIFF` chunk descriptor: the tag, the size of everything after it, and the
      form type `WAVE` (bytes 0-11). */
  ghost predicate RiffPart(b: seq<Byte>, n: nat)
    requires |b| >= 44
  {
    b[0..4] == Ascii("RIFF") && U32At(b, 4) == (44 + 2 * n - 8) % Two32 && b[8..12] == Ascii("WAVE")
  }

  /** The first half of the 16-byte `fmt ` chunk: the tag, the chunk size, PCM and the
      channel count (bytes 12-23). */
  ghost predicate FmtHead(b: seq<Byte>, channels: nat)
    requires |b| >= 44
  {
    && b[12..16] == Ascii("fmt ") && U32At(b, 16) == 16
    && U16At(b, 20) == 1 && U16At(b, 22) == channels % Two16
  }

  /** The second half: the rate, the byte rate, the block alignment and 16 bits per
      sample (bytes 24-35). */
  ghost predicate FmtRates(b: seq<Byte>, channels: nat, sampleRate: real)
    requires |b| >= 44
  {
    && U32At(b, 24) == ToUint32(sampleRate)
    && U32At(b, 28) == ByteRate(sampleRate, channels)
    && U16At(b, 32) == (channels * 2) % Two16 && U16At(b, 34) == 16
  }

  ghost predicate FmtPart(b: seq<Byte>, channels: nat, sampleRate: real)
    requires |b| >= 44
  {
    FmtHead(b, channels) && FmtRates(b, channels, sampleRate)
  }

  /** The `data` chunk header: the tag and the size of the samples (bytes 36-43). */
  ghost predicate DataPart(b: seq<Byte>, n: nat)
    requires |b| >= 44
  {
    b[36..40] == Ascii("data") && U32At(b, 40) == (2 * n) % Two32
  }

  /** The 44-byte header of a 16-bit PCM WAVE file. */
  ghost predicate WaveHeader(b: seq<Byte>, channels: nat, sampleRate: real, n: nat) {
    |b| >= 44 && RiffPart(b, n) && FmtPart(b, channels, sampleRate) && DataPart(b, n)
  }

  ghost predicate SameRange(a: seq<Byte>, b: seq<Byte>, lo: nat, hi: nat) {
    hi <= |a| && hi <= |b| && forall j :: lo <= j < hi ==> a[j] == b[j]
  }

  lemma RiffPartFrame(a: seq<Byte>, b: seq<Byte>, n: nat)
    requires |a| >= 44 && |b| >= 44 && RiffPart(a, n) && SameRange(a, b, 0, 12)
    ensures RiffPart(b, n)
  {
    assert a[0..4] == b[0..4] && a[8..12] == b[8..12];
  }

  lemma FmtHeadFrame(a: seq<Byte>, b: seq<Byte>, channels: nat)
    requires |a| >= 44 && |b| >= 44 && FmtHead(a, channels) && SameRange(a, b, 12, 24)
    ensures FmtHead(b, channels)
  {
    assert a[12..16] == b[12..16];
  }

  lemma FmtRatesFrame(a: seq<Byte>, b: seq<Byte>, channels: nat, sampleRate: real)
    requires |a| >= 44 && |b| >= 44 && FmtRates(a, channels, sampleRate) && SameRange(a, b, 24, 36)
    ensures FmtRates(b, channels, sampleRate)
  {
  }

  lemma FmtPartFrame(a: seq<Byte>, b: seq<Byte>, channels: nat, sampleRate: real)
    requires |a| >= 44 && |b| >= 44 && FmtPart(a, channels, sampleRate) && SameRange(a, b, 12, 36)
    ensures FmtPart(b, channels, sampleRate)
  {
    FmtHeadFrame(a, b, channels);
    FmtRatesFrame(a, b, channels, sampleRate);
  }

  lemma DataPartFrame(a: seq<Byte>, b: seq<Byte>, n: nat)
    requires |a| >= 44 && |b| >= 44 && DataPart(a, n) && SameRange(a, b, 36, 44)
    ensures DataPart(b, n)
  {
    assert a[36..40] == b[36..40];
  }

  /** Sample `i` sits at byte 44 + 2i, little-endian. */
  ghost predicate PcmData(b: seq<Byte>, samples: seq<Float32>)
    requires |b| == 44 + 2 * |samples|
  {
    forall i :: 0 <= i < |samples| ==> I16At(b, 44 + 2 * i) == PcmSample(samples[i])
  }

  lemma ReadBack16(a: seq<Byte>, o: nat, v: int)
    requires o + 2 <= |a| && a[o..o + 2] == Le16(v)
    ensures U16At(a, o) == v % Two16
    ensures -0x8000 <= v < 0x8000 ==> I16At(a, o) == v
  {
    Le16RoundTrip(v);
    assert a[o] == Le16(v)[0] && a[o + 1] == Le16(v)[1];
  }

  /** The 16-bit value a `setUint16` wrote reads back reduced modulo 2^16. */
  lemma Wrote16(a: seq<Byte>, before: seq<Byte>, o: nat, v: int)
    requires WroteAt(a, before, o, Le16(v))
    ensures U16At(a, o) == v % Two16
  {
    Le16RoundTrip(v);
    assert a[o] == Le16(v)[0] && a[o + 1] == Le16(v)[1];
  }

  /** The 32-bit value a `setUint32` wrote reads back reduced modulo 2^32. */
  lemma Wrote32(a: seq<Byte>, before: seq<Byte>, o: nat, v: int)
    requires WroteAt(a, before, o, Le32(v))
    ensures U32At(a, o) == v % Two32
  {
    Le32RoundTrip(v);
    assert a[o] == Le32(v)[0] && a[o + 1] == Le32(v)[1];
    assert a[o + 2] == Le32(v)[2] && a[o + 3] == Le32(v)[3];
  }

  /** The string `writeString` wrote reads back. */
  lemma WroteTag(a: seq<Byte>, before: seq<Byte>, o: nat, s: string)
    requires WroteAt(a, before, o, Ascii(s))
    ensures a[o..o + |s|] == Ascii(s)
  {
  }

  /** A later write elsewhere leaves the bytes `lo..hi` as they were. */
  lemma Untouched(a: seq<Byte>, before: seq<Byte>, o: nat, bytes: seq<Byte>, lo: nat, hi: nat)
    requires WroteAt(a, before, o, bytes) && lo <= hi <= |a|
    requires hi <= o || o + |bytes| <= lo
    ensures a[lo..hi] == before[lo..hi]
  {
  }

  lemma SameBytes16(a: seq<Byte>, b: seq<Byte>, o: nat)
    requires o + 2 <= |a| && o + 2 <= |b| && a[o..o + 2] == b[o..o + 2]
    ensures U16At(a, o) == U16At(b, o)
  {
    assert a[o] == a[o..o + 2][0] && a[o + 1] == a[o..o + 2][1];
  }

  lemma SameBytes32(a: seq<Byte>, b: seq<Byte>, o: nat)
    requires o + 4 <= |a| && o + 4 <= |b| && a[o..o + 4] == b[o..o + 4]
    ensures U32At(a, o) == U32At(b, o)
  {
    assert a[o..o + 2] == a[o..o + 4][0..2] && a[o + 2..o + 4] == a[o..o + 4][2..4];
    SameBytes16(a, b, o);
    SameBytes16(a, b, o + 2);
  }

  /** audio-preview.tsx:143-145. */
  method WriteRiff(view: array<Byte>, n: nat)
    modifies view
    requires view.Length == 44 + 2 * n
    ensures RiffPart(view[..], n)
    ensures forall j :: 12 <= j < view.Length ==> view[j] == old(view[j])
  {
    ghost var s0 := view[..];
    WriteString(view, 0, "RIFF");
    ghost var s1 := view[..];
    WroteTag(s1, s0, 0, "RIFF");
    SetUint32(view, 4, 44 + 2 * n - 8);
    ghost var s2 := view[..];
    Wrote32(s2, s1, 4, 44 + 2 * n - 8);
    Untouched(s2, s1, 4, Le32(44 + 2 * n - 8), 0, 4);
    WriteString(view, 8, "WAVE");
    ghost var s3 := view[..];
    WroteTag(s3, s2, 8, "WAVE");
    Untouched(s3, s2, 8, Ascii("WAVE"), 0, 4);
    Untouched(s3, s2, 8, Ascii("WAVE"), 4, 8);
    SameBytes32(s3, s2, 4);
  }

  /** audio-preview.tsx:148-151. */
  method WriteFmtHead(view: array<Byte>, channels: nat)
    modifies view
    requires view.Length >= 44
    ensures FmtHead(view[..], channels)
    ensures forall j :: 0 <= j < view.Length && !(12 <= j < 24) ==> view[j] == old(view[j])
  {
    ghost var s0 := view[..];
    WriteString(view, 12, "fmt ");
    ghost var s1 := view[..];
    WroteTag(s1, s0, 12, "fmt ");
    SetUint32(view, 16, 16);
    ghost var s2 := view[..];
    Wrote32(s2, s1, 16, 16);
    Untouched(s2, s1, 16, Le32(16), 12, 16);
    SetUint16(view, 20, 1);
    ghost var s3 := view[..];
    Wrote16(s3, s2, 20, 1);
    Untouched(s3, s2, 20, Le16(1), 12, 16);
    Untouched(s3, s2, 20, Le16(1), 16, 20);
    SameBytes32(s3, s2, 16);
    SetUint16(view, 22, channels);
    ghost var s4 := view[..];
    Wrote16(s4, s3, 22, channels);
    Untouched(s4, s3, 22, Le16(channels), 12, 16);
    Untouched(s4, s3, 22, Le16(channels), 16, 20);
    Untouched(s4, s3, 22, Le16(channels), 20, 22);
    SameBytes32(s4, s3, 16);
    SameBytes16(s4, s3, 20);
  }

  /** audio-preview.tsx:152-155, with the values already converted. */
  method WriteFmtRates(view: array<Byte>, rate: int, byteRate: int, blockAlign: int)
    modifies view
    requires view.Length >= 44
    ensures U32At(view[..], 24) == rate % Two32 && U32At(view[..], 28) == byteRate % Two32
    ensures U16At(view[..], 32) == blockAlign % Two16 && U16At(view[..], 34) == 16
    ensures forall j :: 0 <= j < view.Length && !(24 <= j < 36) ==> view[j] == old(view[j])
  {
    ghost var s0 := view[..];
    SetUint32(view, 24, rate);
    ghost var s1 := view[..];
    Wrote32(s1, s0, 24, rate);
    SetUint32(view, 28, byteRate);
    ghost var s2 := view[..];
    Wrote32(s2, s1, 28, byteRate);
    Untouched(s2, s1, 28, Le32(byteRate), 24, 28);
    SameBytes32(s2, s1, 24);
    SetUint16(view, 32, blockAlign);
    ghost var s3 := view[..];
    Wrote16(s3, s2, 32, blockAlign);
    Untouched(s3, s2, 32, Le16(blockAlign), 24, 28);
    Untouched(s3, s2, 32, Le16(blockAlign), 28, 32);
    SameBytes32(s3, s2, 24);
    SameBytes32(s3, s2, 28);
    SetUint16(view, 34, 16);
    ghost var s4 := view[..];
    Wrote16(s4, s3, 34, 16);
    Untouched(s4, s3, 34, Le16(16), 24, 28);
    Untouched(s4, s3, 34, Le16(16), 28, 32);
    Untouched(s4, s3, 34, Le16(16), 32, 34);
    SameBytes32(s4, s3, 24);
    SameBytes32(s4, s3, 28);
    SameBytes16(s4, s3, 32);
  }

  /** audio-preview.tsx:148-155. */
  method WriteFmt(view: array<Byte>, channels: nat, sampleRate: real)
    modifies view
    requires view.Length >= 44
    ensures FmtPart(view[..], channels, sampleRate)
    ensures forall j :: 0 <= j < view.Length && !(12 <= j < 36) ==> view[j] == old(view[j])
  {
    WriteFmtHead(view, channels);
    ghost var head := view[..];
    var rate, byteRate := ToUint32(sampleRate), ByteRate(sampleRate, channels);
    WriteFmtRates(view, rate, byteRate, channels * 2);
    ghost var b := view[..];
    SmallIsOwnResidue(rate, Two32);
    SmallIsOwnResidue(byteRate, Two32);
    assert FmtRates(b, channels, sampleRate);
    assert SameRange(head, b, 12, 24);
    FmtHeadFrame(head, b, channels);
  }

  lemma SmallIsOwnResidue(x: nat, m: nat)
    requires x < m
    ensures x % m == x
  {
  }

  /** audio-preview.tsx:158-159. */
  method WriteDataHeader(view: array<Byte>, n: nat)
    modifies view
    requires view.Length >= 44
    ensures DataPart(view[..], n)
    ensures forall j :: 0 <= j < view.Length && !(36 <= j < 44) ==> view[j] == old(view[j])
  {
    ghost var s0 := view[..];
    WriteString(view, 36, "data");
    ghost var s1 := view[..];
    WroteTag(s1, s0, 36, "data");
    SetUint32(view, 40, 2 * n);
    ghost var s2 := view[..];
    Wrote32(s2, s1, 40, 2 * n);
    Untouched(s2, s1, 40, Le32(2 * n), 36, 40);
  }

  /** Writes the header fields in the order of audio-preview.tsx:143-159. */
  method WriteHeader(view: array<Byte>, channels: nat, sampleRate: real, n: nat)
    modifies view
    requires view.Length == 44 + 2 * n
    ensures WaveHeader(view[..], channels, sampleRate, n)
    ensures forall j :: 44 <= j < view.Length ==> view[j] == old(view[j])
  {
    WriteRiff(view, n);
    ghost var riff := view[..];
    WriteFmt(view, channels, sampleRate);
    ghost var fmt := view[..];
    WriteDataHeader(view, n);
    RiffPartFrame(riff, view[..], n);
    FmtPartFrame(fmt, view[..], channels, sampleRate);
  }

  /** The sample loop (audio-preview.tsx:162-169), with its running offset. */
  method WriteSamples(view: array<Byte>, samples: seq<Float32>)
    modifies view
    requires view.Length == 44 + 2 * |samples|
    ensures PcmData(view[..], samples)
    ensures view[..44] == old(view[..44])
  {
    var offset := 44;
    var i := 0;
    while i < |samples|
      invariant 0 <= i <= |samples| && offset == 44 + 2 * i
      invariant view[..44] == old(view[..44])
      invariant forall k :: 0 <= k < i ==> I16At(view[..], 44 + 2 * k) == PcmSample(samples[k])
    {
      var sample := PcmSample(samples[i]);
      ghost var before := view[..];
      SetInt16(view, offset, sample);
      ReadBack16(view[..], offset, sample);
      forall k | 0 <= k < i
        ensures I16At(view[..], 44 + 2 * k) == PcmSample(samples[k])
      {
        assert view[..][44 + 2 * k] == before[44 + 2 * k];
        assert view[..][45 + 2 * k] == before[45 + 2 * k];
      }
      assert view[..44] == before[..44];
      offset := offset + 2;
      i := i + 1;
    }
  }

  /** `exportWAV` for a rendered buffer with `channels` channels at `sampleRate`, whose
      first channel holds `samples`: a fresh buffer of exactly 44 + 2n bytes holding the
      header and the samples. */
  method ExportWav(channels: nat, sampleRate: real, samples: seq<Float32>) returns (wav: array<Byte>)
    ensures fresh(wav)
    ensures wav.Length == 44 + 2 * |samples|
    ensures WaveHeader(wav[..], channels, sampleRate, |samples|)
    ensures PcmData(wav[..], samples)
  {
    wav := new Byte[44 + 2 * |samples|];
    WriteHeader(wav, channels, sampleRate, |samples|);
    ghost var header := wav[..];
    WriteSamples(wav, samples);
    assert SameRange(header, wav[..], 0, 44) by {
      forall j | 0 <= j < 44 ensures header[j] == wav[..][j] {
        assert header[..44][j] == wav[..][..44][j];
      }
    }
    RiffPartFrame(header, wav[..], |samples|);
    FmtPartFrame(header, wav[..], channels, sampleRate);
    DataPartFrame(header, wav[..], |samples|);
  }

  /* ---------------------------------------------------------------- */
  /* Time label, skip buttons, playback tick                            */

  /** JavaScript's `%`: the remainder takes the sign of the dividend. */
  function JsRem(x: real, m: real): real
    requires m > 0.0
  {
    x - m * Trunc(x / m) as real
  }

  /** `padStart(2, "0")`. */
  function PadTwo(s: string): (r: string)
    ensures |s| >= 2 ==> r == s
    ensures |s| < 2 ==> |r| == 2 && r[2 - |s|..] == s
  {
    if |s| >= 2 then s else seq(2 - |s|, _ => '0') + s
  }

  /** `formatTime` (audio-preview.tsx:180-184). */
  function FormatTime(seconds: real): string {
    var mins := (seconds / 60.0).Floor;
    var secs := JsRem(seconds, 60.0).Floor;
    IntToString(mins) + ":" + PadTwo(IntToString(secs))
  }

  /** For a non-negative time the label is minutes and two-digit seconds that add back up
      to the whole seconds elapsed. */
  lemma FormatTimeParts(seconds: real)
    requires seconds >= 0.0
    ensures var mins, secs := (seconds / 60.0).Floor, JsRem(seconds, 60.0).Floor;
      && 0 <= secs < 60 && mins >= 0
      && mins * 60 + secs == seconds.Floor
      && FormatTime(seconds) == NatToString(mins) + ":" + PadTwo(NatToString(secs))
      && |PadTwo(NatToString(secs))| == 2
  {
    var q := (seconds / 60.0).Floor;
    assert q as real <= seconds / 60.0 < q as real + 1.0;
    var r := seconds - 60.0 * q as real;
    assert 0.0 <= r < 60.0;
    assert JsRem(seconds, 60.0) == r;
    var secs := r.Floor;
    assert seconds == 60.0 * q as real + r;
    assert (60 * q + secs) as real <= seconds < (60 * q + secs + 1) as real;
    if secs < 10 {
      assert NatToString(secs) == [Digit(secs)];
    } else {
      assert NatToString(secs) == NatToString(secs / 10) + [Digit(secs % 10)];
    }
  }

  /** The skip-back button (audio-preview.tsx:208). */
  function SkipBack(current: real): (t: real)
    ensures t >= 0.0 && t <= (if current >= 0.0 then current else 0.0)
    ensures current >= 10.0 ==> t == current - 10.0
  {
    if current - 10.0 > 0.0 then current - 10.0 else 0.0
  }

  /** The skip-forward button (audio-preview.tsx:216). */
  function SkipForward(current: real, duration: real): (t: real)
    ensures t <= duration && t <= current + 10.0
    ensures current <= duration ==> t >= current
    ensures current + 10.0 <= duration ==> t == current + 10.0
  {
    if duration < current + 10.0 then duration else current + 10.0
  }

  /** One tick of the simulated playback (audio-preview.tsx:48-54): the new time and
      whether playback goes on. */
  function Tick(prev: real, duration: real): (r: (real, bool))
    ensures r.1 <==> prev < duration
    ensures !r.1 ==> r.0 == 0.0
    ensures r.1 ==> r.0 == prev + 1.0
  {
    if prev >= duration then (0.0, false) else (prev + 1.0, true)
  }

  /** Ticking keeps the time in [0, duration + 1): it can pass the end by less than one
      second before it resets. */
  lemma TickStaysInRange(prev: real, duration: real)
    requires duration >= 0.0 && 0.0 <= prev < duration + 1.0
    ensures 0.0 <= Tick(prev, duration).0 < duration + 1.0
  {
  }

  /** The number of ticks, the last one included, until `Tick` stops playback. */
  function TicksUntilStop(prev: real, duration: real): nat
    requires duration >= 0.0 && 0.0 <= prev
    decreases (duration - prev).Floor + 1
  {
    var (next, goesOn) := Tick(prev, duration);
    if !goesOn then 1 else 1 + TicksUntilStop(next, duration)
  }

  /** Starting anywhere in range, playback stops within floor(duration - prev) + 2
      ticks, so within `duration + 2` ticks from the start. */
  lemma {:induction false} TicksUntilStopBound(prev: real, duration: real)
    requires duration >= 0.0 && 0.0 <= prev < duration + 1.0
    ensures TicksUntilStop(prev, duration) <= (duration - prev).Floor + 2
    decreases (duration - prev).Floor + 1
  {
    if prev < duration {
      TicksUntilStopBound(prev + 1.0, duration);
      assert (duration - (prev + 1.0)).Floor == (duration - prev).Floor - 1;
    }
  }

  /* ---------------------------------------------------------------- */
  /* Playback validation (audio-preview.tsx:61-80)                      */

  datatype Playback = Skipped | InvalidRate | EmptyBuffer | NonFinite | Accepted

  /** The effect's checks on `generatedAudio`, in order: absent or with a zero rate it
      does nothing; then the rate, the length and the samples are checked. */
  function CheckPlayback(generated: Option<AudioService.Synthesis>): (r: Playback)
    ensures r == Accepted <==>
      generated.Some? && generated.value.sampleRate > 0.0 && |generated.value.buffer| > 0
      && forall i :: 0 <= i < |generated.value.buffer| ==> generated.value.buffer[i].Finite?
  {
    if generated.None? || generated.value.sampleRate == 0.0 then Skipped
    else if generated.value.sampleRate <= 0.0 then InvalidRate
    else if |generated.value.buffer| == 0 then EmptyBuffer
    else if exists i :: 0 <= i < |generated.value.buffer| && !generated.value.buffer[i].Finite? then NonFinite
    else Accepted
  }
}

=== FILE: audio_service.dfy ===
/**
 * The renderer's service object (lib/audio-service.ts): every method invokes one
 * channel of the bridge; `generateAudio` flattens its parameters into the bag the
 * worker reads and validates what comes back through an ordered chain of guards.
 */
module AudioService {
  import opened Wrappers
  import opened JsValues
  import PythonService

  type Message = PythonService.Message

  /** `GenerateAudioParams.emotion`. */
  datatype Emotion = Emotion(e1: real, e2: real, e3: real, e4: real, e5: real, e6: real, e7: real, e8: real)

  /** `GenerateAudioParams.sampling`. */
  datatype Sampling = Sampling(topP: real, topK: real, minP: real, linear: real, confidence: real, quadratic: real)

  /** An optional, nullable string property: left undefined, `null`, or a string. */
  datatype Nullable = Undefined | NullValue | Value(s: string)

  /** `GenerateAudioParams` (audio-service.ts:3-37). */
  datatype GenerateAudioParams = GenerateAudioParams(
    modelChoice: string, text: string, language: string,
    speakerAudio: Nullable, prefixAudio: Nullable,
    emotion: Emotion,
    vqSingle: real, fmax: real, pitchStd: real, speakingRate: real, dnsmosOvrl: real,
    speakerNoised: bool, cfgScale: real,
    sampling: Sampling,
    seed: real, randomizeSeed: bool, unconditionalKeys: seq<string>)

  function Strings(ss: seq<string>): (r: Json)
    ensures r.Arr? && |r.items| == |ss|
    ensures forall i :: 0 <= i < |ss| ==> r.items[i] == Str(ss[i])
  {
    Arr(seq(|ss|, i requires 0 <= i < |ss| => Str(ss[i])))
  }

  /** The properties of the flat bag that are always defined. */
  const BaseKeys: set<string> := {
    "model_choice", "text", "language", "e1", "e2", "e3", "e4", "e5", "e6", "e7", "e8",
    "vq_single", "fmax", "pitch_std", "speaking_rate", "dnsmos_ovrl", "speaker_noised", "cfg_scale",
    "top_p", "top_k", "min_p", "linear", "confidence", "quadratic",
    "seed", "randomize_seed", "unconditional_keys"}

  /** The properties that survive serialisation: an undefined audio path is dropped. */
  function BagKeys(p: GenerateAudioParams): set<string> {
    BaseKeys
    + (if p.speakerAudio.Undefined? then {} else {"speaker_audio"})
    + (if p.prefixAudio.Undefined? then {} else {"prefix_audio"})
  }

  function NullableJson(v: Nullable): Json {
    if v.Value? then Str(v.s) else Null
  }

  /** Emotion `e<d>` of `params.emotion` (audio-service.ts:110-117). */
  function EmotionAt(e: Emotion, d: char): real {
    if d == '1' then e.e1 else if d == '2' then e.e2 else if d == '3' then e.e3
    else if d == '4' then e.e4 else if d == '5' then e.e5 else if d == '6' then e.e6
    else if d == '7' then e.e7 else e.e8
  }

  /** The value of property `k` of the bag (audio-service.ts:105-133); the properties
      `e1`..`e8` are `e` followed by the number of the emotion. */
  function BagValue(p: GenerateAudioParams, k: string): Json {
    if k == "model_choice" then Str(p.modelChoice)
    else if k == "text" then Str(p.text)
    else if k == "language" then Str(p.language)
    else if k == "speaker_audio" then NullableJson(p.speakerAudio)
    else if k == "prefix_audio" then NullableJson(p.prefixAudio)
    else if |k| == 2 && k[0] == 'e' then Num(EmotionAt(p.emotion, k[1]))
    else if k == "vq_single" then Num(p.vqSingle)
    else if k == "fmax" then Num(p.fmax)
    else if k == "pitch_std" then Num(p.pitchStd)
    else if k == "speaking_rate" then Num(p.speakingRate)
    else if k == "dnsmos_ovrl" then Num(p.dnsmosOvrl)
    else if k == "speaker_noised" then Bool(p.speakerNoised)
    else if k == "cfg_scale" then Num(p.cfgScale)
    else if k == "top_p" then Num(p.sampling.topP)
    else if k == "top_k" then Num(p.sampling.topK)
    else if k == "min_p" then Num(p.sampling.minP)
    else if k == "linear" then Num(p.sampling.linear)
    else if k == "confidence" then Num(p.sampling.confidence)
    else if k == "quadratic" then Num(p.sampling.quadratic)
    else if k == "seed" then Num(p.seed)
    else if k == "randomize_seed" then Bool(p.randomizeSeed)
    else Strings(p.unconditionalKeys)
  }


  /** The flat bag `generateAudio` passes on `generate-audio`, as the worker receives it. */
  function Flatten(p: GenerateAudioParams): Json {
    Obj(map k | k in BagKeys(p) :: BagValue(p, k))
  }

  /** The model goes under `model_choice`. */
  lemma FlattenModel(p: GenerateAudioParams)
    ensures Flatten(p).fields["model_choice"] == Str(p.modelChoice)
    ensures Flatten(p).fields["text"] == Str(p.text) && Flatten(p).fields["language"] == Str(p.language)
  {
  }

  /** The emotions become `e1`..`e8`. */
  /* One lemma per property: each lookup is cheap on its own, several in one proof are not. */
  lemma FlattenE1(p: GenerateAudioParams) ensures Flatten(p).fields["e1"] == Num(p.emotion.e1) {}
  lemma FlattenE2(p: GenerateAudioParams) ensures Flatten(p).fields["e2"] == Num(p.emotion.e2) {}
  lemma FlattenE3(p: GenerateAudioParams) ensures Flatten(p).fields["e3"] == Num(p.emotion.e3) {}
  lemma FlattenE4(p: GenerateAudioParams) ensures Flatten(p).fields["e4"] == Num(p.emotion.e4) {}
  lemma FlattenE5(p: GenerateAudioParams) ensures Flatten(p).fields["e5"] == Num(p.emotion.e5) {}
  lemma FlattenE6(p: GenerateAudioParams) ensures Flatten(p).fields["e6"] == Num(p.emotion.e6) {}
  lemma FlattenE7(p: GenerateAudioParams) ensures Flatten(p).fields["e7"] == Num(p.emotion.e7) {}
  lemma FlattenE8(p: GenerateAudioParams) ensures Flatten(p).fields["e8"] == Num(p.emotion.e8) {}

  /** The emotions become `e1`..`e8`. */
  lemma FlattenEmotion(p: GenerateAudioParams)
    ensures Flatten(p).fields["e1"] == Num(p.emotion.e1) && Flatten(p).fields["e2"] == Num(p.emotion.e2)
    ensures Flatten(p).fields["e3"] == Num(p.emotion.e3) && Flatten(p).fields["e4"] == Num(p.emotion.e4)
    ensures Flatten(p).fields["e5"] == Num(p.emotion.e5) && Flatten(p).fields["e6"] == Num(p.emotion.e6)
    ensures Flatten(p).fields["e7"] == Num(p.emotion.e7) && Flatten(p).fields["e8"] == Num(p.emotion.e8)
  {
    FlattenE1(p); FlattenE2(p); FlattenE3(p); FlattenE4(p);
    FlattenE5(p); FlattenE6(p); FlattenE7(p); FlattenE8(p);
  }

  lemma FlattenTopP(p: GenerateAudioParams) ensures Flatten(p).fields["top_p"] == Num(p.sampling.topP) {}
  lemma FlattenTopK(p: GenerateAudioParams) ensures Flatten(p).fields["top_k"] == Num(p.sampling.topK) {}
  lemma FlattenMinP(p: GenerateAudioParams) ensures Flatten(p).fields["min_p"] == Num(p.sampling.minP) {}
  lemma FlattenLinear(p: GenerateAudioParams) ensures Flatten(p).fields["linear"] == Num(p.sampling.linear) {}
  lemma FlattenConfidence(p: GenerateAudioParams) ensures Flatten(p).fields["confidence"] == Num(p.sampling.confidence) {}
  lemma FlattenQuadratic(p: GenerateAudioParams) ensures Flatten(p).fields["quadratic"] == Num(p.sampling.quadratic) {}

  /** The sampling fields move to the top level. */
  lemma FlattenSampling(p: GenerateAudioParams)
    ensures Flatten(p).fields["top_p"] == Num(p.sampling.topP) && Flatten(p).fields["top_k"] == Num(p.sampling.topK)
    ensures Flatten(p).fields["min_p"] == Num(p.sampling.minP) && Flatten(p).fields["linear"] == Num(p.sampling.linear)
    ensures Flatten(p).fields["confidence"] == Num(p.sampling.confidence)
    ensures Flatten(p).fields["quadratic"] == Num(p.sampling.quadratic)
  {
    FlattenTopP(p); FlattenTopK(p); FlattenMinP(p);
    FlattenLinear(p); FlattenConfidence(p); FlattenQuadratic(p);
  }

  /** The remaining fields keep their names. */
  lemma FlattenSameNames(p: GenerateAudioParams)
    ensures var f := Flatten(p).fields;
      && f["vq_single"] == Num(p.vqSingle) && f["fmax"] == Num(p.fmax) && f["pitch_std"] == Num(p.pitchStd)
      && f["speaking_rate"] == Num(p.speakingRate) && f["dnsmos_ovrl"] == Num(p.dnsmosOvrl)
  {
  }

  lemma FlattenSameNamesRest(p: GenerateAudioParams)
    ensures var f := Flatten(p).fields;
      && f["speaker_noised"] == Bool(p.speakerNoised) && f["cfg_scale"] == Num(p.cfgScale)
      && f["seed"] == Num(p.seed) && f["randomize_seed"] == Bool(p.randomizeSeed)
      && f["unconditional_keys"] == Strings(p.unconditionalKeys)
  {
  }

  /** A defined audio path is kept, `null` included. */
  lemma FlattenOptional(p: GenerateAudioParams)
    ensures var f := Flatten(p).fields;
      && (!p.speakerAudio.Undefined? ==> f["speaker_audio"] == NullableJson(p.speakerAudio))
      && (!p.prefixAudio.Undefined? ==> f["prefix_audio"] == NullableJson(p.prefixAudio))
  {
  }

  /** An undefined audio path is left out. */
  lemma FlattenDropsUndefined(p: GenerateAudioParams)
    ensures p.speakerAudio.Undefined? ==> "speaker_audio" !in Flatten(p).fields
    ensures p.prefixAudio.Undefined? ==> "prefix_audio" !in Flatten(p).fields
  {
    SpeakerAudioIsOptional();
    PrefixAudioIsOptional();
  }

  lemma SpeakerAudioIsOptional() ensures "speaker_audio" !in BaseKeys {}
  lemma PrefixAudioIsOptional() ensures "prefix_audio" !in BaseKeys {}

  /** The worker's required field is always there: a non-empty model choice reaches it. */
  lemma FlattenedModelChoice(p: GenerateAudioParams)
    requires p.modelChoice != ""
    ensures Flatten(p).Obj? && "model_choice" in Flatten(p).fields
    ensures Truthy(Flatten(p))
  {
  }

  /* ---------------------------------------------------------------- */
  /* Float32Array                                                       */

  /** An element of a `Float32Array`. Finite values are kept as the number rounded;
      the rounding itself is not modelled. */
  datatype Float32 = Finite(v: real) | PosInfinity | NegInfinity | NaN

  /** The smallest magnitude that rounds to infinity in single precision: halfway
      between the largest float, 2^128 - 2^104, and 2^128. */
  const Float32Overflow: real := 340282356779733661637539395458142568448.0

  function ToFloat32(x: real): (f: Float32)
    ensures f.Finite? <==> -Float32Overflow < x < Float32Overflow
  {
    if x >= Float32Overflow then PosInfinity
    else if x <= -Float32Overflow then NegInfinity
    else Finite(x)
  }

  /** `ToNumber` of an array element, then single precision. Strings and nested
      containers convert to NaN here. */
  function ElementToFloat32(v: Json): Float32 {
    match v
    case Num(n) => ToFloat32(n)
    case Null => Finite(0.0)
    case Bool(b) => Finite(if b then 1.0 else 0.0)
    case _ => NaN
  }

  /** `new Float32Array(x)`: an array is converted element by element; a number is a
      length (truncated) and yields that many zeros, a negative one throws. */
  function ToFloat32Array(x: Json): (r: Result<seq<Float32>, string>)
    ensures x.Arr? ==> r.Ok? && |r.value| == |x.items|
    ensures x.Arr? ==> forall i :: 0 <= i < |x.items| ==> r.value[i] == ElementToFloat32(x.items[i])
  {
    match x
    case Arr(items) => Ok(seq(|items|, i requires 0 <= i < |items| => ElementToFloat32(items[i])))
    case Num(n) =>
      var t := if n >= 0.0 then n.Floor else -((-n).Floor);
      if t < 0 then Err("Invalid typed array length: " + IntToString(t))
      else Ok(seq(t, _ => Finite(0.0)))
    case Bool(b) => Ok(if b then [Finite(0.0)] else [])
    case _ => Ok([])
  }

  /** `Number.isFinite`: no coercion, so only numbers can pass. */
  predicate IsFiniteNumber(v: Json) {
    v.Num?
  }

  /* ---------------------------------------------------------------- */
  /* The guards                                                         */

  const NoResponse := "No response received from audio generation server"
  const GenerationFailed := "Audio generation failed"
  const BadFormat := "Invalid response format from audio generation server"
  const BadSampleRate := "Invalid sample rate received from server"
  const BadSamples := "Audio data contains invalid samples"

  /** What `generateAudio` returns. */
  datatype Synthesis = Synthesis(buffer: seq<Float32>, sampleRate: real)

  /** `new Error(v || fallback)`. */
  function ErrorOr(v: Option<Json>, fallback: string): Message {
    if Present(v) then (if v.value.Str? then PythonService.Text(v.value.s) else PythonService.Coerced(v.value))
    else PythonService.Text(fallback)
  }

  /** The checks after the envelope test (audio-service.ts:144-164). */
  function CheckData(data: Option<Json>): (r: Result<Synthesis, Message>)
    ensures r.Ok? ==>
      && data.Some? && data.value.Arr? && |data.value.items| == 2
      && data.value.items[0] == Num(r.value.sampleRate) && r.value.sampleRate > 0.0
      && ToFloat32Array(data.value.items[1]) == Ok(r.value.buffer)
      && forall i :: 0 <= i < |r.value.buffer| ==> r.value.buffer[i].Finite?
    ensures Present(data) && data.value.Arr? && |data.value.items| == 2
      && data.value.items[0].Num? && data.value.items[0].n > 0.0
      && ToFloat32Array(data.value.items[1]).Ok?
      && (forall i :: 0 <= i < |ToFloat32Array(data.value.items[1]).value| ==>
            ToFloat32Array(data.value.items[1]).value[i].Finite?)
      ==> r.Ok?
  {
    if !Present(data) || !data.value.Arr? || |data.value.items| != 2 then Err(PythonService.Text(BadFormat))
    else
      var rate := data.value.items[0];
      if !IsFiniteNumber(rate) || rate.n <= 0.0 then Err(PythonService.Text(BadSampleRate))
      else match ToFloat32Array(data.value.items[1])
        case Err(m) => Err(PythonService.Text(m))
        case Ok(buffer) =>
          if exists i :: 0 <= i < |buffer| && !buffer[i].Finite? then Err(PythonService.Text(BadSamples))
          else Ok(Synthesis(buffer, rate.n))
  }

  /** `generateAudio` after its `invoke` resolved with `response` (audio-service.ts:136-164),
      as written: it expects the worker's whole `{success, data}` envelope. */
  function ValidateResponse(response: Json): (r: Result<Synthesis, Message>)
    ensures !Truthy(response) ==> r == Err(PythonService.Text(NoResponse))
    ensures Truthy(response) && !Present(Get(response, "success")) ==>
      r == Err(ErrorOr(Get(response, "error"), GenerationFailed))
    ensures r.Ok? ==> Present(Get(response, "success")) && CheckData(Get(response, "data")) == r
  {
    if !Truthy(response) then Err(PythonService.Text(NoResponse))
    else if !Present(Get(response, "success")) then Err(ErrorOr(Get(response, "error"), GenerationFailed))
    else CheckData(Get(response, "data"))
  }

  /** The validation as it can be met by what the host resolves with, the bare
      `[sampleRate, samples]` array: the envelope test is dropped, and the array itself is
      validated. */
  function ValidateSynthesis(response: Json): (r: Result<Synthesis, Message>)
    ensures !Truthy(response) ==> r == Err(PythonService.Text(NoResponse))
    ensures r.Ok? ==>
      && response.Arr? && |response.items| == 2 && response.items[0] == Num(r.value.sampleRate)
      && r.value.sampleRate > 0.0 && ToFloat32Array(response.items[1]) == Ok(r.value.buffer)
      && forall i :: 0 <= i < |r.value.buffer| ==> r.value.buffer[i].Finite?
  {
    if !Truthy(response) then Err(PythonService.Text(NoResponse)) else CheckData(Some(response))
  }

  /** The guards in source order: a falsy response fails first, then the envelope test,
      then the shape, then the rate, then the samples. */
  lemma {:induction false} GuardOrder(response: Json)
    requires Truthy(response) && Present(Get(response, "success"))
    ensures var d := Get(response, "data");
      && (!Present(d) || !d.value.Arr? || |d.value.items| != 2 ==> ValidateResponse(response) == Err(PythonService.Text(BadFormat)))
      && (Present(d) && d.value.Arr? && |d.value.items| == 2 && (!d.value.items[0].Num? || d.value.items[0].n <= 0.0) ==>
            ValidateResponse(response) == Err(PythonService.Text(BadSampleRate)))
  {
    assert ValidateResponse(response) == CheckData(Get(response, "data"));
  }

  /** A sample beyond single precision makes the whole response fail, even with a
      valid rate. */
  lemma {:induction false} OverflowingSampleFails(rate: real, samples: seq<Json>, i: nat)
    requires rate > 0.0 && i < |samples| && samples[i] == Num(Float32Overflow)
    ensures ValidateSynthesis(Arr([Num(rate), Arr(samples)])) == Err(PythonService.Text(BadSamples))
  {
    var buffer := ToFloat32Array(Arr(samples)).value;
    assert buffer[i] == PosInfinity;
  }

  /** A well-formed synthesis result passes the corrected check, with one buffer entry
      per sample and the rate unchanged. */
  lemma {:induction false} WellFormedSynthesisPasses(rate: real, samples: seq<real>)
    requires rate > 0.0
    requires forall i :: 0 <= i < |samples| ==> -Float32Overflow < samples[i] < Float32Overflow
    ensures var data := Arr([Num(rate), Arr(seq(|samples|, i requires 0 <= i < |samples| => Num(samples[i])))]);
      ValidateSynthesis(data) == Ok(Synthesis(seq(|samples|, i requires 0 <= i < |samples| => Finite(samples[i])), rate))
  {
    var items := seq(|samples|, i requires 0 <= i < |samples| => Num(samples[i]));
    var buffer := ToFloat32Array(Arr(items)).value;
    assert forall i :: 0 <= i < |buffer| ==> buffer[i] == Finite(samples[i]);
    assert buffer == seq(|samples|, i requires 0 <= i < |samples| => Finite(samples[i]));
  }

  /** `new Float32Array(n)` reads a number as a length: a non-negative number of
      samples passes the corrected check as that many zeros. */
  lemma {:induction false} LengthArgumentGivesSilence(rate: real, n: nat)
    requires rate > 0.0
    ensures ValidateSynthesis(Arr([Num(rate), Num(n as real)])) == Ok(Synthesis(seq(n, _ => Finite(0.0)), rate))
  {
    assert (n as real).Floor == n;
  }

  /** As written, no array can ever pass: arrays have no `success` property, so every
      result the host resolves with fails the envelope test with the fallback message. */
  lemma BareArrayAlwaysFails(items: seq<Json>)
    ensures ValidateResponse(Arr(items)) == Err(PythonService.Text(GenerationFailed))
  {
  }

  /* ---------------------------------------------------------------- */
  /* The other methods                                                  */

  /** A call on the service object other than `generateAudio`. */
  datatype Call =
    | GetSupportedModels
    | GetModelConditioners(modelChoice: string)
    | GetSettings
    | UpdateSettings(settings: Json)
    | GetProjects
    | SaveProject(project: Json)
    | GetProject(projectId: string)
    | GetHistory
    | DeleteProject(projectId: string)
    | CreateFromTemplate(templateName: string, newName: string)
    | ClearHistory
    | UndoAction(actionId: string)
    | GetVoiceSettings(voice: string)

  /** The channel and arguments each method invokes (audio-service.ts:93-101, 167-213). */
  function Invocation(c: Call): (r: (string, seq<Json>))
    ensures |r.1| <= 1
  {
    match c
    case GetSupportedModels => ("get-supported-models", [])
    case GetModelConditioners(m) => ("get-model-conditioners", [Str(m)])
    case GetSettings => ("get-settings", [])
    case UpdateSettings(s) => ("update-settings", [s])
    case GetProjects => ("get-projects", [])
    case SaveProject(p) => ("save-project", [p])
    case GetProject(id) => ("get-project", [Str(id)])
    case GetHistory => ("get-history", [])
    case DeleteProject(id) => ("delete-project", [Str(id)])
    case CreateFromTemplate(t, n) =>
      ("create-from-template", [Obj(map["templateName" := Str(t), "newName" := Str(n)])])
    case ClearHistory => ("clear-history", [])
    case UndoAction(id) => ("undo-action", [Str(id)])
    case GetVoiceSettings(v) => ("get-voice-settings", [Str(v)])
  }

  /** The generation call: one bag on `generate-audio`. */
  function GenerateInvocation(p: GenerateAudioParams): (string, seq<Json>) {
    ("generate-audio", [Flatten(p)])
  }
}

=== FILE: ipc_handlers.dfy ===
/**
 * The command gateway (electron/src/handlers/ipcHandlers.js): one `ipcMain.handle`
 * per channel, each building one command envelope and forwarding it to
 * `sendToPython`. A handler is modelled as a function of its argument and of the
 * outcome `sendToPython` produced for the envelope it sent.
 */
module IpcHandlers {
  import opened Wrappers
  import opened JsValues
  import opened PythonService

  /** How a handler turns its argument into envelope fields. */
  datatype Shape =
    | NoArg                  // the envelope is `{ type }`
    | Field(name: string)    // the argument lands in one field
    | TemplateArgs           // `{ templateName, newName }` is destructured into two fields

  /** One `ipcMain.handle` registration. */
  datatype Route = Route(channel: string, kind: string, shape: Shape)

  /** The 14 handlers, in registration order (ipcHandlers.js:5-168). */
  const Routes: seq<Route> := [
    Route("get-supported-models", "get_models", NoArg),
    Route("get-model-conditioners", "get_conditioners", Field("model")),
    Route("generate-audio", "generate-audio", Field("params")),
    Route("get-settings", "get_settings", NoArg),
    Route("update-settings", "update_settings", Field("settings")),
    Route("get-projects", "get_projects", NoArg),
    Route("save-project", "save_project", Field("project")),
    Route("get-project", "get_project", Field("projectId")),
    Route("get-history", "get_history", NoArg),
    Route("delete-project", "delete_project", Field("projectId")),
    Route("create-from-template", "create_from_template", TemplateArgs),
    Route("clear-history", "clear_history", NoArg),
    Route("undo-action", "undo_action", Field("actionId")),
    Route("get-voice-settings", "get_voice_settings", Field("voice"))
  ]

  const NoParams := "No parameters provided for audio generation"
  const NoResult := "No result received from Python process"
  /** The message of the `TypeError` V8 throws when `{ templateName, newName }` is
      destructured from `undefined` (a missing argument) or from `null`. */
  function CannotDestructure(arg: Option<Json>): string {
    if arg.None? then "Cannot destructure property 'templateName' of 'undefined' as it is undefined."
    else "Cannot destructure property 'templateName' of 'null' as it is null."
  }

  /** The set of channels that have a handler. */
  function HandledChannels(): set<string> {
    set r | r in Routes :: r.channel
  }

  /** The route registered for `channel`, if any. */
  function RouteOf(channel: string): (r: Option<Route>)
    ensures r.Some? <==> channel in HandledChannels()
    ensures r.Some? ==> r.value in Routes && r.value.channel == channel
  {
    RouteIn(Routes, channel)
  }

  function RouteIn(rs: seq<Route>, channel: string): (r: Option<Route>)
    ensures r.Some? <==> exists k :: 0 <= k < |rs| && rs[k].channel == channel
    ensures r.Some? ==> r.value in rs && r.value.channel == channel
  {
    if rs == [] then None
    else if rs[0].channel == channel then Some(rs[0])
    else RouteIn(rs[1..], channel)
  }

  /** A field set to `v`, or left out when `v` is undefined. */
  function FieldOf(name: string, v: Option<Json>): map<string, Json> {
    if v.Some? then map[name := v.value] else map[]
  }

  /** The envelope a handler sends for argument `arg`, or the error it throws before
      calling `sendToPython`. */
  function Build(r: Route, arg: Option<Json>): Result<Envelope, Message> {
    match r.shape
    case NoArg => Ok(Envelope(r.kind, map[]))
    case Field(name) =>
      if r.kind == GenerateAudio && !Present(arg) then Err(Text(NoParams))
      else Ok(Envelope(r.kind, FieldOf(name, arg)))
    case TemplateArgs =>
      if arg.None? || arg.value.Null? then Err(Text(CannotDestructure(arg)))
      else Ok(Envelope(r.kind, FieldOf("templateName", Get(arg.value, "templateName"))
                                 + FieldOf("newName", Get(arg.value, "newName"))))
  }

  /** What a handler did: the envelope it sent (if any), how its promise settled, and the
      notifications it sent to the window. */
  datatype Handled = Handled(sent: Option<Envelope>, result: Outcome, notices: seq<Notice>)

  /** The handler for route `r` with argument `arg`, given the outcome `reply` that
      `sendToPython` produces for the envelope it sends. */
  function Handle(r: Route, arg: Option<Json>, reply: Outcome): Handled {
    match Build(r, arg)
    case Err(m) =>
      Handled(None, Rejected(m), if r.kind == GenerateAudio then [GenerationError(m)] else [])
    case Ok(e) =>
      if r.kind != GenerateAudio then Handled(Some(e), reply, [])
      else match reply
        case Rejected(m) => Handled(Some(e), reply, [GenerationError(m)])
        case Resolved(d) =>
          if Present(d) then Handled(Some(e), reply, [])
          else Handled(Some(e), Rejected(Text(NoResult)), [GenerationError(Text(NoResult))])
  }

  /** Every handler that sends, sends exactly one envelope whose `type` is its route's, with
      only the fields of its shape: the argument under the route's field, or the two
      destructured template fields. */
  lemma SentEnvelopeShape(r: Route, arg: Option<Json>, reply: Outcome)
    ensures var h := Handle(r, arg, reply);
      h.sent.Some? ==>
        && h.sent.value.kind == r.kind
        && (r.shape.NoArg? ==> h.sent.value.args == map[])
        && (r.shape.Field? && arg.Some? ==> h.sent.value.args == map[r.shape.name := arg.value])
        && (r.shape.TemplateArgs? ==> h.sent.value.args.Keys <= {"templateName", "newName"})
        && (r.shape.TemplateArgs? && arg.value.Obj? ==>
              forall k :: k in {"templateName", "newName"} && k in arg.value.fields ==>
                k in h.sent.value.args && h.sent.value.args[k] == arg.value.fields[k])
  {
  }

  /** Only the `generate-audio` channel sends commands of type `generate-audio`; its
      argument goes under `params`. */
  lemma GenerateAudioRoute(r: Route)
    requires r in Routes
    ensures r.channel == "generate-audio" <==> r.kind == GenerateAudio
    ensures r.channel == "generate-audio" ==> r.shape == Field("params")
  {
  }

  /** `generate-audio` with falsy params throws before anything is sent, and notifies once. */
  lemma GenerateAudioWithoutParams(r: Route, arg: Option<Json>, reply: Outcome)
    requires r in Routes && r.channel == "generate-audio" && !Present(arg)
    ensures Handle(r, arg, reply) == Handled(None, Rejected(Text(NoParams)), [GenerationError(Text(NoParams))])
  {
    GenerateAudioRoute(r);
  }

  /** Every `generate-audio` failure sends exactly one `generation-error` notification
      carrying the error it rethrows; a success sends none and returns the result as is. */
  lemma GenerateAudioFailuresNotifyOnce(r: Route, arg: Option<Json>, reply: Outcome)
    requires r in Routes && r.channel == "generate-audio"
    ensures var h := Handle(r, arg, reply);
      && (h.result.Rejected? ==> h.notices == [GenerationError(h.result.error)])
      && (h.result.Resolved? ==> h.notices == [] && h.result == reply && Present(reply.data))
      && (Present(arg) && reply.Resolved? && !Present(reply.data) ==> h.result == Rejected(Text(NoResult)))
      && (Present(arg) && reply.Rejected? ==> h.result == reply)
  {
    GenerateAudioRoute(r);
  }

  /** Every other handler returns what `sendToPython` produced, unchanged, and notifies
      nobody; only the destructuring of a missing template argument fails before sending. */
  lemma OtherHandlersPassThrough(r: Route, arg: Option<Json>, reply: Outcome)
    requires r in Routes && r.channel != "generate-audio"
    requires r.shape.TemplateArgs? ==> arg.Some? && !arg.value.Null?
    ensures Handle(r, arg, reply).result == reply
    ensures Handle(r, arg, reply).notices == []
    ensures Handle(r, arg, reply).sent.Some?
  {
    GenerateAudioRoute(r);
  }

  /* ---------------------------------------------------------------- */
  /* Each channel is registered once                                    */

  /** The lookup finds the first registration with a channel: one whose channel no
      earlier registration has is found as itself. */
  lemma {:induction false} FirstRegistrationFound(rs: seq<Route>, k: nat)
    requires k < |rs| && forall j :: 0 <= j < k ==> rs[j].channel != rs[k].channel
    ensures RouteIn(rs, rs[k].channel) == Some(rs[k])
  {
    if k > 0 {
      FirstRegistrationFound(rs[1..], k - 1);
    }
  }

  /** `ipcMain.handle` takes one handler per channel: looking a registered channel up
      finds its own registration. */
  lemma ChannelsRegisteredOnce()
    ensures forall i :: 0 <= i < |Routes| ==> RouteOf(Routes[i].channel) == Some(Routes[i])
  {
    forall i | 0 <= i < |Routes|
      ensures RouteOf(Routes[i].channel) == Some(Routes[i])
    {
      forall j | 0 <= j < i
        ensures Routes[j].channel != Routes[i].channel
      {
      }
      FirstRegistrationFound(Routes, i);
    }
  }
}

=== FILE: js_values.dfy ===
/**
 * JSON values as they cross the process boundary, and the few JavaScript
 * conversions the host and the renderer apply to them: truthiness, property
 * access, `String.prototype.trim`, `toLowerCase` and `includes`.
 */
module JsValues {
  import opened Wrappers

  /** A value produced by `JSON.parse` or consumed by `json.dumps`. */
  datatype Json =
    | Null
    | Bool(b: bool)
    | Num(n: real)
    | Str(s: string)
    | Arr(items: seq<Json>)
    | Obj(fields: map<string, Json>)

  /** JavaScript truthiness of a parsed value (JSON cannot produce NaN). */
  predicate Truthy(v: Json) {
    match v
    case Null => false
    case Bool(b) => b
    case Num(n) => n != 0.0
    case Str(s) => s != ""
    case Arr(_) => true
    case Obj(_) => true
  }

  /** Truthiness of a possibly-undefined value. */
  predicate Present(v: Option<Json>) {
    v.Some? && Truthy(v.value)
  }

  /**
   * Property access `v.key`: only objects carry the named properties used by
   * the system (`success`, `data`, `error`); on anything else it is undefined.
   */
  function Get(v: Json, key: string): (r: Option<Json>)
    ensures r.Some? <==> v.Obj? && key in v.fields
    ensures r.Some? ==> r.value == v.fields[key]
  {
    if v.Obj? && key in v.fields then Some(v.fields[key]) else None
  }

  /** The characters `String.prototype.trim` removes (WhiteSpace and LineTerminator). */
  predicate IsJsWhitespace(c: char) {
    var n := c as int;
    n == 0x09 || n == 0x0A || n == 0x0B || n == 0x0C || n == 0x0D || n == 0x20
    || n == 0xA0 || n == 0x1680 || (0x2000 <= n <= 0x200A) || n == 0x2028
    || n == 0x2029 || n == 0x202F || n == 0x205F || n == 0x3000 || n == 0xFEFF
  }

  function TrimStart(s: string): string {
    if s != [] && IsJsWhitespace(s[0]) then TrimStart(s[1..]) else s
  }

  function TrimEnd(s: string): string {
    if s != [] && IsJsWhitespace(s[|s| - 1]) then TrimEnd(s[..|s| - 1]) else s
  }

  /** `s.trim()`. */
  function Trim(s: string): string {
    TrimEnd(TrimStart(s))
  }

  /** Every character is one that `trim` removes. */
  predicate AllWhitespace(s: string) {
    forall i :: 0 <= i < |s| ==> IsJsWhitespace(s[i])
  }

  lemma {:induction false} TrimStartEmpty(s: string)
    ensures TrimStart(s) == [] <==> AllWhitespace(s)
  {
    if s != [] && IsJsWhitespace(s[0]) {
      TrimStartEmpty(s[1..]);
      assert AllWhitespace(s[1..]) ==> AllWhitespace(s) by {
        if AllWhitespace(s[1..]) {
          forall i | 0 <= i < |s| ensures IsJsWhitespace(s[i]) {
            if i > 0 { assert s[i] == s[1..][i - 1]; }
          }
        }
      }
    }
  }

  /** What `TrimStart` leaves is empty or starts with a character `trim` keeps. */
  lemma {:induction false} TrimStartShape(s: string)
    ensures TrimStart(s) == [] <==> AllWhitespace(s)
    ensures TrimStart(s) != [] ==> !IsJsWhitespace(TrimStart(s)[0])
  {
    if s != [] && IsJsWhitespace(s[0]) {
      TrimStartShape(s[1..]);
      if AllWhitespace(s[1..]) {
        forall i | 0 <= i < |s| ensures IsJsWhitespace(s[i]) {
          if i > 0 { assert s[i] == s[1..][i - 1]; }
        }
      }
    } else if s != [] {
      assert !AllWhitespace(s) by { assert !IsJsWhitespace(s[0]); }
    }
  }

  /** `TrimEnd` never removes a leading character that is not whitespace. */
  lemma {:induction false} TrimEndKeepsHead(t: string)
    requires t != [] && !IsJsWhitespace(t[0])
    ensures TrimEnd(t) != [] && TrimEnd(t)[0] == t[0]
  {
    if IsJsWhitespace(t[|t| - 1]) {
      assert |t| > 1;
      TrimEndKeepsHead(t[..|t| - 1]);
    }
  }

  /** `s.trim() === ''` holds exactly when every character of `s` is whitespace. */
  lemma TrimEmptyIffBlank(s: string)
    ensures Trim(s) == "" <==> AllWhitespace(s)
  {
    TrimStartShape(s);
    if TrimStart(s) != [] {
      TrimEndKeepsHead(TrimStart(s));
    }
  }

  /** What `toLowerCase` adds to a capital letter of the blocks modelled, and 0 for every
      other character: `A`..`Z`, the Latin-1 capitals `À`..`Þ` (not `×`) and the Cyrillic
      capitals `А`..`Я` move by 32, the Cyrillic capitals `Ѐ`..`Џ` by 80. */
  function LowerOffset(c: char): int {
    var n := c as int;
    if 0x41 <= n <= 0x5A || (0xC0 <= n <= 0xDE && n != 0xD7) || 0x410 <= n <= 0x42F then 32
    else if 0x400 <= n <= 0x40F then 80
    else 0
  }

  /** `toLowerCase` of one character. */
  function LowerChar(c: char): (r: char)
    ensures 'A' <= c <= 'Z' ==> r as int == c as int + 32
    ensures LowerOffset(r) == 0
    ensures LowerOffset(c) == 0 ==> r == c
  {
    (c as int + LowerOffset(c)) as char
  }

  /** `s.toLowerCase()`, character by character. */
  function ToLower(s: string): (r: string)
    ensures |r| == |s|
    ensures forall i :: 0 <= i < |s| ==> r[i] == LowerChar(s[i])
  {
    if s == [] then [] else [LowerChar(s[0])] + ToLower(s[1..])
  }

  /** Lower-casing twice is lower-casing once. */
  lemma ToLowerIdempotent(s: string)
    ensures ToLower(ToLower(s)) == ToLower(s)
  {
    var t := ToLower(s);
    assert forall i :: 0 <= i < |t| ==> LowerChar(t[i]) == t[i];
  }

  /** `s.includes(sub)`: `sub` starts at some position of `s`. */
  predicate Includes(s: string, sub: string) {
    sub <= s || (s != [] && Includes(s[1..], sub))
  }

  /** `sub` is included in `pre + sub + post`. */
  lemma {:induction false} IncludesWindow(pre: string, sub: string, post: string)
    ensures Includes(pre + sub + post, sub)
  {
    if pre != [] {
      assert (pre + sub + post)[1..] == pre[1..] + sub + post;
      IncludesWindow(pre[1..], sub, post);
    } else {
      assert pre + sub + post == sub + post;
    }
  }

  /** Decimal text of a natural number, as `Number.prototype.toString` prints it. */
  function NatToString(n: nat): (r: string)
    ensures |r| >= 1
    ensures forall i :: 0 <= i < |r| ==> '0' <= r[i] <= '9'
    decreases n
  {
    if n < 10 then [Digit(n)] else NatToString(n / 10) + [Digit(n % 10)]
  }

  function Digit(d: nat): (c: char)
    requires d < 10
    ensures '0' <= c <= '9' && c as int - '0' as int == d
  {
    ('0' as int + d) as char
  }

  /** Decimal text of an integer, with a leading `-` when negative. */
  function IntToString(n: int): (r: string)
    ensures |r| >= 1
    ensures (r[0] == '-') <==> n < 0
  {
    if n < 0 then "-" + NatToString(-n) else NatToString(n)
  }

  /** The value a string of decimal digits denotes; the inverse of `NatToString`. */
  function DigitsValue(s: string): nat
    requires forall i :: 0 <= i < |s| ==> '0' <= s[i] <= '9'
  {
    if s == [] then 0 else 10 * DigitsValue(s[..|s| - 1]) + (s[|s| - 1] as int - '0' as int)
  }

  lemma {:induction false} NatToStringValue(n: nat)
    ensures DigitsValue(NatToString(n)) == n
    decreases n
  {
    if n >= 10 {
      NatToStringValue(n / 10);
      var r := NatToString(n);
      assert r[..|r| - 1] == NatToString(n / 10);
    }
  }
}

=== FILE: preload.dfy ===
/**
 * The front-end bridge (electron/src/preload.js): the only IPC surface the
 * renderer sees. Each primitive checks its channel against a constant list.
 */
module Preload {
  import opened Wrappers
  import opened JsValues

  /** The channels `invoke` forwards (preload.js:9-24). */
  const InvokeChannels: seq<string> := [
    "get-supported-models",
    "get-model-conditioners",
    "generate-audio",
    "get-settings",
    "update-settings",
    "get-projects",
    "save-project",
    "get-project",
    "get-history",
    "delete-project",
    "create-from-template",
    "clear-history",
    "undo-action",
    "get-voice-settings"
  ]

  /** The channels `send` forwards and `on` subscribes to. */
  const SendChannels: seq<string> := ["keyPress"]
  const OnChannels: seq<string> := ["fromMain"]

  /** What `invoke(channel, ...args)` does: forward to `ipcRenderer.invoke` or throw. */
  datatype Invocation = Forwarded(channel: string, args: seq<Json>) | Unauthorized(message: string)

  function Invoke(channel: string, args: seq<Json>): Invocation {
    if channel in InvokeChannels then Forwarded(channel, args)
    else Unauthorized("Unauthorized IPC channel: " + channel)
  }

  /** What `send(channel, data)` passes to `ipcRenderer.send`, if anything. */
  function Send(channel: string, data: Json): Option<(string, Json)> {
    if channel in SendChannels then Some((channel, data)) else None
  }

  /** A listener registered through `on`. */
  datatype Subscription = Subscription(channel: string)

  /** What `on(channel, func)` registers with `ipcRenderer.on`, if anything. */
  function On(channel: string): Option<Subscription> {
    if channel in OnChannels then Some(Subscription(channel)) else None
  }

  /** The IPC event the main process delivers first; it carries the sender. */
  datatype IpcEvent = IpcEvent(senderId: nat)

  /** The arguments the renderer's callback receives when `ipcRenderer` calls the
      registered wrapper with an event and arguments. */
  function Callback(sub: Subscription, event: IpcEvent, args: seq<Json>): seq<Json> {
    args
  }

  /** `invoke` forwards the channel and arguments unchanged exactly when the channel is
      listed; otherwise it throws naming the channel and forwards nothing. */
  lemma InvokeSpec(channel: string, args: seq<Json>)
    ensures Invoke(channel, args).Forwarded? <==> channel in InvokeChannels
    ensures Invoke(channel, args).Forwarded? ==> Invoke(channel, args) == Forwarded(channel, args)
    ensures channel !in InvokeChannels ==>
      Invoke(channel, args) == Unauthorized("Unauthorized IPC channel: " + channel)
  {
  }

  /** `send` forwards only `keyPress`, unchanged; anything else is dropped silently. */
  lemma SendSpec(channel: string, data: Json)
    ensures Send(channel, data).Some? <==> channel == "keyPress"
    ensures Send(channel, data).Some? ==> Send(channel, data).value == (channel, data)
  {
  }

  /** `on` registers only for `fromMain`, and the callback gets the arguments without the event. */
  lemma OnSpec(channel: string, e1: IpcEvent, e2: IpcEvent, args: seq<Json>)
    ensures On(channel).Some? <==> channel == "fromMain"
    ensures On(channel).Some? ==> Callback(On(channel).value, e1, args) == args
    ensures On(channel).Some? ==> Callback(On(channel).value, e1, args) == Callback(On(channel).value, e2, args)
  {
  }
}

=== FILE: project_manager.dfy ===
/**
 * The project panel of the renderer (components/project-manager.tsx): a list of
 * projects held in component state, a search box that filters it, a delete
 * confirmation dialog, duplication, and the "save as template" dialog.
 */
module ProjectPanel {
  import opened Wrappers
  import opened JsValues

  /** One row of the project list (project-manager.tsx:34-38). */
  datatype Listing = Listing(id: int, name: string, date: string, duration: string)

  /** The list the panel starts with (project-manager.tsx:33-39). */
  const SampleListings := [
    Listing(1, "Product Review", "2023-11-15", "01:45"),
    Listing(2, "Tutorial Intro", "2023-11-10", "03:22"),
    Listing(3, "Channel Update", "2023-11-05", "00:58"),
    Listing(4, "Gaming Commentary", "2023-10-28", "05:12"),
    Listing(5, "Travel Vlog Narration", "2023-10-20", "02:34")
  ]

  /** A notification the panel shows. */
  datatype Toast = Toast(title: string, description: string)

  /** `Array.prototype.filter`: the elements that pass `keep`, in their order. */
  function Keep<T(!new)>(xs: seq<T>, keep: T -> bool): (r: seq<T>)
    ensures |r| <= |xs|
    ensures forall x :: x in r <==> x in xs && keep(x)
  {
    if xs == [] then []
    else (if keep(xs[0]) then [xs[0]] else []) + Keep(xs[1..], keep)
  }

  /** Filtering a concatenation filters each part and keeps them in order. */
  lemma {:induction false} KeepAppend<T(!new)>(xs: seq<T>, ys: seq<T>, keep: T -> bool)
    ensures Keep(xs + ys, keep) == Keep(xs, keep) + Keep(ys, keep)
  {
    if xs == [] {
      assert xs + ys == ys;
    } else {
      assert (xs + ys)[1..] == xs[1..] + ys;
      KeepAppend(xs[1..], ys, keep);
    }
  }

  /** When every element passes, the filter changes nothing. */
  lemma {:induction false} KeepAll<T(!new)>(xs: seq<T>, keep: T -> bool)
    requires forall i :: 0 <= i < |xs| ==> keep(xs[i])
    ensures Keep(xs, keep) == xs
  {
    if xs != [] {
      KeepAll(xs[1..], keep);
    }
  }

  /** The search test: the lower-cased name contains the lower-cased query. */
  predicate Matches(p: Listing, query: string) {
    Includes(ToLower(p.name), ToLower(query))
  }

  /** `filteredProjects` (project-manager.tsx:41). */
  function Filtered(projects: seq<Listing>, query: string): seq<Listing> {
    Keep(projects, p => Matches(p, query))
  }

  /** The filter keeps exactly the matching projects, in their order. */
  lemma FilteredSpec(a: seq<Listing>, b: seq<Listing>, query: string)
    ensures forall p :: p in Filtered(a, query) <==> p in a && Matches(p, query)
    ensures Filtered(a + b, query) == Filtered(a, query) + Filtered(b, query)
  {
    KeepAppend(a, b, p => Matches(p, query));
  }

  /** A project is found by its own name typed in any case. */
  lemma SearchIgnoresCase(p: Listing, query: string)
    requires ToLower(p.name) == ToLower(query)
    ensures Matches(p, query)
  {
    IncludesWindow([], ToLower(query), []);
    assert [] + ToLower(query) + [] == ToLower(query);
  }

  /** Case is ignored also beyond ASCII: "über" is "Über" typed in lower case. */
  lemma UmlautsIgnoreCase()
    ensures ToLower("Über") == ToLower("über")
  {
    assert LowerChar('Ü') == 'ü';
  }

  /** An empty search box shows every project. */
  lemma EmptyQueryKeepsAll(projects: seq<Listing>)
    ensures Filtered(projects, "") == projects
  {
    forall i | 0 <= i < |projects| ensures Matches(projects[i], "") {
      assert [] <= ToLower(projects[i].name);
    }
    KeepAll(projects, p => Matches(p, ""));
  }

  /** The list without the entries carrying `id` (project-manager.tsx:51). */
  function Without(projects: seq<Listing>, id: int): seq<Listing> {
    Keep(projects, (p: Listing) => p.id != id)
  }

  /** Deleting removes every entry with the id, keeps every other one and their order. */
  lemma WithoutSpec(a: seq<Listing>, b: seq<Listing>, id: int)
    ensures forall p :: p in Without(a, id) <==> p in a && p.id != id
    ensures Without(a + b, id) == Without(a, id) + Without(b, id)
  {
    KeepAppend(a, b, (p: Listing) => p.id != id);
  }

  /** The name of the first entry with the id, as `find(...)?.name`. */
  function NameOf(projects: seq<Listing>, id: int): (r: Option<string>)
    ensures r.Some? <==> exists i :: 0 <= i < |projects| && projects[i].id == id
    ensures r.Some? ==> exists i :: 0 <= i < |projects| && projects[i].id == id && projects[i].name == r.value
  {
    if projects == [] then None
    else if projects[0].id == id then Some(projects[0].name)
    else
      var r := NameOf(projects[1..], id);
      assert forall i :: 0 < i < |projects| ==> projects[i] == projects[1..][i - 1];
      r
  }

  /** `?.name || "Project"`: a missing entry and an empty (falsy) name both fall back. */
  function Announced(found: Option<string>): (r: string)
    ensures r != ""
    ensures found.Some? && found.value != "" ==> r == found.value
  {
    if found.Some? && found.value != "" then found.value else "Project"
  }

  /** `Math.max(...ids)` of a non-empty list. */
  function MaxId(projects: seq<Listing>): (m: int)
    requires projects != []
    ensures forall i :: 0 <= i < |projects| ==> projects[i].id <= m
    ensures exists i :: 0 <= i < |projects| && projects[i].id == m
  {
    if |projects| == 1 then projects[0].id
    else
      var rest := MaxId(projects[1..]);
      assert forall i :: 0 < i < |projects| ==> projects[i] == projects[1..][i - 1];
      if projects[0].id < rest then rest else projects[0].id
  }

  /** `handleDuplicateProject`'s new list (project-manager.tsx:63-71): a copy named
      `<name> (Copy)` dated `today`, with an id above every existing one, in front. */
  function Duplicate(projects: seq<Listing>, p: Listing, today: string): (r: seq<Listing>)
    requires projects != []
    ensures |r| == |projects| + 1 && r[1..] == projects
    ensures forall i :: 0 <= i < |projects| ==> projects[i].id < r[0].id
    ensures r[0].name == p.name + " (Copy)" && r[0].duration == p.duration && r[0].date == today
  {
    [p.(id := MaxId(projects) + 1, name := p.name + " (Copy)", date := today)] + projects
  }

  /** Deleting a fresh duplicate gives back the list it was made from. */
  lemma DeleteUndoesDuplicate(projects: seq<Listing>, p: Listing, today: string)
    requires projects != []
    ensures var r := Duplicate(projects, p, today); Without(r, r[0].id) == projects
  {
    var r := Duplicate(projects, p, today);
    assert r == [r[0]] + projects;
    WithoutSpec([r[0]], projects, r[0].id);
    KeepAll(projects, (q: Listing) => q.id != r[0].id);
  }

  /** The component's state (project-manager.tsx:24-39). */
  class PanelState {
    var searchQuery: string
    var showCreateTemplateDialog: bool
    var showDeleteDialog: bool
    var projectToDelete: Option<int>
    var newTemplateName: string
    var newTemplateDescription: string
    var projects: seq<Listing>

    /** The panel as first rendered. */
    constructor()
      ensures searchQuery == "" && !showCreateTemplateDialog && !showDeleteDialog
      ensures projectToDelete == None && newTemplateName == "" && newTemplateDescription == ""
      ensures projects == SampleListings
    {
      searchQuery := "";
      showCreateTemplateDialog := false;
      showDeleteDialog := false;
      projectToDelete := None;
      newTemplateName := "";
      newTemplateDescription := "";
      projects := SampleListings;
    }

    /** The rows shown for the current search. */
    function Shown(): seq<Listing>
      reads this
    {
      Filtered(projects, searchQuery)
    }

    /** `handleDeleteProject` (project-manager.tsx:43-46): remembers the id and asks for
        confirmation; the list stays as it is. */
    method HandleDeleteProject(id: int)
      modifies this
      ensures projectToDelete == Some(id) && showDeleteDialog
      ensures projects == old(projects) && searchQuery == old(searchQuery)
      ensures showCreateTemplateDialog == old(showCreateTemplateDialog)
      ensures newTemplateName == old(newTemplateName) && newTemplateDescription == old(newTemplateDescription)
    {
      projectToDelete := Some(id);
      showDeleteDialog := true;
    }

    /** `confirmDeleteProject` (project-manager.tsx:48-61): with no pending id nothing
        happens; otherwise every entry with that id goes, the dialog closes and the
        pending id is cleared. */
    method ConfirmDeleteProject() returns (toast: Option<Toast>)
      modifies this
      ensures old(projectToDelete).None? ==>
        toast.None? && projects == old(projects) && showDeleteDialog == old(showDeleteDialog) && projectToDelete.None?
      ensures old(projectToDelete).Some? ==>
        && projects == Without(old(projects), old(projectToDelete).value)
        && !showDeleteDialog && projectToDelete.None?
        && toast == Some(Toast("Project deleted",
             Announced(NameOf(old(projects), old(projectToDelete).value)) + " has been permanently deleted"))
      ensures searchQuery == old(searchQuery) && showCreateTemplateDialog == old(showCreateTemplateDialog)
      ensures newTemplateName == old(newTemplateName) && newTemplateDescription == old(newTemplateDescription)
    {
      toast := None;
      if projectToDelete.Some? {
        var id := projectToDelete.value;
        var projectName := Announced(NameOf(projects, id));
        projects := Without(projects, id);
        showDeleteDialog := false;
        projectToDelete := None;
        toast := Some(Toast("Project deleted", projectName + " has been permanently deleted"));
      }
    }

    /** `handleDuplicateProject` (project-manager.tsx:63-76) for a project of the list. */
    method HandleDuplicateProject(project: Listing, today: string) returns (toast: Toast)
      requires project in projects
      modifies this
      ensures projects == Duplicate(old(projects), project, today)
      ensures toast == Toast("Project duplicated", "Created a copy of " + project.name)
      ensures searchQuery == old(searchQuery) && projectToDelete == old(projectToDelete)
      ensures showDeleteDialog == old(showDeleteDialog) && showCreateTemplateDialog == old(showCreateTemplateDialog)
      ensures newTemplateName == old(newTemplateName) && newTemplateDescription == old(newTemplateDescription)
    {
      projects := Duplicate(projects, project, today);
      toast := Toast("Project duplicated", "Created a copy of " + project.name);
    }

    /** `handleCreateTemplate` (project-manager.tsx:78-80). */
    method HandleCreateTemplate()
      modifies this
      ensures showCreateTemplateDialog
      ensures projects == old(projects) && searchQuery == old(searchQuery) && projectToDelete == old(projectToDelete)
      ensures showDeleteDialog == old(showDeleteDialog)
      ensures newTemplateName == old(newTemplateName) && newTemplateDescription == old(newTemplateDescription)
    {
      showCreateTemplateDialog := true;
    }

    /** `confirmCreateTemplate` (project-manager.tsx:82-90): announces the template under
        the typed name, closes the dialog and empties both fields; the list is untouched. */
    method ConfirmCreateTemplate() returns (toast: Toast)
      modifies this
      ensures toast == Toast("Template created", old(newTemplateName) + " template has been created")
      ensures !showCreateTemplateDialog && newTemplateName == "" && newTemplateDescription == ""
      ensures projects == old(projects) && searchQuery == old(searchQuery) && projectToDelete == old(projectToDelete)
      ensures showDeleteDialog == old(showDeleteDialog)
    {
      showCreateTemplateDialog := false;
      toast := Toast("Template created", newTemplateName + " template has been created");
      newTemplateName := "";
      newTemplateDescription := "";
    }
  }

  /** Asking to delete and confirming removes every entry with the id and nothing else. */
  method DeleteFlow(panel: PanelState, id: int) returns (toast: Option<Toast>)
    modifies panel
    ensures toast.Some?
    ensures forall p :: p in panel.projects <==> p in old(panel.projects) && p.id != id
    ensures !panel.showDeleteDialog && panel.projectToDelete.None?
  {
    panel.HandleDeleteProject(id);
    toast := panel.ConfirmDeleteProject();
    WithoutSpec(old(panel.projects), [], id);
  }
}

=== FILE: python_service.dfy ===
/**
 * The host's worker supervisor and response correlator
 * (electron/src/services/pythonService.js).
 *
 * The module-level `pythonProcess` and `pythonReadline` become the fields of
 * a `Session`. Timers, the child process, its streams and `JSON.parse` are
 * replaced by explicit events: every method of `Session` below is one thing
 * that can happen (a call, a stdout chunk, a line, a timer, a close event).
 * `startPythonProcess` calls are numbered in call order; the process a call
 * spawns, and the readline reading that process's stdout, carry its number.
 */
module PythonService {
  import opened Wrappers
  import opened JsValues

  /** The command object handed to `sendToPython`: its `type` and its other fields
      (undefined fields are absent, as `JSON.stringify` leaves them out). */
  datatype Envelope = Envelope(kind: string, args: map<string, Json>)

  /** The object the worker receives for an envelope. */
  function EnvelopeJson(e: Envelope): (j: Json)
    ensures j.Obj? && "type" in j.fields && j.fields["type"] == Str(e.kind)
    ensures forall k :: k in e.args && k != "type" ==> k in j.fields && j.fields[k] == e.args[k]
    ensures forall k :: k in j.fields ==> k == "type" || k in e.args
  {
    Obj(e.args["type" := Str(e.kind)])
  }

  /** The message of an `Error`; `new Error(v)` with a non-string `v` keeps `String(v)`
      symbolic as `Coerced(v)`. */
  datatype Message = Text(s: string) | Coerced(v: Json)

  /** How a promise settled: `resolve(data)` (undefined data is `None`) or `reject(error)`. */
  datatype Outcome = Resolved(data: Option<Json>) | Rejected(error: Message)

  /** One line from the worker's stdout as a `line` handler sees it. */
  datatype Line = Blank | Unparsable(error: string) | Parsed(value: Json)

  const NullResponse := "Received null response from Python"
  const MissingSuccess := "Invalid response format: missing success field"
  const UnknownError := "Unknown error occurred"
  const ResponseTimeout := "Timeout waiting for Python response"
  const NoReadline := "Python readline interface is not available"
  const NotWritable := "Python process stdin is not writable"
  const StartFailedPrefix := "Failed to start Python process: "
  const InitTimeout := "Timeout waiting for Python process to initialize"
  const ReadyMarker := "Server ready"
  const GenerateAudio := "generate-audio"

  /** The line a handler receives for raw text `text` whose `JSON.parse` gives `parsed`:
      blank when `!line || line.trim() === ''`, otherwise parsed or the parse error. */
  function LineOf(text: string, parsed: Result<Json, string>): (l: Line)
    ensures l == Blank <==> AllWhitespace(text)
    ensures !AllWhitespace(text) && parsed.Err? ==> l == Unparsable(parsed.error)
    ensures !AllWhitespace(text) && parsed.Ok? ==> l == Parsed(parsed.value)
  {
    TrimEmptyIffBlank(text);
    if text == "" || Trim(text) == "" then Blank
    else match parsed
      case Ok(v) => Parsed(v)
      case Err(m) => Unparsable(m)
  }

  /** The error of `reject(new Error(response.error || 'Unknown error occurred'))`. */
  function ReportedError(e: Option<Json>): Message {
    if Present(e) then (if e.value.Str? then Text(e.value.s) else Coerced(e.value))
    else Text(UnknownError)
  }

  /** How a parsed response settles the request (pythonService.js:404-418). */
  function Settle(v: Json): Outcome {
    if !Truthy(v) then Rejected(Text(NullResponse))
    else match Get(v, "success")
      case None => Rejected(Text(MissingSuccess))
      case Some(ok) =>
        if Truthy(ok) then Resolved(Get(v, "data")) else Rejected(ReportedError(Get(v, "error")))
  }

  /** The settlement a line causes, or `None` for a blank line, which a handler skips. */
  function LineOutcome(line: Line): Option<Outcome> {
    match line
    case Blank => None
    case Unparsable(m) => Some(Rejected(Text(m)))
    case Parsed(v) => Some(Settle(v))
  }

  /** Where a `sendToPython` call stands. */
  datatype Phase =
    | AwaitingStart(pid: nat)               // awaiting the start of process `pid`
    | Delaying                              // start resolved; the one-second pause before sending
    | Listening(readline: nat, timer: bool) // handler attached to readline `readline`; 30 s timer armed?
    | Done(outcome: Outcome)                // the promise has settled

  datatype Request = Request(envelope: Envelope, phase: Phase)

  /** The result of a `startPythonProcess` promise. */
  datatype StartResult = Ready | Failed(message: string)

  /** Per `startPythonProcess` call: whether it was given a window to notify, whether it
      got as far as spawning its process, the `initialized` flag, whether the 10 s timer
      is armed, and how its promise settled. */
  datatype StartCall = StartCall(notify: bool, launched: bool, initialized: bool, timerArmed: bool, result: Option<StartResult>)
  {
    /** Still awaiting `setupPythonEnv`: nothing spawned and nothing settled. */
    predicate Pending() {
      !launched && result.None?
    }
  }

  /** How a `startPythonProcess` call goes on: a development build, or a packaged one
      without its bundled `Zonos` directory, first awaits `setupPythonEnv`, and the rest
      of the call happens later (`Launch` or `FailBeforeSpawn`); otherwise the promise
      body runs at once, and `mkdirSync` may throw `mkdirError` there. */
  datatype StartMode = AfterSetup | AtOnce(mkdirError: Option<string>)

  /** A notification sent to the window on the `python-error` channel: a spawn error or a
      close with a code other than 0 (from here), or a failed generation (from the handlers). */
  datatype Notice = ProcessError(message: string) | ProcessClosed(code: Option<int>) | GenerationError(error: Message)

  /** The channel every `Notice` is sent on. */
  const NoticeChannel := "python-error"

  /** A 30 s response timer is armed exactly for commands other than `generate-audio`. */
  predicate ArmsTimer(e: Envelope) {
    e.kind != GenerateAudio
  }

  /** The promise body of `sendToPython` (pythonService.js:384-449) run against the
      current fields: the phase the request enters. A write happens exactly when it
      enters `Listening`. */
  function AttachPhase(e: Envelope, process: Option<nat>, readline: Option<nat>, writable: bool): Phase {
    if readline.None? then Done(Rejected(Text(NoReadline)))
    else if !(process.Some? && writable) then Done(Rejected(Text(NotWritable)))
    else Listening(readline.value, ArmsTimer(e))
  }

  /** What one `line` event on readline `current` does to one request. */
  function AfterLine(r: Request, current: Option<nat>, line: Line): Request {
    match r.phase
    case Listening(g, _) =>
      if current == Some(g) && LineOutcome(line).Some? then r.(phase := Done(LineOutcome(line).value)) else r
    case _ => r
  }

  /** A `line` event is broadcast to every attached handler. */
  function Deliver(rs: seq<Request>, current: Option<nat>, line: Line): (out: seq<Request>)
    ensures |out| == |rs|
    ensures forall i :: 0 <= i < |rs| ==> out[i] == AfterLine(rs[i], current, line)
  {
    seq(|rs|, i requires 0 <= i < |rs| => AfterLine(rs[i], current, line))
  }

  /** What the settling of process `pid`'s start does to one request awaiting it. */
  function AfterStart(r: Request, pid: nat, res: StartResult): Request {
    if r.phase == AwaitingStart(pid) then
      match res
      case Ready => r.(phase := Delaying)
      case Failed(m) => r.(phase := Done(Rejected(Text(StartFailedPrefix + m))))
    else r
  }

  function StartSettled(rs: seq<Request>, pid: nat, res: StartResult): (out: seq<Request>)
    ensures |out| == |rs|
    ensures forall i :: 0 <= i < |rs| ==> out[i].envelope == rs[i].envelope
    ensures forall i :: 0 <= i < |rs| && rs[i].phase != AwaitingStart(pid) ==> out[i] == rs[i]
    ensures forall i :: 0 <= i < |rs| && rs[i].phase == AwaitingStart(pid) ==>
      out[i].phase == if res.Ready? then Delaying else Done(Rejected(Text(StartFailedPrefix + res.message)))
  {
    seq(|rs|, i requires 0 <= i < |rs| => AfterStart(rs[i], pid, res))
  }

  /** A request is attached to the readline `g` as a `line` listener. */
  predicate ListensOn(r: Request, g: nat) {
    r.phase.Listening? && r.phase.readline == g
  }

  /** A blank or whitespace-only line settles nothing, detaches nothing and keeps every timer. */
  lemma BlankLineKeepsEveryRequest(rs: seq<Request>, current: Option<nat>)
    ensures Deliver(rs, current, Blank) == rs
  {
  }

  /** Any non-blank line settles and detaches every handler attached to the readline it
      came from, with the same outcome; a malformed line rejects with the parse error. */
  lemma NonBlankLineSettlesEveryListener(rs: seq<Request>, g: nat, line: Line, i: nat)
    requires line != Blank && i < |rs| && ListensOn(rs[i], g)
    ensures Deliver(rs, Some(g), line)[i] == rs[i].(phase := Done(LineOutcome(line).value))
    ensures line.Unparsable? ==> Deliver(rs, Some(g), line)[i].phase == Done(Rejected(Text(line.error)))
  {
  }

  /** Requests not attached to the readline a line came from are not affected by it. */
  lemma LineLeavesOthersAlone(rs: seq<Request>, g: nat, line: Line, i: nat)
    requires i < |rs| && !ListensOn(rs[i], g)
    ensures Deliver(rs, Some(g), line)[i] == rs[i]
  {
  }

  /** With no request IDs on the wire, two requests in flight on the same readline both
      settle on the first non-blank line, with the same outcome (cross-talk). */
  lemma {:induction false} TwoInFlightSettleTogether(rs: seq<Request>, g: nat, line: Line, i: nat, j: nat)
    requires line != Blank && i < |rs| && j < |rs| && i != j
    requires ListensOn(rs[i], g) && ListensOn(rs[j], g)
    ensures Deliver(rs, Some(g), line)[i].phase.Done?
    ensures Deliver(rs, Some(g), line)[i].phase == Deliver(rs, Some(g), line)[j].phase
  {
    NonBlankLineSettlesEveryListener(rs, g, line, i);
    NonBlankLineSettlesEveryListener(rs, g, line, j);
  }

  /** The classification of a parsed response, case by case (pythonService.js:404-418). */
  lemma SettleCases(v: Json)
    ensures !Truthy(v) ==> Settle(v) == Rejected(Text(NullResponse))
    ensures Truthy(v) && !(v.Obj? && "success" in v.fields) ==> Settle(v) == Rejected(Text(MissingSuccess))
    ensures Settle(v).Resolved? <==> v.Obj? && "success" in v.fields && Truthy(v.fields["success"])
    ensures Settle(v).Resolved? ==> Settle(v).data == (if "data" in v.fields then Some(v.fields["data"]) else None)
    ensures v.Obj? && "success" in v.fields && !Truthy(v.fields["success"]) ==>
      Settle(v) == Rejected(if "error" in v.fields && Truthy(v.fields["error"])
                            then (if v.fields["error"].Str? then Text(v.fields["error"].s) else Coerced(v.fields["error"]))
                            else Text(UnknownError))
  {
  }

  /** Before a handler is attached: without a readline the request is rejected; with stdin
      not writable it is rejected and nothing stays attached; otherwise it listens on the
      current readline, with a timer exactly when the command is not `generate-audio`. */
  lemma AttachPhaseCases(e: Envelope, process: Option<nat>, readline: Option<nat>, writable: bool)
    ensures readline.None? ==> AttachPhase(e, process, readline, writable) == Done(Rejected(Text(NoReadline)))
    ensures readline.Some? && !(process.Some? && writable) ==>
      AttachPhase(e, process, readline, writable) == Done(Rejected(Text(NotWritable)))
    ensures AttachPhase(e, process, readline, writable).Listening? <==> readline.Some? && process.Some? && writable
    ensures AttachPhase(e, process, readline, writable).Listening? ==>
      AttachPhase(e, process, readline, writable) == Listening(readline.value, e.kind != GenerateAudio)
  {
  }

  /** The replacement text `String.prototype.replace` inserts for a match of the string
      pattern `~` when given replacement `r`, with `before` preceding the match and `after`
      following it: `$$` stands for `$`, `$&` for the matched `~`, `` $` `` for `before`
      and `$'` for `after`; any other `$` is kept as it is (a string pattern has no
      capture groups). */
  function Expand(r: string, before: string, after: string): string {
    if r == [] then []
    else if r[0] == '$' && |r| > 1 && r[1] == '$' then "$" + Expand(r[2..], before, after)
    else if r[0] == '$' && |r| > 1 && r[1] == '&' then "~" + Expand(r[2..], before, after)
    else if r[0] == '$' && |r| > 1 && r[1] == '`' then before + Expand(r[2..], before, after)
    else if r[0] == '$' && |r| > 1 && r[1] == '\'' then after + Expand(r[2..], before, after)
    else [r[0]] + Expand(r[1..], before, after)
  }

  /** The index of the first `~` in `s`, if any. */
  function FirstTilde(s: string): (r: Option<nat>)
    ensures r.Some? ==> r.value < |s| && s[r.value] == '~'
  {
    if s == [] then None
    else if s[0] == '~' then Some(0)
    else match FirstTilde(s[1..])
      case None => None
      case Some(i) => Some(i + 1)
  }

  /** `process.env.SAMPLES_PATH?.replace('~', home)`: the first `~` is replaced, with the
      `$` patterns of `home` expanded. */
  function ReplaceFirstTilde(s: string, home: string): string {
    match FirstTilde(s)
    case None => s
    case Some(i) => s[..i] + Expand(home, s[..i], s[i + 1..]) + s[i + 1..]
  }

  /** The `/`-separated segments of a POSIX path, empty ones included. */
  function Segments(p: string): (segs: seq<string>)
    ensures |segs| >= 1
  {
    if p == [] then [""]
    else
      var init := Segments(p[..|p| - 1]);
      if p[|p| - 1] == '/' then init + [""]
      else init[..|init| - 1] + [init[|init| - 1] + [p[|p| - 1]]]
  }

  /** Segments joined with `/`. */
  function JoinSegments(segs: seq<string>): string {
    if segs == [] then ""
    else if |segs| == 1 then segs[0]
    else JoinSegments(segs[..|segs| - 1]) + "/" + segs[|segs| - 1]
  }

  /** One segment taken in by `path.normalize`'s scan: empty segments and `.` are
      dropped; `..` removes the previous segment, unless there is none or it is itself
      `..`, in which case a relative path keeps it and an absolute one drops it. */
  function Push(stack: seq<string>, seg: string, absolute: bool): seq<string> {
    if seg == "" || seg == "." then stack
    else if seg == ".." then
      if |stack| > 0 && stack[|stack| - 1] != ".." then stack[..|stack| - 1]
      else if absolute then stack
      else stack + [".."]
    else stack + [seg]
  }

  /** The segments `path.normalize` keeps, left to right. */
  function Resolve(segs: seq<string>, absolute: bool): seq<string> {
    if segs == [] then []
    else Push(Resolve(segs[..|segs| - 1], absolute), segs[|segs| - 1], absolute)
  }

  /** `path.join(home, 'voicepro/samples')` with POSIX separators: the joined path
      normalized, that is the segments of `home` resolved as `path.normalize` does, led by
      `/` when `home` is absolute, then the two plain segments `voicepro` and `samples`,
      which the scan keeps as they are. */
  function DefaultSamplesPath(home: string): (p: string)
    ensures p != ""
  {
    var absolute := home != "" && home[0] == '/';
    var kept := Resolve(Segments(home), absolute);
    (if absolute then "/" else "") + (if kept == [] then "voicepro/samples" else JoinSegments(kept) + "/voicepro/samples")
  }

  /** The samples directory handed to the worker (pythonService.js:306-307). */
  function SamplesPath(env: Option<string>, home: string): string {
    var replaced := if env.Some? then ReplaceFirstTilde(env.value, home) else "";
    if replaced != "" then replaced else DefaultSamplesPath(home)
  }

  /** A replacement without `$` is inserted as it is. */
  lemma {:induction false} ExpandPlain(r: string, before: string, after: string)
    requires '$' !in r
    ensures Expand(r, before, after) == r
  {
    if r != [] {
      assert '$' !in r[1..] by {
        forall k | 0 <= k < |r[1..]| ensures r[1..][k] != '$' {
          assert r[1..][k] == r[k + 1];
        }
      }
      ExpandPlain(r[1..], before, after);
    }
  }

  /** `FirstTilde` finds exactly the first `~`. */
  lemma {:induction false} FirstTildeAt(s: string, i: nat)
    requires i < |s| && s[i] == '~'
    requires forall k :: 0 <= k < i ==> s[k] != '~'
    ensures FirstTilde(s) == Some(i)
  {
    if i > 0 {
      FirstTildeAt(s[1..], i - 1);
    }
  }

  lemma {:induction false} NoFirstTilde(s: string)
    requires '~' !in s
    ensures FirstTilde(s) == None
  {
    if s != [] {
      assert '~' !in s[1..] by {
        forall k | 0 <= k < |s[1..]| ensures s[1..][k] != '~' {
          assert s[1..][k] == s[k + 1];
        }
      }
      NoFirstTilde(s[1..]);
    }
  }

  /** Only the first `~`, at index `i`, is replaced, by `home` with its `$` patterns
      expanded against what precedes and follows that `~`; the rest is kept. A home
      without `$` is inserted as it is. */
  lemma ReplaceAtFirstTilde(s: string, home: string, i: nat)
    requires i < |s| && s[i] == '~'
    requires forall k :: 0 <= k < i ==> s[k] != '~'
    ensures ReplaceFirstTilde(s, home) == s[..i] + Expand(home, s[..i], s[i + 1..]) + s[i + 1..]
    ensures '$' !in home ==> ReplaceFirstTilde(s, home) == s[..i] + home + s[i + 1..]
  {
    FirstTildeAt(s, i);
    if '$' !in home {
      ExpandPlain(home, s[..i], s[i + 1..]);
    }
  }

  /** Text without `$` passes through `Expand` unchanged in front of whatever follows. */
  lemma {:induction false} ExpandAfterPlain(p: string, q: string, before: string, after: string)
    requires '$' !in p
    ensures Expand(p + q, before, after) == p + Expand(q, before, after)
    decreases |p|
  {
    if p != [] {
      assert p[0] != '$' by { assert p[0] in p; }
      assert '$' !in p[1..] by {
        forall c | c in p[1..] ensures c in p { }
      }
      assert (p + q)[0] == p[0] && (p + q)[1..] == p[1..] + q;
      ExpandAfterPlain(p[1..], q, before, after);
      calc {
        Expand(p + q, before, after);
        [p[0]] + Expand(p[1..] + q, before, after);
        [p[0]] + (p[1..] + Expand(q, before, after));
        { assert p == [p[0]] + p[1..]; }
        p + Expand(q, before, after);
      }
    } else {
      assert p + q == q;
    }
  }

  /** `$&` followed by text without `$` expands to the matched `~` and that text. */
  lemma ExpandDollarAmpersand(h: string, before: string, after: string)
    requires '$' !in h
    ensures Expand("$&" + h, before, after) == "~" + h
  {
    var t := "$&" + h;
    assert t[0] == '$' && t[1] == '&' && t[2..] == h;
    ExpandPlain(h, before, after);
  }

  /** The `$&` pattern in a home directory inserts the matched `~`: a home `h1 + "$&" + h2`
      with no other `$` turns the first `~` into `h1 + "~" + h2` (home `/h$&` turns `~/x`
      into `/h~/x`). */
  lemma DollarAmpersandInHome(s: string, i: nat, h1: string, h2: string)
    requires i < |s| && s[i] == '~'
    requires forall k :: 0 <= k < i ==> s[k] != '~'
    requires '$' !in h1 && '$' !in h2
    ensures ReplaceFirstTilde(s, h1 + "$&" + h2) == s[..i] + h1 + "~" + h2 + s[i + 1..]
  {
    var home := h1 + "$&" + h2;
    var before, after := s[..i], s[i + 1..];
    FirstTildeAt(s, i);
    var e := Expand(home, before, after);
    assert ReplaceFirstTilde(s, home) == before + e + after;
    assert e == h1 + "~" + h2 by {
      assert home == h1 + ("$&" + h2);
      ExpandAfterPlain(h1, "$&" + h2, before, after);
      ExpandDollarAmpersand(h2, before, after);
    }
  }

  lemma JoinSnoc(segs: seq<string>, seg: string)
    requires segs != []
    ensures JoinSegments(segs + [seg]) == JoinSegments(segs) + "/" + seg
  {
    assert (segs + [seg])[..|segs|] == segs;
  }

  lemma AppendAssoc(a: string, b: string, c: string)
    ensures a + (b + c) == (a + b) + c
  {
  }

  /** Joining the segments of a path gives the path back. */
  lemma {:induction false} JoinSegmentsOfPath(p: string)
    ensures JoinSegments(Segments(p)) == p
  {
    if p != [] {
      var q, c := p[..|p| - 1], p[|p| - 1];
      assert p == q + [c];
      var init := Segments(q);
      JoinSegmentsOfPath(q);
      if c == '/' {
        JoinSnoc(init, "");
      } else {
        var front, last := init[..|init| - 1], init[|init| - 1];
        assert Segments(p) == front + [last + [c]];
        if front == [] {
          assert init == [last];
        } else {
          assert init == front + [last];
          JoinSnoc(front, last);
          JoinSnoc(front, last + [c]);
          AppendAssoc(JoinSegments(front) + "/", last, [c]);
        }
      }
    }
  }

  /** The first segment is empty exactly for an empty or absolute path. */
  lemma {:induction false} FirstSegmentEmpty(p: string)
    ensures Segments(p)[0] == "" <==> p == [] || p[0] == '/'
  {
    if p != [] {
      var q := p[..|p| - 1];
      FirstSegmentEmpty(q);
      if q != [] {
        assert q[0] == p[0];
      }
    }
  }

  /** A leading empty segment is dropped. */
  lemma {:induction false} ResolveLeadingEmpty(segs: seq<string>, absolute: bool)
    ensures Resolve([""] + segs, absolute) == Resolve(segs, absolute)
  {
    if segs != [] {
      var n := |segs|;
      assert ([""] + segs)[..n] == [""] + segs[..n - 1];
      ResolveLeadingEmpty(segs[..n - 1], absolute);
    }
  }

  /** A segment `path.normalize` keeps as it is. */
  predicate Plain(seg: string) {
    seg != "" && seg != "." && seg != ".."
  }

  /** Plain segments are all kept, in order. */
  lemma {:induction false} ResolvePlain(segs: seq<string>, absolute: bool)
    requires forall k :: 0 <= k < |segs| ==> Plain(segs[k])
    ensures Resolve(segs, absolute) == segs
  {
    if segs != [] {
      ResolvePlain(segs[..|segs| - 1], absolute);
      assert segs[..|segs| - 1] + [segs[|segs| - 1]] == segs;
    }
  }

  /** A segment list in `path.normalize`'s normal form: no empty or `.` segment, and `..`
      only in a leading run, never in an absolute path. */
  predicate Normalized(r: seq<string>, absolute: bool) {
    && (forall k :: 0 <= k < |r| ==> r[k] != "" && r[k] != ".")
    && (absolute ==> forall k :: 0 <= k < |r| ==> r[k] != "..")
    && (forall j, k :: 0 <= j < k < |r| && r[k] == ".." ==> r[j] == "..")
  }

  lemma PushNormalized(stack: seq<string>, seg: string, absolute: bool)
    requires Normalized(stack, absolute)
    ensures Normalized(Push(stack, seg, absolute), absolute)
  {
    var r := Push(stack, seg, absolute);
    if seg == ".." && |stack| > 0 && stack[|stack| - 1] != ".." {
      assert forall k :: 0 <= k < |r| ==> r[k] == stack[k];
    } else if seg == ".." && !absolute {
      forall k | 0 <= k < |stack| ensures stack[k] == ".." {
        if k < |stack| - 1 {
          assert stack[|stack| - 1] == "..";
        }
      }
      assert forall k :: 0 <= k < |r| ==> r[k] == "..";
    } else if Plain(seg) {
      assert forall k :: 0 <= k < |stack| ==> r[k] == stack[k];
    }
  }

  /** What `path.normalize` keeps is in normal form. */
  lemma {:induction false} ResolveNormal(segs: seq<string>, absolute: bool)
    ensures Normalized(Resolve(segs, absolute), absolute)
  {
    if segs != [] {
      ResolveNormal(segs[..|segs| - 1], absolute);
      PushNormalized(Resolve(segs[..|segs| - 1], absolute), segs[|segs| - 1], absolute);
    }
  }

  /** `prefix + rest` is `home`, so appending after `rest` appends after `home`. */
  lemma AppendAfter(prefix: string, rest: string, tail: string, home: string)
    requires prefix + rest == home
    ensures prefix + (rest + tail) == home + tail
  {
  }

  /** The segments of a home directory that are all plain (an absolute one after its
      leading `/`) are all kept, and join back to the home directory. */
  lemma PlainHomeKept(home: string, kept: seq<string>)
    requires home != ""
    requires var segs := Segments(home);
      forall k :: 0 <= k < |segs| ==> Plain(segs[k]) || (k == 0 && segs[k] == "" && |segs| > 1)
    requires kept == if home[0] == '/' then Segments(home)[1..] else Segments(home)
    ensures kept != [] && Resolve(Segments(home), home[0] == '/') == kept
    ensures (if home[0] == '/' then "/" else "") + JoinSegments(kept) == home
  {
    var segs := Segments(home);
    JoinSegmentsOfPath(home);
    FirstSegmentEmpty(home);
    var absolute := home[0] == '/';
    if absolute {
      assert segs == [""] + kept;
      ResolveLeadingEmpty(kept, absolute);
      JoinAfterEmpty(kept);
    }
    assert forall k :: 0 <= k < |kept| ==> Plain(kept[k]);
    ResolvePlain(kept, absolute);
  }

  /** A home directory whose segments are all plain (an absolute one after its leading
      `/`) gets `/voicepro/samples` appended as it is. */
  lemma DefaultSamplesPathPlain(home: string)
    requires home != ""
    requires var segs := Segments(home);
      forall k :: 0 <= k < |segs| ==> Plain(segs[k]) || (k == 0 && segs[k] == "" && |segs| > 1)
    ensures DefaultSamplesPath(home) == home + "/voicepro/samples"
  {
    var kept := if home[0] == '/' then Segments(home)[1..] else Segments(home);
    PlainHomeKept(home, kept);
    AppendAfter(if home[0] == '/' then "/" else "", JoinSegments(kept), "/voicepro/samples", home);
  }

  lemma {:induction false} JoinAfterEmpty(segs: seq<string>)
    requires segs != []
    ensures JoinSegments([""] + segs) == "/" + JoinSegments(segs)
  {
    if |segs| > 1 {
      var front, last := segs[..|segs| - 1], segs[|segs| - 1];
      assert [""] + segs == ([""] + front) + [last];
      assert segs == front + [last];
      JoinAfterEmpty(front);
      JoinSnoc([""] + front, last);
      JoinSnoc(front, last);
    }
  }

  /** `path.normalize` drops `.` and empty segments, and a `..` after a plain segment
      cancels it: home `/a/../b` resolves like `/b`, and `/a//b/.` like `/a/b`. */
  lemma ResolveCancels(segs: seq<string>, p: string, absolute: bool)
    requires Plain(p)
    ensures Resolve(segs + [p, ".."], absolute) == Resolve(segs, absolute)
    ensures Resolve(segs + ["."], absolute) == Resolve(segs, absolute)
    ensures Resolve(segs + [""], absolute) == Resolve(segs, absolute)
  {
    assert (segs + [p, ".."])[..|segs| + 1] == segs + [p];
    assert (segs + [p])[..|segs|] == segs;
    assert (segs + ["."])[..|segs|] == segs;
    assert (segs + [""])[..|segs|] == segs;
  }

  lemma ReplaceLeadingTilde(s: string, home: string)
    requires |s| > 0 && s[0] == '~'
    ensures ReplaceFirstTilde(s, home) == Expand(home, "", s[1..]) + s[1..]
  {
    var rest := s[1..];
    assert ReplaceFirstTilde(s, home) == s[..0] + Expand(home, s[..0], rest) + rest by {
      ReplaceAtFirstTilde(s, home, 0);
    }
    assert Expand(home, s[..0], rest) == Expand(home, "", rest) by {
      assert s[..0] == "";
    }
    assert s[..0] + Expand(home, "", rest) + rest == Expand(home, "", rest) + rest by {
      assert s[..0] == "";
    }
  }

  lemma SamplesPathLeadingTilde(s: string, home: string)
    requires |s| > 1 && s[0] == '~'
    ensures SamplesPath(Some(s), home) == Expand(home, "", s[1..]) + s[1..]
  {
    ReplaceLeadingTilde(s, home);
    assert |Expand(home, "", s[1..]) + s[1..]| >= |s[1..]| > 0;
  }

  lemma SamplesPathLeadingTildePlain(s: string, home: string)
    requires |s| > 0 && s[0] == '~' && '$' !in home
    ensures |s| > 1 || home != "" ==> SamplesPath(Some(s), home) == home + s[1..]
  {
    ReplaceAtFirstTilde(s, home, 0);
    assert s[..0] + home + s[1..] == home + s[1..];
    if |s| > 1 || home != "" {
      assert |home + s[1..]| > 0;
    }
  }

  /** The samples path falls back to `path.join(home, 'voicepro/samples')` when the
      variable is unset or empty, is the variable itself when it has no `~`, and otherwise
      has its first `~` replaced by the home directory, which is inserted as it is when it
      has no `$`; the path is never empty. */
  lemma SamplesPathSpec(env: Option<string>, home: string)
    ensures env.None? || env == Some("") ==> SamplesPath(env, home) == DefaultSamplesPath(home)
    ensures env.Some? && env.value != "" && '~' !in env.value ==> SamplesPath(env, home) == env.value
    ensures env.Some? && |env.value| > 1 && env.value[0] == '~' ==>
      SamplesPath(env, home) == Expand(home, "", env.value[1..]) + env.value[1..]
    ensures env.Some? && |env.value| > 0 && env.value[0] == '~' && '$' !in home && (|env.value| > 1 || home != "") ==>
      SamplesPath(env, home) == home + env.value[1..]
    ensures SamplesPath(env, home) != ""
  {
    if env.Some? && env.value != "" {
      if '~' !in env.value {
        NoFirstTilde(env.value);
      } else if env.value[0] == '~' {
        if |env.value| > 1 {
          SamplesPathLeadingTilde(env.value, home);
        }
        if '$' !in home {
          SamplesPathLeadingTildePlain(env.value, home);
        }
      }
    }
  }

  /** `getPythonCommand()` (pythonService.js:196-206). */
  function PythonCommand(platform: string): (cmd: string)
    ensures cmd == "python.exe" <==> platform == "win32"
    ensures cmd == "python3" <==> platform == "darwin" || platform == "linux"
    ensures cmd == "python" <==> platform !in {"win32", "darwin", "linux"}
  {
    if platform == "win32" then "python.exe"
    else if platform == "darwin" || platform == "linux" then "python3"
    else "python"
  }

  /** One host session: the worker handle and its readline, the `sendToPython` calls
      made so far (indexed by call number), one entry per spawned process, and the
      observable effects: notifications, lines written to stdin and processes killed. */
  class Session {
    var process: Option<nat>   // pythonProcess
    var readline: Option<nat>  // pythonReadline, named by the process whose stdout it reads
    var starts: seq<StartCall>
    var requests: seq<Request>
    var notices: seq<Notice>
    var written: seq<Envelope>
    var killed: seq<nat>

    ghost predicate Valid()
      reads this
    {
      && readline == process
      && (process.Some? ==> process.value < |starts| && starts[process.value].launched)
      && (forall i :: 0 <= i < |requests| ==> RequestValid(requests[i], starts))
      && (forall p :: 0 <= p < |starts| ==> StartValid(starts[p]))
    }

    /** A request waits only on a start that has not settled, and listens only on a
        readline that exists, with a timer exactly when `ArmsTimer` says so. */
    static predicate RequestValid(r: Request, starts: seq<StartCall>) {
      && (r.phase.AwaitingStart? ==> r.phase.pid < |starts| && starts[r.phase.pid].result.None?)
      && (r.phase.Listening? ==> r.phase.readline < |starts| && r.phase.timer == ArmsTimer(r.envelope))
    }

    static predicate StartValid(s: StartCall) {
      && (s.initialized || s.timerArmed ==> s.launched)
      && (s.initialized ==> !s.timerArmed && s.result.Some?)
    }

    constructor ()
      ensures Valid()
      ensures process.None? && readline.None?
      ensures starts == [] && requests == [] && notices == [] && written == [] && killed == []
    {
      process, readline := None, None;
      starts, requests, notices, written, killed := [], [], [], [], [];
    }

    /** A `startPythonProcess(mainWindow)` call (pythonService.js:298-371): a new pending
        call, which goes on at once unless it awaits `setupPythonEnv` first. */
    method Start(notify: bool, mode: StartMode) returns (pid: nat)
      requires Valid()
      modifies this
      ensures Valid()
      ensures pid == |old(starts)| && |starts| == pid + 1 && starts[..pid] == old(starts)
      ensures mode == AfterSetup ==>
        && starts[pid] == StartCall(notify, false, false, false, None)
        && process == old(process) && readline == old(readline) && killed == old(killed)
      ensures mode == AtOnce(None) ==>
        && starts[pid] == StartCall(notify, true, false, true, None)
        && process == Some(pid) && readline == Some(pid)
        && killed == old(killed) + (if old(process).Some? then [old(process).value] else [])
      ensures mode.AtOnce? && mode.mkdirError.Some? ==>
        && starts[pid] == StartCall(notify, false, false, false, Some(Failed(mode.mkdirError.value)))
        && process == old(process) && readline == old(readline) && killed == old(killed)
      ensures requests == old(requests) && notices == old(notices) && written == old(written)
    {
      pid := Begin(notify);
      if mode.AtOnce? {
        if mode.mkdirError.Some? {
          FailBeforeSpawn(pid, mode.mkdirError.value);
        } else {
          Launch(pid);
        }
        UnawaitedStart(old(requests), pid, starts[pid].result);
      }
    }

    /** The call is made: a new entry, pending. */
    method Begin(notify: bool) returns (pid: nat)
      requires Valid()
      modifies this`starts
      ensures Valid()
      ensures pid == |old(starts)| && starts == old(starts) + [StartCall(notify, false, false, false, None)]
      ensures forall i :: 0 <= i < |requests| ==> requests[i].phase != AwaitingStart(pid)
    {
      pid := |starts|;
      starts := starts + [StartCall(notify, false, false, false, None)];
      forall i | 0 <= i < |requests| ensures RequestValid(requests[i], starts) && requests[i].phase != AwaitingStart(pid) {
        assert RequestValid(requests[i], old(starts));
      }
    }

    /** The promise body of pending call `pid` runs and gets past `mkdirSync`
        (pythonService.js:304-365): a running process is killed, and the call's process is
        spawned with its readline and an armed 10 s timer. */
    method Launch(pid: nat)
      requires Valid() && pid < |starts| && starts[pid].Pending()
      modifies this
      ensures Valid()
      ensures starts == old(starts)[pid := old(starts)[pid].(launched := true, timerArmed := true)]
      ensures killed == old(killed) + (if old(process).Some? then [old(process).value] else [])
      ensures process == Some(pid) && readline == Some(pid)
      ensures requests == old(requests) && notices == old(notices) && written == old(written)
    {
      if process.Some? {
        killed := killed + [process.value];
      }
      starts := starts[pid := starts[pid].(launched := true, timerArmed := true)];
      process := Some(pid);
      readline := Some(pid);
      forall i | 0 <= i < |requests| ensures RequestValid(requests[i], starts) {
        assert RequestValid(requests[i], old(starts));
      }
    }

    /** Pending call `pid` fails before it spawns anything: `setupPythonEnv` rejected
        (pythonService.js:300-302, 367-370) or `mkdirSync` threw (:309). The call is
        rejected with the error, and the requests awaiting it with it; no process is
        killed and none spawned. */
    method FailBeforeSpawn(pid: nat, message: string)
      requires Valid() && pid < |starts| && starts[pid].Pending()
      modifies this
      ensures Valid()
      ensures starts == old(starts)[pid := old(starts)[pid].(result := Some(Failed(message)))]
      ensures requests == StartSettled(old(requests), pid, Failed(message))
      ensures process == old(process) && readline == old(readline)
      ensures notices == old(notices) && written == old(written) && killed == old(killed)
    {
      UpdateStart(pid, starts[pid].(result := Some(Failed(message))));
    }

    /** Settling a call no request awaits changes no request. */
    static lemma UnawaitedStart(rs: seq<Request>, pid: nat, res: Option<StartResult>)
      requires forall i :: 0 <= i < |rs| ==> rs[i].phase != AwaitingStart(pid)
      ensures res.Some? ==> StartSettled(rs, pid, res.value) == rs
    {
    }

    /** Replaces the state of process `pid`; when this settles its start promise, the
        requests awaiting that start move on. */
    method UpdateStart(pid: nat, next: StartCall)
      requires Valid() && pid < |starts| && StartValid(next) && next.launched == starts[pid].launched
      requires starts[pid].result.Some? ==> next.result == starts[pid].result
      modifies this`starts, this`requests
      ensures Valid()
      ensures starts == old(starts)[pid := next]
      ensures requests == if old(starts)[pid].result.None? && next.result.Some?
                          then StartSettled(old(requests), pid, next.result.value) else old(requests)
    {
      var settles := starts[pid].result.None? && next.result.Some?;
      starts := starts[pid := next];
      if settles {
        requests := StartSettled(requests, pid, next.result.value);
      }
      forall i | 0 <= i < |requests| ensures RequestValid(requests[i], starts) {
        assert RequestValid(old(requests)[i], old(starts));
      }
    }

    /** A stdout chunk of process `pid` (pythonService.js:344-351): the first chunk that
        contains `Server ready` clears the timer and resolves the start. */
    method StdoutChunk(pid: nat, chunk: string)
      requires Valid() && pid < |starts| && starts[pid].launched
      modifies this
      ensures Valid()
      ensures var s := old(starts)[pid];
        if !s.initialized && Includes(chunk, ReadyMarker) then
          && starts == old(starts)[pid := StartCall(s.notify, true, true, false, Some(s.result.GetOr(Ready)))]
          && requests == (if s.result.None? then StartSettled(old(requests), pid, Ready) else old(requests))
        else starts == old(starts) && requests == old(requests)
      ensures process == old(process) && readline == old(readline)
      ensures notices == old(notices) && written == old(written) && killed == old(killed)
    {
      var s := starts[pid];
      if !s.initialized && Includes(chunk, ReadyMarker) {
        UpdateStart(pid, StartCall(s.notify, true, true, false, Some(s.result.GetOr(Ready))));
      }
    }

    /** The 10 s start timer of `pid` fires (pythonService.js:335-337): a start not yet
        settled is rejected. */
    method StartTimerFired(pid: nat)
      requires Valid() && pid < |starts|
      modifies this
      ensures Valid()
      ensures var s := old(starts)[pid];
        if s.timerArmed then
          && starts == old(starts)[pid := s.(timerArmed := false, result := Some(s.result.GetOr(Failed(InitTimeout))))]
          && requests == (if s.result.None? then StartSettled(old(requests), pid, Failed(InitTimeout)) else old(requests))
        else starts == old(starts) && requests == old(requests)
      ensures process == old(process) && readline == old(readline)
      ensures notices == old(notices) && written == old(written) && killed == old(killed)
    {
      var s := starts[pid];
      if s.timerArmed {
        UpdateStart(pid, s.(timerArmed := false, result := Some(s.result.GetOr(Failed(InitTimeout)))));
      }
    }

    /** A spawn `error` event of `pid` (pythonService.js:325-332): the start is rejected with
        the error, and the window, when there is one, is notified. */
    method SpawnError(pid: nat, message: string)
      requires Valid() && pid < |starts| && starts[pid].launched
      modifies this
      ensures Valid()
      ensures var s := old(starts)[pid];
        && starts == old(starts)[pid := s.(result := Some(s.result.GetOr(Failed(message))))]
        && requests == (if s.result.None? then StartSettled(old(requests), pid, Failed(message)) else old(requests))
      ensures notices == old(notices) + (if old(starts)[pid].notify then [ProcessError(message)] else [])
      ensures process == old(process) && readline == old(readline)
      ensures written == old(written) && killed == old(killed)
    {
      var s := starts[pid];
      UpdateStart(pid, s.(result := Some(s.result.GetOr(Failed(message)))));
      if s.notify {
        notices := notices + [ProcessError(message)];
      }
    }

    /** A `close` event of process `pid` (pythonService.js:355-365): the window is notified
        when the code is not 0 (a killed process reports null), and both fields are
        cleared whichever process is current. */
    method Close(pid: nat, code: Option<int>)
      requires Valid() && pid < |starts| && starts[pid].launched
      modifies this
      ensures Valid()
      ensures notices == old(notices) + (if old(starts)[pid].notify && code != Some(0) then [ProcessClosed(code)] else [])
      ensures process.None? && readline.None?
      ensures starts == old(starts) && requests == old(requests)
      ensures written == old(written) && killed == old(killed)
    {
      if starts[pid].notify && code != Some(0) {
        notices := notices + [ProcessClosed(code)];
      }
      process := None;
      readline := None;
    }

    /** The evidently intended close handling: only the process that closed is forgotten. */
    method CloseOwn(pid: nat, code: Option<int>)
      requires Valid() && pid < |starts| && starts[pid].launched
      modifies this
      ensures Valid()
      ensures notices == old(notices) + (if old(starts)[pid].notify && code != Some(0) then [ProcessClosed(code)] else [])
      ensures old(process) == Some(pid) ==> process.None? && readline.None?
      ensures old(process) != Some(pid) ==> process == old(process) && readline == old(readline)
      ensures starts == old(starts) && requests == old(requests)
      ensures written == old(written) && killed == old(killed)
    {
      if starts[pid].notify && code != Some(0) {
        notices := notices + [ProcessClosed(code)];
      }
      if process == Some(pid) {
        process := None;
        readline := None;
      }
    }

    /** `cleanup()` (pythonService.js:452-458): kills and forgets the process; nothing
        happens when there is none. */
    method Cleanup()
      requires Valid()
      modifies this
      ensures Valid()
      ensures process.None? && readline.None?
      ensures killed == old(killed) + (if old(process).Some? then [old(process).value] else [])
      ensures starts == old(starts) && requests == old(requests)
      ensures notices == old(notices) && written == old(written)
    {
      if process.Some? {
        killed := killed + [process.value];
        process := None;
        readline := None;
      }
    }

    /** Runs the promise body of `sendToPython` for request `id`: arm the timer, attach
        the handler, write the command or undo and reject. */
    method Attach(id: nat, writable: bool)
      requires Valid() && id < |requests|
      requires requests[id].phase == Delaying
      modifies this`requests, this`written
      ensures Valid()
      ensures var e := old(requests)[id].envelope;
        && requests == old(requests)[id := Request(e, AttachPhase(e, process, readline, writable))]
        && written == old(written) + (if AttachPhase(e, process, readline, writable).Listening? then [e] else [])
    {
      var e := requests[id].envelope;
      var phase := AttachPhase(e, process, readline, writable);
      requests := requests[id := Request(e, phase)];
      if phase.Listening? {
        written := written + [e];
      }
      forall i | 0 <= i < |requests| ensures RequestValid(requests[i], starts) {
        if i != id { assert RequestValid(old(requests)[i], starts); }
      }
    }

    /** `sendToPython(command)` (pythonService.js:373-450). Without a process or readline
        a new start call is made first (without a window), which goes on as `mode` says,
        and the request waits for it, or is rejected at once when it fails at once;
        otherwise the handler is attached and the command written at once. */
    method Send(e: Envelope, writable: bool, mode: StartMode) returns (id: nat)
      requires Valid()
      modifies this
      ensures Valid()
      ensures id == |old(requests)| && |requests| == id + 1
      ensures requests[..id] == old(requests)
      ensures requests[id].envelope == e
      ensures old(process).None? || old(readline).None? ==>
        var pid := |old(starts)|;
        && |starts| == pid + 1 && starts[..pid] == old(starts)
        && requests[id].phase == (if mode.AtOnce? && mode.mkdirError.Some?
                                  then Done(Rejected(Text(StartFailedPrefix + mode.mkdirError.value)))
                                  else AwaitingStart(pid))
        && (mode == AfterSetup ==>
              starts[pid] == StartCall(false, false, false, false, None) && process.None? && readline.None?)
        && (mode == AtOnce(None) ==>
              starts[pid] == StartCall(false, true, false, true, None) && process == Some(pid) && readline == Some(pid))
        && (mode.AtOnce? && mode.mkdirError.Some? ==>
              starts[pid] == StartCall(false, false, false, false, Some(Failed(mode.mkdirError.value)))
              && process.None? && readline.None?)
        && written == old(written) && killed == old(killed)
      ensures old(process).Some? && old(readline).Some? ==>
        && requests[id].phase == AttachPhase(e, old(process), old(readline), writable)
        && written == old(written) + (if requests[id].phase.Listening? then [e] else [])
        && starts == old(starts) && process == old(process) && readline == old(readline)
        && killed == old(killed)
      ensures notices == old(notices)
    {
      id := |requests|;
      if process.None? || readline.None? {
        var pid := Begin(false);
        requests := requests + [Request(e, AwaitingStart(pid))];
        forall i | 0 <= i < |requests| ensures RequestValid(requests[i], starts) {
          if i < id { assert RequestValid(old(requests)[i], starts); }
        }
        if mode.AtOnce? {
          ghost var before := requests;
          if mode.mkdirError.Some? {
            FailBeforeSpawn(pid, mode.mkdirError.value);
            forall i | 0 <= i < id ensures requests[i] == before[i] {
              assert before[i].phase != AwaitingStart(pid);
            }
          } else {
            Launch(pid);
          }
        }
      } else {
        requests := requests + [Request(e, Delaying)];
        forall i | 0 <= i < |requests| ensures RequestValid(requests[i], starts) {
          if i < id { assert RequestValid(old(requests)[i], starts); }
        }
        Attach(id, writable);
      }
    }

    /** The one-second pause after a successful start has elapsed (pythonService.js:378):
        the request runs its promise body against the fields as they are now. */
    method Resume(id: nat, writable: bool)
      requires Valid() && id < |requests|
      modifies this
      ensures Valid()
      ensures var e := old(requests)[id].envelope;
        if old(requests)[id].phase == Delaying then
          && requests == old(requests)[id := Request(e, AttachPhase(e, process, readline, writable))]
          && written == old(written) + (if requests[id].phase.Listening? then [e] else [])
        else requests == old(requests) && written == old(written)
      ensures process == old(process) && readline == old(readline) && starts == old(starts)
      ensures notices == old(notices) && killed == old(killed)
    {
      if requests[id].phase == Delaying {
        Attach(id, writable);
      }
    }

    /** A line arrives on the readline of spawned process `g` and is broadcast to every
        `line` handler attached to it, one after another. `g` need not be the current
        process: a killed process's readline still emits the lines already buffered,
        and the handlers registered on it before a restart still receive them. */
    method DeliverLine(g: nat, line: Line)
      requires Valid() && g < |starts| && starts[g].launched
      modifies this`requests
      ensures Valid()
      ensures requests == Deliver(old(requests), Some(g), line)
    {
      var out: seq<Request> := [];
      var i := 0;
      while i < |requests|
        invariant 0 <= i <= |requests|
        invariant |out| == i
        invariant forall k :: 0 <= k < i ==> out[k] == AfterLine(requests[k], Some(g), line)
      {
        out := out + [AfterLine(requests[i], Some(g), line)];
        i := i + 1;
      }
      requests := out;
      forall k | 0 <= k < |requests| ensures RequestValid(requests[k], starts) {
        assert RequestValid(old(requests)[k], starts);
      }
    }

    /** The 30 s response timer of request `id` fires (pythonService.js:387-390): the
        handler is detached and the request rejected. */
    method ResponseTimerFired(id: nat)
      requires Valid() && id < |requests|
      modifies this`requests
      ensures Valid()
      ensures var r := old(requests)[id];
        requests == if r.phase.Listening? && r.phase.timer
                    then old(requests)[id := r.(phase := Done(Rejected(Text(ResponseTimeout))))]
                    else old(requests)
    {
      var r := requests[id];
      if r.phase.Listening? && r.phase.timer {
        requests := requests[id := r.(phase := Done(Rejected(Text(ResponseTimeout))))];
        forall k | 0 <= k < |requests| ensures RequestValid(requests[k], starts) {
          if k != id { assert RequestValid(old(requests)[k], starts); }
        }
      }
    }
  }

  /** The restart race as written. With no worker running, in an app that sets up its
      Python environment first, two requests each find no process and each make a start
      call without a window; both await `setupPythonEnv` and then launch, the second
      killing the first. The killed process's later `close` event (code null) clears the
      handles of the second process, which was never killed: it is left running, nobody
      is told, and `cleanup()` no longer reaches it. */
  method RestartThenOldClose() returns (s: Session, first: nat, second: nat)
    ensures s.Valid()
    ensures first != second && first in s.killed
    ensures second < |s.starts| && s.starts[second].launched && second !in s.killed
    ensures s.process.None? && s.readline.None?
    ensures s.notices == []
  {
    s := new Session();
    var a := s.Send(Envelope("get_models", map[]), true, AfterSetup);
    first := |s.starts| - 1;
    var b := s.Send(Envelope("get_projects", map[]), true, AfterSetup);
    second := |s.starts| - 1;
    s.Launch(first);
    s.Launch(second);
    s.Close(first, None);
    s.Cleanup();
  }

  /** The same events with the intended close handling keep the second process, which
      `cleanup()` then kills. */
  method RestartThenOldCloseOwn() returns (s: Session, first: nat, second: nat)
    ensures s.Valid()
    ensures first != second && first in s.killed && second in s.killed
    ensures s.process.None? && s.readline.None?
    ensures s.notices == []
  {
    s := new Session();
    var a := s.Send(Envelope("get_models", map[]), true, AfterSetup);
    first := |s.starts| - 1;
    var b := s.Send(Envelope("get_projects", map[]), true, AfterSetup);
    second := |s.starts| - 1;
    s.Launch(first);
    s.Launch(second);
    s.CloseOwn(first, None);
    s.Cleanup();
  }
}

=== FILE: system.dfy ===
/**
 * Properties of the whole request path: renderer service → bridge → host handler →
 * worker dispatcher → host correlator → handler → renderer. Each module above is
 * modelled on its own; the lemmas here connect what one side produces with what
 * the next side accepts.
 */
module EndToEnd {
  import opened Wrappers
  import opened JsValues
  import opened PythonService
  import IpcHandlers
  import Preload
  import TtsServer
  import AudioService

  /** The bridge's `invoke` allow-list names the registered handlers one for one, in
      registration order. */
  lemma AllowListInRouteOrder()
    ensures |Preload.InvokeChannels| == |IpcHandlers.Routes|
    ensures forall i :: 0 <= i < |IpcHandlers.Routes| ==> IpcHandlers.Routes[i].channel == Preload.InvokeChannels[i]
  {
    var rs, cs := IpcHandlers.Routes, Preload.InvokeChannels;
    assert |cs| == |rs| == 14;
    forall i | 0 <= i < |rs|
      ensures rs[i].channel == cs[i]
    {
      if i < 4 { } else if i < 7 { } else if i < 11 { } else { }
    }
  }

  /** Two tables that name the same channels position by position name the same set. */
  lemma {:induction false} SameChannelsSameSet(rs: seq<IpcHandlers.Route>, cs: seq<string>)
    requires |rs| == |cs| && forall i :: 0 <= i < |rs| ==> rs[i].channel == cs[i]
    ensures forall c :: c in cs <==> c in (set r | r in rs :: r.channel)
  {
    forall c
      ensures c in cs <==> c in (set r | r in rs :: r.channel)
    {
      if c in cs {
        var i :| 0 <= i < |cs| && cs[i] == c;
        assert rs[i] in rs;
      }
      if c in (set r | r in rs :: r.channel) {
        var r :| r in rs && r.channel == c;
        var k :| 0 <= k < |rs| && rs[k] == r;
        assert cs[k] == c;
      }
    }
  }

  /** So exactly the handled channels get through the bridge. */
  lemma AllowListIsHandlerTable()
    ensures forall c :: c in Preload.InvokeChannels <==> c in IpcHandlers.HandledChannels()
  {
    AllowListInRouteOrder();
    SameChannelsSameSet(IpcHandlers.Routes, Preload.InvokeChannels);
  }

  /** Notifications about the worker are sent on a channel the bridge never subscribes
      to: the renderer cannot receive them. */
  lemma NoticesAreNotDelivered()
    ensures Preload.On(NoticeChannel).None?
    ensures forall c :: Preload.On(c).Some? ==> c != NoticeChannel
  {
    Preload.OnSpec(NoticeChannel, Preload.IpcEvent(0), Preload.IpcEvent(0), []);
  }

  /** A reply the worker writes, read back by the host, settles the request as the
      worker meant it: a success resolves with its data, a failure rejects with the
      exception text (or the host's fallback when that text is empty). */
  lemma ReplySettles(r: TtsServer.Reply)
    ensures r.Success? ==> LineOutcome(Parsed(TtsServer.ReplyJson(Some(r)))) == Some(Resolved(Some(r.data)))
    ensures r.Failure? ==>
      var t := TtsServer.ErrorText(r.error);
      LineOutcome(Parsed(TtsServer.ReplyJson(Some(r)))) == Some(Rejected(Text(if t == "" then UnknownError else t)))
  {
    var j := TtsServer.ReplyJson(Some(r));
    assert Get(j, "success") == Some(Bool(r.Success?));
  }

  /** A command type the worker has no branch for comes back as the line `null`, which
      the host reports as a null response. */
  lemma UnknownTypeIsNullResponse(command: Json)
    requires TtsServer.UnknownKind(command)
    ensures LineOutcome(Parsed(TtsServer.ReplyJson(None))) == Some(Rejected(Text(NullResponse)))
  {
  }

  /** Every envelope type a handler sends has a branch in the worker's dispatcher. */
  lemma EveryRouteHasABranch(i: nat)
    requires i < |IpcHandlers.Routes|
    ensures TtsServer.KindOf(Str(IpcHandlers.Routes[i].kind)).Some?
  {
    var k := IpcHandlers.Routes[i].kind;
    if i < 7 {
      assert k in ["get_models", "get_conditioners", "generate-audio", "get_settings",
                   "update_settings", "get_projects", "save_project"];
    } else {
      assert k in ["get_project", "get_history", "delete_project", "create_from_template",
                   "clear_history", "undo_action", "get_voice_settings"];
    }
  }

  /** Every method of the renderer's service uses a channel the bridge lets through, and
      the bridge forwards its arguments unchanged. */
  lemma ServiceChannelsAllowed(c: AudioService.Call)
    ensures var (channel, args) := AudioService.Invocation(c);
      Preload.Invoke(channel, args) == Preload.Forwarded(channel, args)
  {
    var (channel, args) := AudioService.Invocation(c);
    assert channel in Preload.InvokeChannels;
  }

  /** A destructuring handler given `{templateName, newName}` keeps exactly those two fields. */
  lemma DestructuresBothNames(r: IpcHandlers.Route, t: string, n: string)
    requires r.shape.TemplateArgs?
    ensures IpcHandlers.Build(r, Some(Obj(map["templateName" := Str(t), "newName" := Str(n)])))
         == Ok(Envelope(r.kind, map["templateName" := Str(t), "newName" := Str(n)]))
  {
    var arg := Obj(map["templateName" := Str(t), "newName" := Str(n)]);
    assert Get(arg, "templateName") == Some(Str(t));
    assert Get(arg, "newName") == Some(Str(n));
    assert IpcHandlers.FieldOf("templateName", Some(Str(t))) + IpcHandlers.FieldOf("newName", Some(Str(n)))
        == map["templateName" := Str(t), "newName" := Str(n)];
  }

  /** `createFromTemplate(t, n)` sends `{templateName, newName}` on its channel, and the
      handler destructures it into an envelope with exactly those two fields. */
  lemma TemplateCallFields(t: string, n: string)
    ensures var arg := Obj(map["templateName" := Str(t), "newName" := Str(n)]);
      && AudioService.Invocation(AudioService.CreateFromTemplate(t, n)) == ("create-from-template", [arg])
      && IpcHandlers.Routes[10].channel == "create-from-template"
      && IpcHandlers.Build(IpcHandlers.Routes[10], Some(arg))
         == Ok(Envelope("create_from_template", map["templateName" := Str(t), "newName" := Str(n)]))
  {
    TemplateSent(t, n);
    TemplateHandled(t, n);
  }

  /** The renderer side of `TemplateCallFields`. */
  lemma TemplateSent(t: string, n: string)
    ensures AudioService.Invocation(AudioService.CreateFromTemplate(t, n))
         == ("create-from-template", [Obj(map["templateName" := Str(t), "newName" := Str(n)])])
  {
  }

  /** The host side of `TemplateCallFields`. */
  lemma TemplateHandled(t: string, n: string)
    ensures IpcHandlers.Routes[10].channel == "create-from-template"
    ensures IpcHandlers.Build(IpcHandlers.Routes[10], Some(Obj(map["templateName" := Str(t), "newName" := Str(n)])))
         == Ok(Envelope("create_from_template", map["templateName" := Str(t), "newName" := Str(n)]))
  {
    TemplateRoute();
    DestructuresBothNames(IpcHandlers.Routes[10], t, n);
  }

  /** Registration 10 is the destructuring handler of `create-from-template`. */
  lemma TemplateRoute()
    ensures IpcHandlers.Routes[10] == IpcHandlers.Route("create-from-template", "create_from_template", IpcHandlers.TemplateArgs)
  {
  }

  /** The envelope the worker reads for each service method: the command type of its
      branch, and the argument under the key that branch subscripts
      (tts_server.py:217-393). */
  function CallEnvelope(c: AudioService.Call): Envelope {
    match c
    case GetSupportedModels => Envelope("get_models", map[])
    case GetModelConditioners(m) => Envelope("get_conditioners", map["model" := Str(m)])
    case GetSettings => Envelope("get_settings", map[])
    case UpdateSettings(s) => Envelope("update_settings", map["settings" := s])
    case GetProjects => Envelope("get_projects", map[])
    case SaveProject(p) => Envelope("save_project", map["project" := p])
    case GetProject(id) => Envelope("get_project", map["projectId" := Str(id)])
    case GetHistory => Envelope("get_history", map[])
    case DeleteProject(id) => Envelope("delete_project", map["projectId" := Str(id)])
    case CreateFromTemplate(t, n) =>
      Envelope("create_from_template", map["templateName" := Str(t), "newName" := Str(n)])
    case ClearHistory => Envelope("clear_history", map[])
    case UndoAction(id) => Envelope("undo_action", map["actionId" := Str(id)])
    case GetVoiceSettings(v) => Envelope("get_voice_settings", map["voice" := Str(v)])
  }

  /** The handler's parameter: the first argument of `invoke`, undefined when there is none. */
  function FirstArg(args: seq<Json>): Option<Json> {
    if args == [] then None else Some(args[0])
  }

  /** The registration that handles method `c`'s channel (ipcHandlers.js:5-168). */
  function RouteIndex(c: AudioService.Call): (k: nat)
    ensures k < |IpcHandlers.Routes|
  {
    match c
    case GetSupportedModels => 0
    case GetModelConditioners(_) => 1
    case GetSettings => 3
    case UpdateSettings(_) => 4
    case GetProjects => 5
    case SaveProject(_) => 6
    case GetProject(_) => 7
    case GetHistory => 8
    case DeleteProject(_) => 9
    case CreateFromTemplate(_, _) => 10
    case ClearHistory => 11
    case UndoAction(_) => 12
    case GetVoiceSettings(_) => 13
  }

  /** That registration's channel is the one the method invokes, and its handler builds
      `CallEnvelope(c)` from the method's argument. */
  lemma CallRoute(c: AudioService.Call)
    ensures var (channel, args) := AudioService.Invocation(c);
      && IpcHandlers.Routes[RouteIndex(c)].channel == channel
      && IpcHandlers.Build(IpcHandlers.Routes[RouteIndex(c)], FirstArg(args)) == Ok(CallEnvelope(c))
  {
    if c.CreateFromTemplate? {
      TemplateCallFields(c.templateName, c.newName);
    }
  }

  /** Every service method reaches a handler, which sends the envelope the worker reads:
      the right command type, with the method's argument unchanged under the key that
      branch reads, and the worker has a branch for that type. */
  lemma ServiceCallEnvelope(c: AudioService.Call)
    ensures var (channel, args) := AudioService.Invocation(c);
      && IpcHandlers.RouteOf(channel).Some?
      && IpcHandlers.Build(IpcHandlers.RouteOf(channel).value, FirstArg(args)) == Ok(CallEnvelope(c))
    ensures TtsServer.KindOf(Str(CallEnvelope(c).kind)).Some?
  {
    CallRoute(c);
    IpcHandlers.ChannelsRegisteredOnce();
    CallHasABranch(c);
  }

  lemma CallHasABranch(c: AudioService.Call)
    ensures TtsServer.KindOf(Str(CallEnvelope(c).kind)).Some?
  {
    CallRoute(c);
    EveryRouteHasABranch(RouteIndex(c));
  }

  /** `generate-audio`'s route is the third registration. */
  lemma GenerateRoute()
    ensures IpcHandlers.Routes[2] == IpcHandlers.Route(GenerateAudio, GenerateAudio, IpcHandlers.Field("params"))
  {
  }

  /** The worker's field checks pass for a command whose `params` carry a non-empty
      `model_choice`, so its answer is the model's. */
  lemma WorkerAcceptsGeneration(bag: Json, voice: string, model: Result<Json, string>)
    requires bag.Obj? && "model_choice" in bag.fields && bag.fields["model_choice"] == Str(voice) && voice != ""
    ensures TtsServer.GenerateReply(EnvelopeJson(Envelope(GenerateAudio, map["params" := bag])), model)
         == TtsServer.ModelReply(model)
  {
    assert TtsServer.PyTruthy(bag);
    var command := EnvelopeJson(Envelope(GenerateAudio, map["params" := bag]));
    assert command.fields["params"] == bag;
    assert TtsServer.HasTruthy(command, "params");
    assert TtsServer.HasTruthy(bag, "model_choice");
  }

  /** `generate-audio` with an object argument sends `{type: "generate-audio", params}`. */
  lemma GenerationEnvelope(bag: Json)
    requires bag.Obj?
    ensures IpcHandlers.Build(IpcHandlers.Routes[2], Some(bag)) == Ok(Envelope(GenerateAudio, map["params" := bag]))
  {
    GenerateRoute();
  }

  /** A generation request from the renderer, with a voice chosen, passes the bridge, is
      sent as `{type: "generate-audio", params: bag}`, and passes the worker's field
      checks, so the worker's answer is the model's. */
  lemma GenerationReachesTheModel(p: AudioService.GenerateAudioParams, model: Result<Json, string>)
    requires p.modelChoice != ""
    ensures var bag := AudioService.Flatten(p);
      && Preload.Invoke(GenerateAudio, [bag]) == Preload.Forwarded(GenerateAudio, [bag])
      && IpcHandlers.Build(IpcHandlers.Routes[2], Some(bag)) == Ok(Envelope(GenerateAudio, map["params" := bag]))
      && TtsServer.GenerateReply(EnvelopeJson(Envelope(GenerateAudio, map["params" := bag])), model)
         == TtsServer.ModelReply(model)
  {
    var bag := AudioService.Flatten(p);
    AudioService.FlattenedModelChoice(p);
    AudioService.FlattenModel(p);
    assert Preload.InvokeChannels[2] == GenerateAudio;
    GenerationEnvelope(bag);
    WorkerAcceptsGeneration(bag, p.modelChoice, model);
  }

  /** What the renderer's `generateAudio` receives for a generation the worker
      completed: the host unwraps the envelope and the handler passes the data on, so the
      service sees the bare `[sampleRate, samples]` array. */
  lemma CompletedGenerationDelivered(bag: Json, data: Json)
    requires Truthy(bag) && Truthy(data)
    ensures var host := LineOutcome(Parsed(TtsServer.ReplyJson(Some(TtsServer.Success(data))))).value;
      IpcHandlers.Handle(IpcHandlers.Routes[2], Some(bag), host).result == Resolved(Some(data))
  {
    ReplySettles(TtsServer.Success(data));
  }

  /** As written, every generation the worker completes is still reported as failed by
      the renderer: the bare array has no `success` field. */
  lemma CompletedGenerationRejected(bag: Json, rate: real, samples: seq<Json>)
    requires Truthy(bag)
    ensures var data := Arr([Num(rate), Arr(samples)]);
      var host := LineOutcome(Parsed(TtsServer.ReplyJson(Some(TtsServer.Success(data))))).value;
      var handled := IpcHandlers.Handle(IpcHandlers.Routes[2], Some(bag), host);
      && handled.result == Resolved(Some(data))
      && AudioService.ValidateResponse(handled.result.data.value) == Err(Text(AudioService.GenerationFailed))
  {
    var data := Arr([Num(rate), Arr(samples)]);
    CompletedGenerationDelivered(bag, data);
    AudioService.BareArrayAlwaysFails([Num(rate), Arr(samples)]);
  }

  /** With the corrected check, a completed generation with a positive rate and samples
      within single precision reaches the renderer as a buffer of the same length. */
  lemma CompletedGenerationAccepted(bag: Json, rate: real, samples: seq<real>)
    requires Truthy(bag) && rate > 0.0
    requires forall i :: 0 <= i < |samples| ==> -AudioService.Float32Overflow < samples[i] < AudioService.Float32Overflow
    ensures var data := Arr([Num(rate), Arr(seq(|samples|, i requires 0 <= i < |samples| => Num(samples[i])))]);
      var host := LineOutcome(Parsed(TtsServer.ReplyJson(Some(TtsServer.Success(data))))).value;
      var handled := IpcHandlers.Handle(IpcHandlers.Routes[2], Some(bag), host);
      && handled.result == Resolved(Some(data))
      && AudioService.ValidateSynthesis(handled.result.data.value)
         == Ok(AudioService.Synthesis(seq(|samples|, i requires 0 <= i < |samples| => AudioService.Finite(samples[i])), rate))
  {
    var data := Arr([Num(rate), Arr(seq(|samples|, i requires 0 <= i < |samples| => Num(samples[i])))]);
    CompletedGenerationDelivered(bag, data);
    AudioService.WellFormedSynthesisPasses(rate, samples);
  }
}

=== FILE: text_editor.dfy ===
/**
 * The script editor's markup buttons (components/text-editor.tsx): `insertSSML`
 * replaces the textarea's selection with an SSML element — a `break` (section
 * 3.2.3 of SSML 1.0), an `emphasis` (section 3.2.2), a `say-as` (section 3.1.8)
 * or an element named after the button — and keeps the rest of the script.
 */
module TextEditor {
  import opened Wrappers

  /** `String.prototype.substring(a, b)`: both ends clamped to the string, then ordered. */
  function Substring(s: string, a: nat, b: nat): (r: string)
    ensures a <= b <= |s| ==> r == s[a..b]
  {
    var x := if a < |s| then a else |s|;
    var y := if b < |s| then b else |s|;
    if x <= y then s[x..y] else s[y..x]
  }

  /** `s.substring(a)`. */
  function SubstringFrom(s: string, a: nat): (r: string)
    ensures a <= |s| ==> r == s[a..]
  {
    if a < |s| then s[a..] else []
  }

  const Break := "<break time=\"1s\"/>"
  const ToastTitle := "SSML tag added"

  /** The opening tag a wrapping button puts before the selection. */
  function Open(tag: string): string
  {
    if tag == "emphasis" then "<emphasis>"
    else if tag == "code" then "<say-as interpret-as=\"characters\">"
    else "<" + tag + ">"
  }

  /** The closing tag a wrapping button puts after the selection. */
  function Close(tag: string): string
  {
    if tag == "emphasis" then "</emphasis>"
    else if tag == "code" then "</say-as>"
    else "</" + tag + ">"
  }

  /** The element the `switch` builds for a button and the selected text
      (text-editor.tsx:27-40): a fixed one-second break for `pause`, the selection
      wrapped in an element for every other button. */
  function Markup(tag: string, selected: string): string {
    if tag == "pause" then Break else Open(tag) + selected + Close(tag)
  }

  /** The middle part of a concatenation of three. */
  lemma Middle<T>(a: seq<T>, b: seq<T>, c: seq<T>)
    ensures (a + b + c)[|a|..|a| + |b|] == b
    ensures (a + b + c)[..|a|] == a
    ensures (a + b + c)[|a| + |b|..] == c
  {
  }

  /** A wrapping button's element starts with its opening tag, then holds the selection
      unchanged, then its closing tag. */
  lemma WrapperParts(tag: string, selected: string)
    requires tag != "pause"
    ensures var m := Markup(tag, selected);
      && |m| == |Open(tag)| + |selected| + |Close(tag)|
      && m[..|Open(tag)|] == Open(tag)
      && m[|Open(tag)|..|Open(tag)| + |selected|] == selected
      && m[|Open(tag)| + |selected|..] == Close(tag)
  {
    Middle(Open(tag), selected, Close(tag));
  }

  /** What pressing a markup button does: nothing when there is no textarea, otherwise
      the new script and the notification text. */
  datatype Edit = Unchanged | Edited(text: string, title: string, description: string)

  /** A textarea selection; the DOM keeps `start <= end`. */
  datatype Selection = Selection(start: nat, end: nat)

  /** `insertSSML(tag)` for the script `text` and the first textarea's selection. */
  function InsertSsml(text: string, tag: string, textarea: Option<Selection>): (e: Edit)
    requires textarea.Some? ==> textarea.value.start <= textarea.value.end
    ensures textarea.None? <==> e.Unchanged?
  {
    match textarea
    case None => Unchanged
    case Some(sel) =>
      var selected := Substring(text, sel.start, sel.end);
      var markup := Markup(tag, selected);
      Edited(Substring(text, 0, sel.start) + markup + SubstringFrom(text, sel.end),
             ToastTitle, "Added " + tag + " tag to your text")
  }

  /** Within the script, the selection is replaced by the markup and everything before and
      after it is kept exactly; the length changes by the markup minus the selection. */
  lemma SpliceKeepsContext(text: string, tag: string, start: nat, end: nat)
    requires start <= end <= |text|
    ensures var e := InsertSsml(text, tag, Some(Selection(start, end)));
      var markup := Markup(tag, text[start..end]);
      && e.text == text[..start] + markup + text[end..]
      && e.text[..start] == text[..start]
      && e.text[start + |markup|..] == text[end..]
      && |e.text| == |text| - (end - start) + |markup|
  {
    Middle(text[..start], Markup(tag, text[start..end]), text[end..]);
  }

  /** A pause drops the selection: the result depends only on where it was. */
  lemma PauseReplacesSelection(text: string, start: nat, end: nat)
    requires start <= end <= |text|
    ensures InsertSsml(text, "pause", Some(Selection(start, end))).text == text[..start] + Break + text[end..]
  {
  }

  /** `emphasis` and `code` use their SSML elements (text-editor.tsx:32-37). */
  lemma EmphasisAndCode(selected: string)
    ensures Markup("emphasis", selected) == "<emphasis>" + selected + "</emphasis>"
    ensures Markup("code", selected) == "<say-as interpret-as=\"characters\">" + selected + "</say-as>"
  {
  }

  /** Any other button wraps the selection in an element named after it, as `prosody` and
      `p` do (text-editor.tsx:38-39, 70, 76). */
  lemma OtherTagsWrapByName(tag: string, selected: string)
    requires tag != "pause" && tag != "emphasis" && tag != "code"
    ensures Markup(tag, selected) == "<" + tag + ">" + selected + "</" + tag + ">"
  {
  }

  /** An empty selection inserts at the caret and removes nothing. */
  lemma CaretInsertion(text: string, tag: string, at: nat)
    requires at <= |text|
    ensures InsertSsml(text, tag, Some(Selection(at, at))).text == text[..at] + Markup(tag, "") + text[at..]
  {
  }
}

=== FILE: tts_interface.dfy ===
/**
 * The main screen of the renderer (components/tts-interface.tsx): the script, the
 * chosen voice and the voice and output settings held in component state, the
 * "generate" action with its local checks before any request leaves the renderer,
 * and "new project", which puts every setting back to its default.
 */
module TtsInterface {
  import opened Wrappers
  import opened JsValues
  import PythonService
  import AudioService

  /** The emotion part of the voice settings (tts-interface.tsx:41-47). */
  datatype EmotionSettings = EmotionSettings(linear: real, confidence: real, quadratic: real, seed: real, randomizeSeed: bool)

  /** `voiceSettings` (tts-interface.tsx:37-48). */
  datatype VoiceSettings = VoiceSettings(speed: real, pitch: real, tone: real, emotions: EmotionSettings)

  /** `outputSettings` (tts-interface.tsx:49-53). */
  datatype OutputSettings = OutputSettings(format: string, quality: string, sampleRate: string)

  /** The initial script (tts-interface.tsx:33, 201), one string written as two literals
      so that the verifier can read its first character. */
  const DefaultText := "Enter your script here. " + "This text will be converted to speech when you click the play button."
  const DefaultProjectName := "Untitled Project"
  const DefaultVoiceSettings := VoiceSettings(1.0, 1.0, 0.5, EmotionSettings(0.5, 0.4, 0.0, 420.0, true))
  const DefaultOutputSettings := OutputSettings("mp3", "high", "44100")

  const NoVoice := "Please select a voice model first"
  const NoText := "Please enter some text to generate audio"

  /** A notification: a title and a description (the error text of a failure). */
  datatype Toast = Toast(title: string, description: PythonService.Message)

  /** The request `handleGenerateAudio` builds (tts-interface.tsx:142-174): the chosen
      voice and the script, fixed emotion weights and conditioning values, the speed as
      the speaking rate and the sampling and seed values of the emotion settings. */
  function ParamsFor(voice: string, text: string, vs: VoiceSettings): AudioService.GenerateAudioParams {
    AudioService.GenerateAudioParams(
      modelChoice := voice, text := text, language := "en-us",
      speakerAudio := AudioService.Undefined, prefixAudio := AudioService.Undefined,
      emotion := AudioService.Emotion(1.0, 0.05, 0.05, 0.05, 0.05, 0.05, 0.1, 0.2),
      vqSingle := 0.78, fmax := 24000.0, pitchStd := 45.0, speakingRate := vs.speed, dnsmosOvrl := 4.0,
      speakerNoised := false, cfgScale := 2.0,
      sampling := AudioService.Sampling(0.8, 50.0, 0.05, vs.emotions.linear, vs.emotions.confidence, vs.emotions.quadratic),
      seed := vs.emotions.seed, randomizeSeed := vs.emotions.randomizeSeed,
      unconditionalKeys := ["emotion"])
  }

  /** The local checks in their order (tts-interface.tsx:132-138): a voice first, then a
      script that is not blank. */
  function LocalCheck(voice: string, text: string): (r: Option<string>)
    ensures voice == "" ==> r == Some(NoVoice)
    ensures voice != "" ==> (r == Some(NoText) <==> AllWhitespace(text))
    ensures voice != "" && !AllWhitespace(text) ==> r.None?
  {
    TrimEmptyIffBlank(text);
    if voice == "" then Some(NoVoice)
    else if Trim(text) == "" then Some(NoText)
    else None
  }

  /** What reaches the host: the flat bag carries the speed under `speaking_rate` and the
      emotion settings under `linear`, `confidence`, `quadratic`, `seed` and
      `randomize_seed`; no audio path is sent. */
  lemma RequestCarriesSettings(voice: string, text: string, vs: VoiceSettings)
    ensures var f := AudioService.Flatten(ParamsFor(voice, text, vs)).fields;
      && f["model_choice"] == Str(voice) && f["text"] == Str(text)
      && f["speaking_rate"] == Num(vs.speed)
      && f["linear"] == Num(vs.emotions.linear) && f["confidence"] == Num(vs.emotions.confidence)
      && f["quadratic"] == Num(vs.emotions.quadratic)
      && f["seed"] == Num(vs.emotions.seed) && f["randomize_seed"] == Bool(vs.emotions.randomizeSeed)
      && "speaker_audio" !in f && "prefix_audio" !in f
  {
    var p := ParamsFor(voice, text, vs);
    AudioService.FlattenModel(p);
    AudioService.FlattenSameNames(p);
    AudioService.FlattenSampling(p);
    AudioService.FlattenSameNamesRest(p);
    AudioService.FlattenDropsUndefined(p);
  }

  /** The screen's state (tts-interface.tsx:32-55, 75). */
  class Screen {
    var text: string
    var selectedVoice: string
    var generatedAudio: Option<AudioService.Synthesis>
    var voiceSettings: VoiceSettings
    var outputSettings: OutputSettings
    var projectName: string
    var activeTab: string
    var isGenerating: bool

    /** The screen as first rendered; no voice is chosen until the model list arrives. */
    constructor()
      ensures text == DefaultText && selectedVoice == "" && generatedAudio.None?
      ensures voiceSettings == DefaultVoiceSettings && outputSettings == DefaultOutputSettings
      ensures projectName == DefaultProjectName && activeTab == "editor" && !isGenerating
    {
      text := DefaultText;
      selectedVoice := "";
      generatedAudio := None;
      voiceSettings := DefaultVoiceSettings;
      outputSettings := DefaultOutputSettings;
      projectName := DefaultProjectName;
      activeTab := "editor";
      isGenerating := false;
    }

    /** `handleGenerateAudio` up to its `await` (tts-interface.tsx:127-177): the flag is
        raised and the previous audio dropped; a failed local check shows its message and
        lowers the flag again, otherwise the request for the current settings is issued
        and the flag stays up while it runs. */
    method StartGeneration() returns (request: Option<AudioService.GenerateAudioParams>, toast: Option<Toast>)
      modifies this
      ensures generatedAudio.None?
      ensures LocalCheck(selectedVoice, text).Some? ==>
        && request.None? && !isGenerating
        && toast == Some(Toast("Error", PythonService.Text(LocalCheck(selectedVoice, text).value)))
      ensures LocalCheck(selectedVoice, text).None? ==>
        && request == Some(ParamsFor(selectedVoice, text, voiceSettings)) && isGenerating && toast.None?
      ensures text == old(text) && selectedVoice == old(selectedVoice) && voiceSettings == old(voiceSettings)
      ensures outputSettings == old(outputSettings) && projectName == old(projectName) && activeTab == old(activeTab)
    {
      isGenerating := true;
      generatedAudio := None;
      var failure := LocalCheck(selectedVoice, text);
      if failure.Some? {
        request, toast := None, Some(Toast("Error", PythonService.Text(failure.value)));
        isGenerating := false;
      } else {
        request, toast := Some(ParamsFor(selectedVoice, text, voiceSettings)), None;
      }
    }

    /** The rest of `handleGenerateAudio` once `generateAudio` settled
        (tts-interface.tsx:177-197): the audio is kept only on success, and the flag is
        lowered either way. */
    method FinishGeneration(result: Result<AudioService.Synthesis, PythonService.Message>) returns (toast: Toast)
      modifies this
      ensures !isGenerating
      ensures result.Ok? ==> generatedAudio == Some(result.value) && toast == Toast("Success", PythonService.Text("Audio generated successfully!"))
      ensures result.Err? ==> generatedAudio == old(generatedAudio) && toast == Toast("Error", result.error)
      ensures text == old(text) && selectedVoice == old(selectedVoice) && voiceSettings == old(voiceSettings)
      ensures outputSettings == old(outputSettings) && projectName == old(projectName) && activeTab == old(activeTab)
    {
      isGenerating := false;
      match result
      case Ok(audio) =>
        generatedAudio := Some(audio);
        toast := Toast("Success", PythonService.Text("Audio generated successfully!"));
      case Err(e) =>
        toast := Toast("Error", e);
    }

    /** `handleNewProject` (tts-interface.tsx:200-226): every editable setting back to its
        default, the voice set to `emma`; audio and the generation flag are left alone. */
    method HandleNewProject() returns (toast: Toast)
      modifies this
      ensures text == DefaultText && projectName == DefaultProjectName && selectedVoice == "emma"
      ensures voiceSettings == DefaultVoiceSettings && outputSettings == DefaultOutputSettings && activeTab == "editor"
      ensures generatedAudio == old(generatedAudio) && isGenerating == old(isGenerating)
      ensures toast == Toast("New project created", PythonService.Text("Started a new project"))
    {
      text := DefaultText;
      projectName := DefaultProjectName;
      selectedVoice := "emma";
      voiceSettings := DefaultVoiceSettings;
      outputSettings := DefaultOutputSettings;
      activeTab := "editor";
      toast := Toast("New project created", PythonService.Text("Started a new project"));
    }
  }

  /** One generation from start to end: the flag is down afterwards whatever happened,
      audio is present only if the service succeeded, and a failed local check never
      reaches the service. */
  method Generate(screen: Screen, service: AudioService.GenerateAudioParams -> Result<AudioService.Synthesis, PythonService.Message>)
    returns (called: bool)
    modifies screen
    ensures !screen.isGenerating
    ensures called <==> LocalCheck(old(screen.selectedVoice), old(screen.text)).None?
    ensures screen.generatedAudio.Some? ==> called
    ensures called ==>
      var result := service(ParamsFor(old(screen.selectedVoice), old(screen.text), old(screen.voiceSettings)));
      screen.generatedAudio == if result.Ok? then Some(result.value) else None
  {
    var request, toast := screen.StartGeneration();
    called := request.Some?;
    if called {
      var _ := screen.FinishGeneration(service(request.value));
    }
  }

  /** After "new project" a generation passes the local checks: a voice is set and the
      default script is not blank. */
  lemma NewProjectCanGenerate()
    ensures LocalCheck("emma", DefaultText).None?
  {
    assert !IsJsWhitespace(DefaultText[0]);
  }
}

=== FILE: tts_server.dfy ===
/**
 * The worker (server/tts_server.py): a line-oriented command dispatcher over a
 * project and history store. The projects directory is a map from file name to
 * the record the file holds; `history.json` and `settings.json` are fields that
 * hold what was last written to them. Clock readings, the model architectures
 * and the outcome of every call into the speech model are inputs.
 */
module TtsServer {
  import opened Wrappers
  import opened JsValues

  /** `ProjectSettings` (tts_server.py:23-32). A dataclass checks none of its field
      types, so every field holds whatever JSON value it was built from. */
  datatype Project = Project(
    name: Json, text: Json, voice: Json,
    voiceSettings: Json, emotionSettings: Json, outputSettings: Json,
    created: Json, modified: Json)

  /** `AppSettings` (tts_server.py:34-40), untyped in the same way. */
  datatype AppSettings = AppSettings(
    theme: Json, defaultVoice: Json, defaultOutputFormat: Json,
    projectsDirectory: Json, autoSave: Json)

  /** `HistoryEntry` (tts_server.py:42-50) as the worker writes it: its own id, action,
      timestamp and details, the identifier it was given, and the `data` mapping. */
  datatype HistoryEntry = HistoryEntry(
    id: string, action: string, timestamp: real, details: string,
    projectId: Json, reversible: bool, data: Option<map<string, Json>>)

  /** An exception raised inside `handle_command`. `str()` of a `KeyError` quotes the key. */
  datatype PyError = KeyError(key: string) | Raised(message: string)

  /** `str(e)`: the message, or the quoted key of a `KeyError`. */
  function ErrorText(e: PyError): (t: string)
    ensures e.KeyError? ==> |t| == |e.key| + 2 && t[1..|t| - 1] == e.key
  {
    match e
    case KeyError(k) => "'" + k + "'"
    case Raised(m) => m
  }

  /** The clock readings one command takes: `created`, `modified`, and the id and
      timestamp of the history entry it records. */
  datatype Clock = Clock(created: real, modified: real, entryId: string, entryAt: real)

  /* ---------------------------------------------------------------- */
  /* Python values                                                      */

  /** Python truthiness of a decoded JSON value: empty containers are false. */
  predicate PyTruthy(v: Json) {
    match v
    case Null => false
    case Bool(b) => b
    case Num(n) => n != 0.0
    case Str(s) => s != []
    case Arr(items) => items != []
    case Obj(fields) => fields != map[]
  }

  /** `dict.get(key)` made falsy-safe: the value when present and truthy. */
  predicate HasTruthy(d: Json, key: string) {
    d.Obj? && key in d.fields && PyTruthy(d.fields[key])
  }

  /** The name of the Python type `json.loads` produces for a value. */
  function PyTypeName(v: Json): string {
    match v
    case Null => "NoneType"
    case Bool(_) => "bool"
    case Num(n) => if n.Floor as real == n then "int" else "float"
    case Str(_) => "str"
    case Arr(_) => "list"
    case Obj(_) => "dict"
  }

  /** Subscription `v[key]` with a string key. */
  function Index(v: Json, key: string): (r: Result<Json, PyError>)
    ensures r.Ok? <==> v.Obj? && key in v.fields
    ensures r.Ok? ==> r.value == v.fields[key]
    ensures v.Obj? && key !in v.fields ==> r == Err(KeyError(key))
  {
    match v
    case Obj(fields) => if key in fields then Ok(fields[key]) else Err(KeyError(key))
    case Arr(_) => Err(Raised("list indices must be integers or slices, not str"))
    case Str(_) => Err(Raised("string indices must be integers, not 'str'"))
    case _ => Err(Raised("'" + PyTypeName(v) + "' object is not subscriptable"))
  }

  /** `str(v)`, which an f-string applies to an identifier, for the values the model
      formats: strings, integers, booleans and `None`. A non-integral number, a list or
      an object gives `None`. */
  function PyStr(v: Json): (r: Option<string>)
    ensures r.Some? <==> !(v.Arr? || v.Obj? || (v.Num? && v.n.Floor as real != v.n))
    ensures v.Str? ==> r == Some(v.s)
  {
    match v
    case Str(s) => Some(s)
    case Num(n) => if n.Floor as real == n then Some(IntToString(n.Floor)) else None
    case Bool(b) => Some(if b then "True" else "False")
    case Null => Some("None")
    case _ => None
  }

  /** The failure the model reports where it does not know the text `str()` gives. */
  const Unformatted := "str() of this value is not modelled"

  /** A whole-number identifier is formatted as its decimal digits, which read back as
      the number: `5` names the same file as `"5"`. */
  lemma IntegerIdentifier(n: nat)
    ensures PyStr(Num(n as real)) == Some(NatToString(n)) == PyStr(Str(NatToString(n)))
    ensures DigitsValue(NatToString(n)) == n
  {
    assert (n as real).Floor == n;
    NatToStringValue(n);
  }

  /* ---------------------------------------------------------------- */
  /* Records as JSON (`asdict`) and back (`Cls(**data)`)                */

  const ProjectKeys: set<string> :=
    {"name", "text", "voice", "voiceSettings", "emotionSettings", "outputSettings", "created", "modified"}
  const SettingsKeys: set<string> :=
    {"theme", "defaultVoice", "defaultOutputFormat", "projectsDirectory", "autoSave"}

  function ProjectJson(p: Project): (j: Json)
    ensures j.Obj? && j.fields.Keys == ProjectKeys
  {
    Obj(map["name" := p.name, "text" := p.text, "voice" := p.voice,
            "voiceSettings" := p.voiceSettings, "emotionSettings" := p.emotionSettings,
            "outputSettings" := p.outputSettings,
            "created" := p.created, "modified" := p.modified])
  }

  /** The error a dataclass constructor raises for `**data` that is not a mapping or
      whose keys are not exactly the fields. */
  function ConstructError(cls: string, data: Json): PyError {
    if !data.Obj? then Raised(cls + "() argument after ** must be a mapping, not " + PyTypeName(data))
    else Raised(cls + ".__init__() got an unexpected keyword argument or is missing a required argument")
  }

  /** `ProjectSettings(**data)`: any object with exactly the record's keys, whatever
      its values, builds the record whose `asdict` is that object. */
  function DecodeProject(data: Json): (r: Result<Project, PyError>)
    ensures r.Ok? <==> data.Obj? && data.fields.Keys == ProjectKeys
    ensures r.Ok? ==> ProjectJson(r.value) == data
    ensures r.Err? ==> r.error == ConstructError("ProjectSettings", data)
  {
    if !data.Obj? || data.fields.Keys != ProjectKeys then Err(ConstructError("ProjectSettings", data))
    else
      var f := data.fields;
      var p := Project(f["name"], f["text"], f["voice"], f["voiceSettings"], f["emotionSettings"],
                       f["outputSettings"], f["created"], f["modified"]);
      assert ProjectJson(p).fields == f;
      Ok(p)
  }

  function SettingsJson(s: AppSettings): (j: Json)
    ensures j.Obj? && j.fields.Keys == SettingsKeys
  {
    Obj(map["theme" := s.theme, "defaultVoice" := s.defaultVoice,
            "defaultOutputFormat" := s.defaultOutputFormat,
            "projectsDirectory" := s.projectsDirectory, "autoSave" := s.autoSave])
  }

  /** `AppSettings(**data)`, likewise. */
  function DecodeSettings(data: Json): (r: Result<AppSettings, PyError>)
    ensures r.Ok? <==> data.Obj? && data.fields.Keys == SettingsKeys
    ensures r.Ok? ==> SettingsJson(r.value) == data
    ensures r.Err? ==> r.error == ConstructError("AppSettings", data)
  {
    if !data.Obj? || data.fields.Keys != SettingsKeys then Err(ConstructError("AppSettings", data))
    else
      var f := data.fields;
      var s := AppSettings(f["theme"], f["defaultVoice"], f["defaultOutputFormat"],
                           f["projectsDirectory"], f["autoSave"]);
      assert SettingsJson(s).fields == f;
      Ok(s)
  }

  function HistoryJson(h: HistoryEntry): Json {
    Obj(map["id" := Str(h.id), "action" := Str(h.action), "timestamp" := Num(h.timestamp),
            "details" := Str(h.details), "projectId" := h.projectId,
            "reversible" := Bool(h.reversible),
            "data" := if h.data.None? then Null else Obj(h.data.value)])
  }

  /** What the worker stores is what it hands back: a project or settings record read
      back from its JSON form is the same record. */
  lemma ProjectRoundTrip(p: Project)
    ensures DecodeProject(ProjectJson(p)) == Ok(p)
  {
    var f := ProjectJson(p).fields;
    assert f["name"] == p.name && f["created"] == p.created;
  }

  lemma SettingsRoundTrip(s: AppSettings)
    ensures DecodeSettings(SettingsJson(s)) == Ok(s)
  {
    var f := SettingsJson(s).fields;
    assert f["theme"] == s.theme && f["autoSave"] == s.autoSave;
  }

  /* ---------------------------------------------------------------- */
  /* File names and history entries                                     */

  predicate EndsWith(s: string, suffix: string) {
    |suffix| <= |s| && s[|s| - |suffix|..] == suffix
  }

  /** `projects_dir / f"{id}.json"` and the backup `undo_action` restores from, for the
      identifier's text. */
  function FileOf(id: string): string { id + ".json" }
  function BackupOf(id: string): string { id + ".backup.json" }

  /** A project file is never the backup of the same identifier. */
  lemma FileIsNotBackup(t: string)
    ensures FileOf(t) != BackupOf(t)
  {
    assert |FileOf(t)| != |BackupOf(t)|;
  }

  /** The entry `save_project` records for the record named `name`, whose text is `text`. */
  function SaveEntry(name: Json, text: string, clock: Clock): HistoryEntry {
    HistoryEntry(clock.entryId, "save_project", clock.entryAt, "Saved project '" + text + "'", name, false, None)
  }

  /** The entry `delete_project` records for the identifier `id`, whose text is `text`. */
  function DeleteEntry(id: Json, text: string, clock: Clock): HistoryEntry {
    HistoryEntry(clock.entryId, "delete_project", clock.entryAt, "Deleted project '" + text + "'", id, true,
                 Some(map["project_id" := id]))
  }

  /** `str(self.projects_dir)` for a home directory. */
  function ProjectsDirectory(home: string): string {
    if home != [] && home[|home| - 1] == '/' then home + ".voicepro/projects" else home + "/.voicepro/projects"
  }

  /** The settings used when `settings.json` does not exist (tts_server.py:72-78). */
  function DefaultSettings(home: string): AppSettings {
    AppSettings(Str("system"), Str("emma"), Str("mp3"), Str(ProjectsDirectory(home)), Bool(true))
  }

  /* ---------------------------------------------------------------- */
  /* Listing                                                            */

  /** The key `list_projects` sorts by. The worker stamps `modified` with a number; a
      boolean compares as 0 or 1. */
  function ModifiedKey(p: Project): real {
    match p.modified
    case Num(n) => n
    case Bool(b) => if b then 1.0 else 0.0
    case _ => 0.0
  }

  predicate SortedByModified(ps: seq<Project>) {
    forall i, j :: 0 <= i < j < |ps| ==> ModifiedKey(ps[i]) >= ModifiedKey(ps[j])
  }

  /** Puts `p` after every entry modified no earlier than it, so entries with equal
      times keep their order (`sorted` is stable also with `reverse=True`). */
  function InsertByModified(ps: seq<Project>, p: Project): seq<Project> {
    if ps == [] then [p]
    else if ModifiedKey(ps[0]) >= ModifiedKey(p) then [ps[0]] + InsertByModified(ps[1..], p)
    else [p] + ps
  }

  /** `sorted(projects, key=lambda p: p.modified, reverse=True)`. */
  function SortByModified(ps: seq<Project>): seq<Project> {
    if ps == [] then [] else InsertByModified(SortByModified(ps[..|ps| - 1]), ps[|ps| - 1])
  }

  lemma {:induction false} InsertByModifiedCount(ps: seq<Project>, p: Project)
    ensures multiset(InsertByModified(ps, p)) == multiset(ps) + multiset{p}
  {
    if ps != [] && ModifiedKey(ps[0]) >= ModifiedKey(p) {
      InsertByModifiedCount(ps[1..], p);
      assert ps == [ps[0]] + ps[1..];
    }
  }

  lemma {:induction false} InsertByModifiedSorted(ps: seq<Project>, p: Project)
    requires SortedByModified(ps)
    ensures SortedByModified(InsertByModified(ps, p))
  {
    if ps != [] && ModifiedKey(ps[0]) >= ModifiedKey(p) {
      var rest := InsertByModified(ps[1..], p);
      InsertByModifiedSorted(ps[1..], p);
      assert rest[0] == (if |ps| > 1 && ModifiedKey(ps[1]) >= ModifiedKey(p) then ps[1] else p);
      var s := [ps[0]] + rest;
      forall i, j | 0 <= i < j < |s|
        ensures ModifiedKey(s[i]) >= ModifiedKey(s[j])
      {
        assert s[j] == rest[j - 1];
        if i > 0 {
          assert s[i] == rest[i - 1];
        } else if j > 1 {
          assert ModifiedKey(rest[0]) >= ModifiedKey(rest[j - 1]);
        }
      }
      assert InsertByModified(ps, p) == s;
    }
  }

  /** The listing is ordered newest first and holds exactly the listed projects. */
  lemma {:induction false} SortByModifiedSpec(ps: seq<Project>)
    ensures multiset(SortByModified(ps)) == multiset(ps)
    ensures SortedByModified(SortByModified(ps))
  {
    if ps != [] {
      var init := ps[..|ps| - 1];
      SortByModifiedSpec(init);
      InsertByModifiedCount(SortByModified(init), ps[|ps| - 1]);
      InsertByModifiedSorted(SortByModified(init), ps[|ps| - 1]);
      assert ps == init + [ps[|ps| - 1]];
    }
  }

  /** `order` names every `*.json` file of the directory once. */
  ghost predicate Globbed(files: map<string, Project>, order: seq<string>) {
    && (forall k :: k in order <==> k in files && EndsWith(k, ".json"))
    && (forall i, j :: 0 <= i < j < |order| ==> order[i] != order[j])
  }

  /** The projects stored under the names in `order`. */
  function ProjectsAt(files: map<string, Project>, order: seq<string>): seq<Project>
    requires forall k :: k in order ==> k in files
  {
    seq(|order|, i requires 0 <= i < |order| => files[order[i]])
  }

  /** `ps` is a listing `list_projects` can return, whatever order the directory
      yields the names in. */
  ghost predicate Listing(files: map<string, Project>, ps: seq<Project>) {
    exists order :: Globbed(files, order) && multiset(ps) == multiset(ProjectsAt(files, order)) && SortedByModified(ps)
  }

  /* ---------------------------------------------------------------- */
  /* Undo                                                               */

  /** An entry `undo_action(id)` acts on. */
  predicate Undoable(e: HistoryEntry, id: string) {
    e.id == id && e.reversible && e.action == "delete_project"
  }

  /** `entry.data['project_id']`. */
  function ProjectIdOf(e: HistoryEntry): Result<Json, PyError> {
    if e.data.None? then Err(Raised("'NoneType' object is not subscriptable"))
    else if "project_id" !in e.data.value then Err(KeyError("project_id"))
    else Ok(e.data.value["project_id"])
  }

  /** The text `f"{entry.data['project_id']}"` gives. */
  function ProjectIdText(e: HistoryEntry): (r: Result<string, PyError>)
    ensures r.Ok? ==> ProjectIdOf(e).Ok? && PyStr(ProjectIdOf(e).value) == Some(r.value)
  {
    match ProjectIdOf(e)
    case Err(err) => Err(err)
    case Ok(v) => if PyStr(v).None? then Err(Raised(Unformatted)) else Ok(PyStr(v).value)
  }

  /** The entry `undo_action(id)` restores, scanning from index `i`: the first undoable
      entry whose backup file exists; an undoable entry without a project id raises. */
  function UndoScan(h: seq<HistoryEntry>, files: map<string, Project>, id: string, i: nat): (r: Result<Option<nat>, PyError>)
    decreases |h| - i
    ensures r.Ok? && r.value.Some? ==>
      var k := r.value.value;
      i <= k < |h| && Undoable(h[k], id) && ProjectIdText(h[k]).Ok? && BackupOf(ProjectIdText(h[k]).value) in files
  {
    if i >= |h| then Ok(None)
    else if Undoable(h[i], id) then
      match ProjectIdText(h[i])
      case Err(e) => Err(e)
      case Ok(pid) => if BackupOf(pid) in files then Ok(Some(i)) else UndoScan(h, files, id, i + 1)
    else UndoScan(h, files, id, i + 1)
  }

  /** The directory after `backup_file.rename(project_file)`. */
  function Restore(files: map<string, Project>, pid: string): map<string, Project>
    requires BackupOf(pid) in files
  {
    (files - {BackupOf(pid)})[FileOf(pid) := files[BackupOf(pid)]]
  }

  /** Only a matching, reversible `delete_project` entry can be undone, and the entry
      undone is the first one whose backup exists: every entry before it either does not
      match or has no backup. */
  lemma {:induction false} UndoScanFirst(h: seq<HistoryEntry>, files: map<string, Project>, id: string, i: nat)
    requires UndoScan(h, files, id, i).Ok? && UndoScan(h, files, id, i).value.Some?
    ensures var k := UndoScan(h, files, id, i).value.value;
      forall j :: i <= j < k ==>
        !Undoable(h[j], id) || (ProjectIdText(h[j]).Ok? && BackupOf(ProjectIdText(h[j]).value) !in files)
    decreases |h| - i
  {
    if Undoable(h[i], id) && ProjectIdText(h[i]).Ok? && BackupOf(ProjectIdText(h[i]).value) in files {
    } else {
      UndoScanFirst(h, files, id, i + 1);
    }
  }

  /** Without any undoable entry for `id` the scan finds nothing and raises nothing. */
  lemma {:induction false} UndoScanNone(h: seq<HistoryEntry>, files: map<string, Project>, id: string, i: nat)
    requires forall j :: i <= j < |h| ==> !Undoable(h[j], id)
    ensures UndoScan(h, files, id, i) == Ok(None)
    decreases |h| - i
  {
    if i < |h| {
      UndoScanNone(h, files, id, i + 1);
    }
  }

  /* ---------------------------------------------------------------- */
  /* The store as a value                                               */

  /** What the projects directory and the worker's memory hold. */
  datatype Store = Store(files: map<string, Project>, history: seq<HistoryEntry>, settings: AppSettings)

  /** What a store operation returns or raises, and the store after it. */
  datatype Effect<T> = Effect(result: Result<T, PyError>, after: Store)

  /** `get_project(id)`: the record in `<id>.json` if that file exists. */
  function GetProject(files: map<string, Project>, id: Json): Result<Option<Project>, PyError> {
    match PyStr(id)
    case None => Err(Raised(Unformatted))
    case Some(t) => Ok(if FileOf(t) in files then Some(files[FileOf(t)]) else None)
  }

  /** `save_project(p)`: stamp, store under the name's text, record a save entry. */
  function SaveOn(s: Store, p: Project, clock: Clock): Effect<Project> {
    match PyStr(p.name)
    case None => Effect(Err(Raised(Unformatted)), s)
    case Some(t) =>
      var saved := p.(modified := Num(clock.modified));
      Effect(Ok(saved), s.(files := s.files[FileOf(t) := saved], history := [SaveEntry(p.name, t, clock)] + s.history))
  }

  /** `delete_project(id)`: unlink the file if it exists and record a reversible entry. */
  function DeleteOn(s: Store, id: Json, clock: Clock): Effect<bool> {
    match PyStr(id)
    case None => Effect(Err(Raised(Unformatted)), s)
    case Some(t) =>
      if FileOf(t) in s.files then
        Effect(Ok(true), s.(files := s.files - {FileOf(t)}, history := [DeleteEntry(id, t, clock)] + s.history))
      else Effect(Ok(false), s)
  }

  /** The record `create_from_template` builds from a template, before it is saved. */
  function TemplateCopy(t: Project, newName: Json, clock: Clock): Project {
    Project(newName, t.text, t.voice, t.voiceSettings, t.emotionSettings, t.outputSettings,
            Num(clock.created), Num(clock.created))
  }

  /** `create_from_template(templateName, newName)`. */
  function CreateOn(s: Store, templateName: Json, newName: Json, clock: Clock): Effect<Project> {
    match PyStr(templateName)
    case None => Effect(Err(Raised(Unformatted)), s)
    case Some(t) =>
      if FileOf(t) !in s.files then Effect(Err(Raised("Template " + t + " not found")), s)
      else SaveOn(s, TemplateCopy(s.files[FileOf(t)], newName, clock), clock)
  }

  /** `undo_action(id)`: restore the backup the scan finds and drop its entry. */
  function UndoOn(s: Store, id: string): Effect<bool> {
    match UndoScan(s.history, s.files, id, 0)
    case Err(e) => Effect(Err(e), s)
    case Ok(None) => Effect(Ok(false), s)
    case Ok(Some(k)) =>
      Effect(Ok(true), s.(files := Restore(s.files, ProjectIdText(s.history[k]).value),
                          history := s.history[..k] + s.history[k + 1..]))
  }

  /** A saved record can be read back under its name, stamped with the save time; one
      save entry is recorded and no other file changes. */
  lemma SaveThenGet(s: Store, p: Project, clock: Clock)
    requires PyStr(p.name).Some?
    ensures var e := SaveOn(s, p, clock);
      && e.result == Ok(p.(modified := Num(clock.modified)))
      && GetProject(e.after.files, p.name) == Ok(Some(e.result.value))
      && |e.after.history| == |s.history| + 1 && e.after.history[1..] == s.history
      && e.after.history[0].action == "save_project" && !e.after.history[0].reversible
      && e.after.settings == s.settings
      && forall k :: k != FileOf(PyStr(p.name).value) ==>
           (k in e.after.files <==> k in s.files) && (k in s.files ==> e.after.files[k] == s.files[k])
  {
  }

  /** Deleting reports whether the project existed; afterwards it is gone, no other
      file changes, and only a deletion is recorded. */
  lemma DeleteThenGet(s: Store, id: Json, clock: Clock)
    requires PyStr(id).Some?
    ensures var e := DeleteOn(s, id, clock);
      && e.result == Ok(GetProject(s.files, id).value.Some?)
      && GetProject(e.after.files, id) == Ok(None)
      && (e.result.value ==> e.after.history[0] == DeleteEntry(id, PyStr(id).value, clock) && e.after.history[1..] == s.history)
      && (!e.result.value ==> e.after == s)
      && forall k :: k != FileOf(PyStr(id).value) ==>
           (k in e.after.files <==> k in s.files) && (k in s.files ==> e.after.files[k] == s.files[k])
  {
  }

  /** An identifier that arrives as a JSON number is formatted into the file name as
      its digits: `{"projectId": 5}` deletes `5.json`, and the entry keeps the number. */
  lemma NumericIdDeletesItsFile(s: Store, clock: Clock)
    requires FileOf("5") in s.files
    ensures var e := DeleteOn(s, Num(5.0), clock);
      && e.result == Ok(true)
      && FileOf("5") !in e.after.files
      && e.after.history[0].projectId == Num(5.0)
  {
  }

  /** `delete_project` unlinks the file without writing a backup, so undoing the entry
      it just recorded restores nothing unless a backup was already there. */
  lemma {:induction false} DeleteIsNotUndone(s: Store, id: Json, clock: Clock)
    requires PyStr(id).Some? && FileOf(PyStr(id).value) in s.files && BackupOf(PyStr(id).value) !in s.files
    requires forall j :: 0 <= j < |s.history| ==> s.history[j].id != clock.entryId
    ensures var e := DeleteOn(s, id, clock);
      UndoOn(e.after, clock.entryId) == Effect(Ok(false), e.after)
  {
    var e := DeleteOn(s, id, clock);
    var h := e.after.history;
    assert h[0] == DeleteEntry(id, PyStr(id).value, clock);
    assert ProjectIdText(h[0]) == Ok(PyStr(id).value);
    forall j | 1 <= j < |h| ensures !Undoable(h[j], clock.entryId) {
      assert h[j] == s.history[j - 1];
    }
    UndoScanNone(h, e.after.files, clock.entryId, 1);
  }

  /** A copy carries the template's text, voice and settings under the new name and can
      be read back; a missing template raises and changes nothing. */
  lemma CreateCopiesTemplate(s: Store, templateName: Json, newName: Json, clock: Clock)
    ensures var e := CreateOn(s, templateName, newName, clock);
      && (e.result.Ok? <==> GetProject(s.files, templateName).Ok? && GetProject(s.files, templateName).value.Some?
                            && PyStr(newName).Some?)
      && (e.result.Ok? ==>
            var t, r := GetProject(s.files, templateName).value.value, e.result.value;
            && r.name == newName && r.text == t.text && r.voice == t.voice
            && r.voiceSettings == t.voiceSettings && r.emotionSettings == t.emotionSettings
            && r.outputSettings == t.outputSettings
            && r.created == Num(clock.created) && r.modified == Num(clock.modified)
            && GetProject(e.after.files, newName) == Ok(Some(r)))
      && (GetProject(s.files, templateName) == Ok(None) ==>
            e == Effect(Err(Raised("Template " + PyStr(templateName).value + " not found")), s))
  {
    var e := CreateOn(s, templateName, newName, clock);
    if PyStr(templateName).Some? && FileOf(PyStr(templateName).value) in s.files && PyStr(newName).Some? {
      SaveThenGet(s, TemplateCopy(s.files[FileOf(PyStr(templateName).value)], newName, clock), clock);
    }
  }

  /** A successful undo moves the backup back to the project's file and removes exactly
      the entry it undid. */
  lemma UndoRestores(s: Store, id: string)
    requires UndoOn(s, id).result == Ok(true)
    ensures var e, k := UndoOn(s, id), UndoScan(s.history, s.files, id, 0).value.value;
      var t := ProjectIdText(s.history[k]).value;
      && Undoable(s.history[k], id)
      && GetProject(e.after.files, ProjectIdOf(s.history[k]).value) == Ok(Some(s.files[BackupOf(t)]))
      && BackupOf(t) !in e.after.files
      && |e.after.history| == |s.history| - 1
      && e.after.settings == s.settings
  {
    var k := UndoScan(s.history, s.files, id, 0).value.value;
    FileIsNotBackup(ProjectIdText(s.history[k]).value);
  }

  /* ---------------------------------------------------------------- */
  /* The store                                                          */

  /** `ProjectManager` (tts_server.py:52-178). */
  class ProjectManager {
    /** The projects directory: file name to the record the file holds. */
    var files: map<string, Project>
    var history: seq<HistoryEntry>
    var settings: AppSettings
    /** What `history.json` and `settings.json` hold. */
    var historyFile: seq<HistoryEntry>
    var settingsFile: Option<AppSettings>

    /** Every mutation is written through: the files agree with memory. */
    ghost predicate Valid()
      reads this
    {
      historyFile == history && (settingsFile.Some? ==> settingsFile.value == settings)
    }

    function State(): Store
      reads this
    {
      Store(files, history, settings)
    }

    /** `__init__`: loads what is on disk, or the defaults when a file is absent. */
    constructor (home: string, settingsOnDisk: Option<AppSettings>, historyOnDisk: seq<HistoryEntry>,
                 projectsOnDisk: map<string, Project>)
      ensures Valid()
      ensures files == projectsOnDisk && history == historyOnDisk
      ensures settings == (if settingsOnDisk.Some? then settingsOnDisk.value else DefaultSettings(home))
      ensures settingsFile == settingsOnDisk
    {
      files := projectsOnDisk;
      history := historyOnDisk;
      historyFile := historyOnDisk;
      settingsFile := settingsOnDisk;
      settings := if settingsOnDisk.Some? then settingsOnDisk.value else DefaultSettings(home);
    }

    /** `add_history_entry`: newest first, then saved. */
    method AddHistoryEntry(e: HistoryEntry)
      modifies this
      requires Valid()
      ensures Valid()
      ensures history == [e] + old(history)
      ensures files == old(files) && settings == old(settings) && settingsFile == old(settingsFile)
    {
      history := [e] + history;
      historyFile := history;
    }

    /** `save_project`. */
    method SaveProject(p: Project, clock: Clock) returns (r: Result<Project, PyError>)
      modifies this
      requires Valid()
      ensures Valid() && settingsFile == old(settingsFile)
      ensures Effect(r, State()) == SaveOn(old(State()), p, clock)
    {
      var name := PyStr(p.name);
      if name.None? {
        return Err(Raised(Unformatted));
      }
      var saved := p.(modified := Num(clock.modified));
      files := files[FileOf(name.value) := saved];
      AddHistoryEntry(SaveEntry(p.name, name.value, clock));
      r := Ok(saved);
    }

    /** `list_projects`: every `*.json` file (backups included), newest first. `order`
        is the order the directory yields the names in. */
    method ListProjects() returns (r: seq<Project>, ghost order: seq<string>)
      ensures Globbed(files, order)
      ensures multiset(r) == multiset(ProjectsAt(files, order))
      ensures SortedByModified(r)
      ensures Listing(files, r)
    {
      var left := files.Keys;
      var projects: seq<Project> := [];
      order := [];
      while left != {}
        invariant left <= files.Keys
        invariant forall k :: k in order <==> k in files && k !in left && EndsWith(k, ".json")
        invariant forall i, j :: 0 <= i < j < |order| ==> order[i] != order[j]
        invariant projects == ProjectsAt(files, order)
        decreases |left|
      {
        var k :| k in left;
        left := left - {k};
        if EndsWith(k, ".json") {
          projects := projects + [files[k]];
          order := order + [k];
        }
      }
      SortByModifiedSpec(projects);
      r := SortByModified(projects);
    }

    /** `delete_project`. */
    method DeleteProject(id: Json, clock: Clock) returns (r: Result<bool, PyError>)
      modifies this
      requires Valid()
      ensures Valid() && settingsFile == old(settingsFile)
      ensures Effect(r, State()) == DeleteOn(old(State()), id, clock)
    {
      var t := PyStr(id);
      if t.None? {
        return Err(Raised(Unformatted));
      }
      if FileOf(t.value) in files {
        files := files - {FileOf(t.value)};
        AddHistoryEntry(DeleteEntry(id, t.value, clock));
        return Ok(true);
      }
      return Ok(false);
    }

    /** `create_from_template`. */
    method CreateFromTemplate(templateName: Json, newName: Json, clock: Clock) returns (r: Result<Project, PyError>)
      modifies this
      requires Valid()
      ensures Valid() && settingsFile == old(settingsFile)
      ensures Effect(r, State()) == CreateOn(old(State()), templateName, newName, clock)
    {
      var template := GetProject(files, templateName);
      if template.Err? {
        return Err(template.error);
      }
      if template.value.None? {
        return Err(Raised("Template " + PyStr(templateName).value + " not found"));
      }
      r := SaveProject(TemplateCopy(template.value.value, newName, clock), clock);
    }

    /** `clear_history`. */
    method ClearHistory()
      modifies this
      requires Valid()
      ensures Valid()
      ensures history == [] && historyFile == []
      ensures files == old(files) && settings == old(settings) && settingsFile == old(settingsFile)
    {
      history := [];
      historyFile := history;
    }

    /** `handle_command`'s `update_settings` branch: replace and save. */
    method UpdateSettings(s: AppSettings)
      modifies this
      requires Valid()
      ensures Valid()
      ensures settings == s && settingsFile == Some(s)
      ensures files == old(files) && history == old(history)
    {
      settings := s;
      settingsFile := Some(s);
    }

    /** `undo_action`: restores the backup of the first undoable entry that has one and
        removes exactly that entry; otherwise nothing changes. */
    method UndoAction(id: string) returns (r: Result<bool, PyError>)
      modifies this
      requires Valid()
      ensures Valid() && settingsFile == old(settingsFile)
      ensures Effect(r, State()) == UndoOn(old(State()), id)
    {
      var i := 0;
      while i < |history|
        invariant 0 <= i <= |history|
        invariant history == old(history) && files == old(files) && settings == old(settings)
        invariant UndoScan(history, files, id, 0) == UndoScan(history, files, id, i)
      {
        var entry := history[i];
        if entry.id == id && entry.reversible {
          if entry.action == "delete_project" {
            var pid := ProjectIdOf(entry);
            if pid.Err? {
              return Err(pid.error);
            }
            var t := PyStr(pid.value);
            if t.None? {
              return Err(Raised(Unformatted));
            }
            if BackupOf(t.value) in files {
              files := Restore(files, t.value);
              history := history[..i] + history[i + 1..];
              historyFile := history;
              return Ok(true);
            }
          }
        }
        i := i + 1;
      }
      return Ok(false);
    }
  }

  /* ---------------------------------------------------------------- */
  /* The dispatcher                                                     */

  /** What one command's calls into the speech model and its backbone produce: the
      supported architectures, and the data (or the message of the raised error) of the
      model-backed branch. */
  datatype Env = Env(clock: Clock, architectures: set<string>, model: Result<Json, string>)

  /** `[asdict(h) for h in history]`. */
  function HistoryList(h: seq<HistoryEntry>): Json {
    Arr(seq(|h|, i requires 0 <= i < |h| => HistoryJson(h[i])))
  }

  /** `[asdict(p) for p in projects]`. */
  function ProjectList(ps: seq<Project>): Json {
    Arr(seq(|ps|, i requires 0 <= i < |ps| => ProjectJson(ps[i])))
  }

  /** The envelope `handle_command` returns. */
  datatype Reply = Success(data: Json) | Failure(error: PyError)

  /** The envelope of a branch whose store operation returned `r`, with `data` as the
      payload when it returned. */
  function Answer<T>(r: Result<T, PyError>, data: Json): Reply {
    if r.Ok? then Success(data) else Failure(r.error)
  }

  /** `json.dumps` of a reply, or of `None`. */
  function ReplyJson(r: Option<Reply>): (j: Json)
    ensures r.None? <==> j == Null
  {
    match r
    case None => Null
    case Some(Success(d)) => Obj(map["success" := Bool(true), "data" := d])
    case Some(Failure(e)) => Obj(map["success" := Bool(false), "error" := Str(ErrorText(e))])
  }

  /** What `handle_command` writes to stderr, read off the line printed for its reply: a
      failure envelope is logged with its error text (tts_server.py:413-416). */
  function HandlerLog(line: Json): seq<string> {
    if line.Obj? && "success" in line.fields && line.fields["success"] == Bool(false)
       && "error" in line.fields && line.fields["error"].Str?
    then ["Error in handle_command: " + line.fields["error"].s + "\n"]
    else []
  }

  /** Every failure reply is logged once with the text it carries; no other reply is. */
  lemma FailuresAreLogged(r: Option<Reply>)
    ensures r.Some? && r.value.Failure? ==>
      HandlerLog(ReplyJson(r)) == ["Error in handle_command: " + ErrorText(r.value.error) + "\n"]
    ensures !(r.Some? && r.value.Failure?) ==> HandlerLog(ReplyJson(r)) == []
  {
    if r.Some? {
      var f := ReplyJson(r).fields;
      assert f["success"] == Bool(r.value.Success?);
      if r.value.Failure? {
        assert f["error"] == Str(ErrorText(r.value.error));
      }
    }
  }

  /** The command types `handle_command` has a branch for. */
  datatype Kind =
    | CmdGetModels | CmdGetConditioners | CmdGenerateAudio | CmdGetSettings | CmdUpdateSettings
    | CmdGetProjects | CmdSaveProject | CmdGetProject | CmdGetHistory | CmdDeleteProject
    | CmdCreateFromTemplate | CmdClearHistory | CmdUndoAction | CmdGetVoiceSettings
  {
    /** The branches that do not touch the store. */
    predicate ReadOnly() {
      !(CmdUpdateSettings? || CmdSaveProject? || CmdDeleteProject? || CmdCreateFromTemplate?
        || CmdClearHistory? || CmdUndoAction?)
    }
  }

  /** The `elif command["type"] == ...` chain (tts_server.py:217-393). */
  function KindOf(t: Json): Option<Kind> {
    if t == Str("get_models") then Some(CmdGetModels)
    else if t == Str("get_conditioners") then Some(CmdGetConditioners)
    else if t == Str("generate-audio") then Some(CmdGenerateAudio)
    else if t == Str("get_settings") then Some(CmdGetSettings)
    else if t == Str("update_settings") then Some(CmdUpdateSettings)
    else if t == Str("get_projects") then Some(CmdGetProjects)
    else if t == Str("save_project") then Some(CmdSaveProject)
    else if t == Str("get_project") then Some(CmdGetProject)
    else if t == Str("get_history") then Some(CmdGetHistory)
    else if t == Str("delete_project") then Some(CmdDeleteProject)
    else if t == Str("create_from_template") then Some(CmdCreateFromTemplate)
    else if t == Str("clear_history") then Some(CmdClearHistory)
    else if t == Str("undo_action") then Some(CmdUndoAction)
    else if t == Str("get_voice_settings") then Some(CmdGetVoiceSettings)
    else None
  }

  /** The branch a command takes, if its `type` can be read and has one. */
  function CommandKind(command: Json): Option<Kind> {
    if Index(command, "type").Ok? then KindOf(Index(command, "type").value) else None
  }

  /** A command whose `type` is present but matches no branch: the dispatcher falls off
      its end. */
  predicate UnknownKind(command: Json) {
    Index(command, "type").Ok? && KindOf(Index(command, "type").value).None?
  }

  const SupportedModels: seq<(string, string)> :=
    [("transformer", "Zyphra/Zonos-v0.1-transformer"), ("hybrid", "Zyphra/Zonos-v0.1-hybrid")]

  /** The `get_models` list: one name per supported architecture, transformer first. */
  function ModelList(architectures: set<string>): (r: seq<Json>)
    ensures |r| <= 2
    ensures Str("Zyphra/Zonos-v0.1-transformer") in r <==> "transformer" in architectures
    ensures Str("Zyphra/Zonos-v0.1-hybrid") in r <==> "hybrid" in architectures
  {
    (if "transformer" in architectures then [Str("Zyphra/Zonos-v0.1-transformer")] else [])
    + (if "hybrid" in architectures then [Str("Zyphra/Zonos-v0.1-hybrid")] else [])
  }

  /** The model-backed branches after their field checks. */
  function ModelReply(model: Result<Json, string>): Reply {
    if model.Ok? then Success(model.value) else Failure(Raised(model.error))
  }

  const ModelRequired := "Model choice is required"
  const ParamsRequired := "Parameters are required"

  /** `generate-audio`'s field checks (tts_server.py:235-240), then the model. */
  function GenerateReply(command: Json, model: Result<Json, string>): Reply
    requires command.Obj?
  {
    if !HasTruthy(command, "params") then Failure(Raised(ParamsRequired))
    else
      var params := command.fields["params"];
      if !params.Obj? then Failure(Raised("'" + PyTypeName(params) + "' object has no attribute 'get'"))
      else if !HasTruthy(params, "model_choice") then Failure(Raised(ModelRequired))
      else ModelReply(model)
  }

  /** `cls(**command[key])`: the record, or the `KeyError` or `TypeError` on the way. */
  function RecordArgument<T>(command: Json, key: string, decode: Json -> Result<T, PyError>): Result<T, PyError> {
    var v := Index(command, key);
    if v.Ok? then decode(v.value) else Err(v.error)
  }

  /** What branch `kind` of `handle_command` replies to `command` in store `s`, and the
      store `s'` it leaves: a read-only branch keeps the store, and a store branch replies
      with what its `ProjectManager` operation returns or raises and leaves the store as
      that operation does (tts_server.py:217-411). */
  ghost predicate Dispatched(kind: Kind, command: Json, env: Env, s: Store, s': Store, reply: Reply)
    requires command.Obj?
  {
    match kind
    case CmdGetModels => s' == s && reply == Success(Arr(ModelList(env.architectures)))
    case CmdGetConditioners =>
      && s' == s
      && reply == if HasTruthy(command, "model") then ModelReply(env.model) else Failure(Raised(ModelRequired))
    case CmdGenerateAudio => s' == s && reply == GenerateReply(command, env.model)
    case CmdGetVoiceSettings =>
      && s' == s
      && reply == if Index(command, "voice").Err? then Failure(Index(command, "voice").error) else ModelReply(env.model)
    case CmdGetSettings => s' == s && reply == Success(SettingsJson(s.settings))
    case CmdGetHistory => s' == s && reply == Success(HistoryList(s.history))
    case CmdGetProjects => s' == s && exists ps :: Listing(s.files, ps) && reply == Success(ProjectList(ps))
    case CmdGetProject =>
      var id := Index(command, "projectId");
      && s' == s
      && reply == if id.Err? then Failure(id.error)
                  else var g := GetProject(s.files, id.value);
                       Answer(g, if g.Ok? && g.value.Some? then ProjectJson(g.value.value) else Null)
    case CmdClearHistory => reply == Success(Null) && s' == s.(history := [])
    case CmdUpdateSettings =>
      var d := RecordArgument(command, "settings", DecodeSettings);
      if d.Err? then reply == Failure(d.error) && s' == s
      else reply == Success(Null) && s' == s.(settings := d.value)
    case CmdSaveProject =>
      var d := RecordArgument(command, "project", DecodeProject);
      if d.Err? then reply == Failure(d.error) && s' == s
      else var e := SaveOn(s, d.value, env.clock);
           reply == Answer(e.result, Null) && s' == e.after
    case CmdDeleteProject =>
      var id := Index(command, "projectId");
      if id.Err? then reply == Failure(id.error) && s' == s
      else var e := DeleteOn(s, id.value, env.clock);
           reply == Answer(e.result, if e.result.Ok? then Bool(e.result.value) else Null) && s' == e.after
    case CmdCreateFromTemplate =>
      var t, n := Index(command, "templateName"), Index(command, "newName");
      if t.Err? || n.Err? then reply == Failure(if t.Err? then t.error else n.error) && s' == s
      else var e := CreateOn(s, t.value, n.value, env.clock);
           reply == Answer(e.result, if e.result.Ok? then ProjectJson(e.result.value) else Null) && s' == e.after
    case CmdUndoAction =>
      var a := Index(command, "actionId");
      if a.Err? then reply == Failure(a.error) && s' == s
      else if !a.value.Str? then reply == Success(Bool(false)) && s' == s
      else var e := UndoOn(s, a.value.s);
           reply == Answer(e.result, if e.result.Ok? then Bool(e.result.value) else Null) && s' == e.after
  }

  /** What `handle_command` replies to `command` in store `s`, and the store `s'` it
      leaves: the failure for an unreadable `type`, `None` for a type with no branch (the
      store untouched either way), otherwise what its branch does. */
  ghost predicate Handled(command: Json, env: Env, s: Store, s': Store, reply: Option<Reply>) {
    var t := Index(command, "type");
    if t.Err? then reply == Some(Failure(t.error)) && s' == s
    else match KindOf(t.value)
         case None => reply.None? && s' == s
         case Some(k) => reply.Some? && Dispatched(k, command, env, s, s', reply.value)
  }

  /** `handle_command`: the command's `type` is read (a `KeyError` or `TypeError` there
      is caught into a failure envelope), a type with no branch falls off the end and
      gives `None`, and every other type runs its branch. Every failure is logged. */
  method HandleCommand(pm: ProjectManager, command: Json, env: Env) returns (reply: Option<Reply>, log: seq<string>)
    modifies pm
    requires pm.Valid()
    ensures pm.Valid()
    ensures reply.None? <==> UnknownKind(command)
    ensures Index(command, "type").Err? ==> reply == Some(Failure(Index(command, "type").error))
    ensures CommandKind(command).None? ==> pm.State() == old(pm.State())
    ensures Handled(command, env, old(pm.State()), pm.State(), reply)
    ensures log == HandlerLog(ReplyJson(reply))
  {
    var kind := Index(command, "type");
    if kind.Err? {
      reply := Some(Failure(kind.error));
    } else {
      var k := KindOf(kind.value);
      if k.None? {
        reply := None;
      } else {
        var r := Dispatch(pm, k.value, command, env);
        reply := Some(r);
      }
    }
    FailuresAreLogged(reply);
    log := if reply.Some? && reply.value.Failure? then ["Error in handle_command: " + ErrorText(reply.value.error) + "\n"] else [];
  }

  /** The branches of `handle_command` (tts_server.py:217-411), each with the exception
      it may raise caught into a failure envelope. A store branch replies with what its
      `ProjectManager` operation returns or raises and leaves the store as that
      operation does. */
  method Dispatch(pm: ProjectManager, kind: Kind, command: Json, env: Env) returns (reply: Reply)
    modifies pm
    requires pm.Valid() && command.Obj?
    ensures pm.Valid()
    ensures Dispatched(kind, command, env, old(pm.State()), pm.State(), reply)
    ensures pm.settingsFile ==
      var d := RecordArgument(command, "settings", DecodeSettings);
      if kind == CmdUpdateSettings && d.Ok? then Some(d.value) else old(pm.settingsFile)
  {
    match kind
    case CmdGetModels => {
      reply := Success(Arr(ModelList(env.architectures)));
    }
    case CmdGetConditioners => {
      if !HasTruthy(command, "model") {
        reply := Failure(Raised(ModelRequired));
      } else {
        reply := ModelReply(env.model);
      }
    }
    case CmdGenerateAudio => {
      reply := GenerateReply(command, env.model);
    }
    case CmdGetSettings => {
      reply := Success(SettingsJson(pm.settings));
    }
    case CmdUpdateSettings => {
      var decoded := RecordArgument(command, "settings", DecodeSettings);
      if decoded.Err? {
        reply := Failure(decoded.error);
      } else {
        pm.UpdateSettings(decoded.value);
        reply := Success(Null);
      }
    }
    case CmdGetProjects => {
      var ps, order := pm.ListProjects();
      reply := Success(ProjectList(ps));
    }
    case CmdSaveProject => {
      var decoded := RecordArgument(command, "project", DecodeProject);
      if decoded.Err? {
        reply := Failure(decoded.error);
      } else {
        var saved := pm.SaveProject(decoded.value, env.clock);
        reply := Answer(saved, Null);
      }
    }
    case CmdGetProject => {
      var id := Index(command, "projectId");
      if id.Err? {
        reply := Failure(id.error);
      } else {
        var g := GetProject(pm.files, id.value);
        reply := Answer(g, if g.Ok? && g.value.Some? then ProjectJson(g.value.value) else Null);
      }
    }
    case CmdGetHistory => {
      reply := Success(HistoryList(pm.history));
    }
    case CmdDeleteProject => {
      var id := Index(command, "projectId");
      if id.Err? {
        reply := Failure(id.error);
      } else {
        var deleted := pm.DeleteProject(id.value, env.clock);
        reply := Answer(deleted, if deleted.Ok? then Bool(deleted.value) else Null);
      }
    }
    case CmdCreateFromTemplate => {
      var t := Index(command, "templateName");
      var n := Index(command, "newName");
      if t.Err? {
        reply := Failure(t.error);
      } else if n.Err? {
        reply := Failure(n.error);
      } else {
        var created := pm.CreateFromTemplate(t.value, n.value, env.clock);
        reply := Answer(created, if created.Ok? then ProjectJson(created.value) else Null);
      }
    }
    case CmdClearHistory => {
      pm.ClearHistory();
      reply := Success(Null);
    }
    case CmdUndoAction => {
      var a := Index(command, "actionId");
      if a.Err? {
        reply := Failure(a.error);
      } else if !a.value.Str? {
        // an identifier of another type equals no entry id
        reply := Success(Bool(false));
      } else {
        var undone := pm.UndoAction(a.value.s);
        reply := Answer(undone, if undone.Ok? then Bool(undone.value) else Null);
      }
    }
    case CmdGetVoiceSettings => {
      var v := Index(command, "voice");
      reply := if v.Err? then Failure(v.error) else ModelReply(env.model);
    }
  }

  /** What `main` prints for one parsed command: `json.dumps` of the reply `handle_command`
      gives it in the current store (`null` exactly when the type has no branch, otherwise
      an envelope with a `success` field), the store that leaves, and what `handle_command`
      logged for it. */
  method ReplyLine(pm: ProjectManager, command: Json, env: Env) returns (line: Json, log: seq<string>, reply: Option<Reply>)
    modifies pm
    requires pm.Valid()
    ensures pm.Valid()
    ensures line == ReplyJson(reply) && Handled(command, env, old(pm.State()), pm.State(), reply)
    ensures line == Null <==> UnknownKind(command)
    ensures line == Null || (line.Obj? && "success" in line.fields)
    ensures log == HandlerLog(line)
  {
    reply, log := HandleCommand(pm, command, env);
    line := ReplyJson(reply);
  }

  /** A line `main` reads: one `json.loads` succeeded on, or one it raised on. */
  datatype InputLine = Command(value: Json) | Malformed(error: string)

  function CountCommands(lines: seq<InputLine>): (n: nat)
    ensures n <= |lines|
  {
    if lines == [] then 0 else CountCommands(lines[..|lines| - 1]) + (if lines[|lines| - 1].Command? then 1 else 0)
  }

  /** The parsed commands, in order. */
  function Commands(lines: seq<InputLine>): (cs: seq<Json>)
    ensures |cs| == CountCommands(lines)
  {
    if lines == [] then []
    else Commands(lines[..|lines| - 1]) + (if lines[|lines| - 1].Command? then [lines[|lines| - 1].value] else [])
  }

  /** The observations of the parsed commands, in order: `envs[i]` is what line `i` sees. */
  function CommandEnvs(lines: seq<InputLine>, envs: seq<Env>): (es: seq<Env>)
    requires |envs| == |lines|
    ensures |es| == CountCommands(lines)
  {
    if lines == [] then []
    else CommandEnvs(lines[..|lines| - 1], envs[..|lines| - 1]) + (if lines[|lines| - 1].Command? then [envs[|lines| - 1]] else [])
  }

  /** What the worker writes to stderr for `lines` when `outs` are the reply lines of
      their commands: `main`'s line for each line that did not parse, and
      `handle_command`'s log for each reply, in input order. */
  function Stderr(lines: seq<InputLine>, outs: seq<Json>): (es: seq<string>)
    requires |outs| == CountCommands(lines)
    ensures |lines| - CountCommands(lines) <= |es| <= |lines|
  {
    if lines == [] then []
    else
      var last := lines[|lines| - 1];
      if last.Malformed? then Stderr(lines[..|lines| - 1], outs) + ["Error: " + last.error + "\n"]
      else Stderr(lines[..|lines| - 1], outs[..|outs| - 1]) + HandlerLog(outs[|outs| - 1])
  }

  lemma LinesStep(lines: seq<InputLine>, i: nat)
    requires i < |lines|
    ensures var pre, next := lines[..i], lines[..i + 1];
      && CountCommands(next) == CountCommands(pre) + (if lines[i].Command? then 1 else 0)
      && Commands(next) == Commands(pre) + (if lines[i].Command? then [lines[i].value] else [])
  {
    assert lines[..i + 1][..i] == lines[..i];
  }

  lemma EnvsStep(lines: seq<InputLine>, envs: seq<Env>, i: nat)
    requires i < |lines| == |envs|
    ensures CommandEnvs(lines[..i + 1], envs[..i + 1])
         == CommandEnvs(lines[..i], envs[..i]) + (if lines[i].Command? then [envs[i]] else [])
  {
    assert lines[..i + 1][..i] == lines[..i];
    assert envs[..i + 1][..i] == envs[..i];
  }

  lemma StderrStep(lines: seq<InputLine>, i: nat, outs: seq<Json>, out: Json)
    requires i < |lines| && |outs| == CountCommands(lines[..i])
    ensures CountCommands(lines[..i + 1]) == CountCommands(lines[..i]) + (if lines[i].Command? then 1 else 0)
    ensures lines[i].Malformed? ==> Stderr(lines[..i + 1], outs) == Stderr(lines[..i], outs) + ["Error: " + lines[i].error + "\n"]
    ensures lines[i].Command? ==> Stderr(lines[..i + 1], outs + [out]) == Stderr(lines[..i], outs) + HandlerLog(out)
  {
    LinesStep(lines, i);
    assert lines[..i + 1][..i] == lines[..i];
    assert (outs + [out])[..|outs|] == outs;
  }

  /** `out` holds one reply line per command of `cs`, as `ReplyLine` writes them. */
  ghost predicate Answers(out: seq<Json>, cs: seq<Json>) {
    && |out| == |cs|
    && (forall k :: 0 <= k < |out| ==> (out[k] == Null <==> UnknownKind(cs[k])))
    && (forall k :: 0 <= k < |out| ==> out[k] == Null || (out[k].Obj? && "success" in out[k].fields))
  }

  lemma AnswersStep(out: seq<Json>, cs: seq<Json>, line: Json, command: Json)
    requires Answers(out, cs)
    requires line == Null <==> UnknownKind(command)
    requires line == Null || (line.Obj? && "success" in line.fields)
    ensures Answers(out + [line], cs + [command])
  {
    var out', cs' := out + [line], cs + [command];
    forall k | 0 <= k < |out'|
      ensures (out'[k] == Null <==> UnknownKind(cs'[k]))
      ensures out'[k] == Null || (out'[k].Obj? && "success" in out'[k].fields)
    {
      if k < |out| {
        assert out'[k] == out[k] && cs'[k] == cs[k];
      }
    }
  }

  /** `out[k]` is the line printed for `replies[k]`, the reply `handle_command` gives
      `cs[k]` observing `es[k]` in store `states[k]`, which it leaves as `states[k + 1]`. */
  ghost predicate Replayed(cs: seq<Json>, es: seq<Env>, out: seq<Json>, replies: seq<Option<Reply>>, states: seq<Store>) {
    && |cs| == |es| == |out| == |replies|
    && |states| == |out| + 1
    && forall k :: 0 <= k < |out| ==>
         out[k] == ReplyJson(replies[k]) && Handled(cs[k], es[k], states[k], states[k + 1], replies[k])
  }

  lemma ReplayedStep(cs: seq<Json>, es: seq<Env>, out: seq<Json>, replies: seq<Option<Reply>>, states: seq<Store>,
                     command: Json, env: Env, line: Json, reply: Option<Reply>, s': Store)
    requires Replayed(cs, es, out, replies, states)
    requires line == ReplyJson(reply) && Handled(command, env, states[|states| - 1], s', reply)
    ensures Replayed(cs + [command], es + [env], out + [line], replies + [reply], states + [s'])
  {
    var cs', es', out', replies', states' := cs + [command], es + [env], out + [line], replies + [reply], states + [s'];
    forall k | 0 <= k < |out'|
      ensures out'[k] == ReplyJson(replies'[k]) && Handled(cs'[k], es'[k], states'[k], states'[k + 1], replies'[k])
    {
      if k < |out| {
        assert cs'[k] == cs[k] && es'[k] == es[k] && out'[k] == out[k] && replies'[k] == replies[k];
        assert states'[k] == states[k] && states'[k + 1] == states[k + 1];
      }
    }
  }

  /** What `main` has written after reading the first `i` lines, the replies it printed
      and the stores it went through. */
  ghost predicate Served(lines: seq<InputLine>, envs: seq<Env>, i: nat, stdout: seq<Json>, stderr: seq<string>,
                         replies: seq<Option<Reply>>, states: seq<Store>)
    requires i <= |lines| == |envs|
  {
    && Answers(stdout, Commands(lines[..i]))
    && stderr == Stderr(lines[..i], stdout)
    && Replayed(Commands(lines[..i]), CommandEnvs(lines[..i], envs[..i]), stdout, replies, states)
  }

  /** One more line of input: what `Serve` keeps about the lines before `i` holds for
      the lines up to `i`, whatever line `i` is. */
  lemma ServeStep(lines: seq<InputLine>, envs: seq<Env>, i: nat, stdout: seq<Json>, stderr: seq<string>,
                  replies: seq<Option<Reply>>, states: seq<Store>,
                  out: Json, log: seq<string>, reply: Option<Reply>, s': Store)
    requires i < |lines| == |envs| && Served(lines, envs, i, stdout, stderr, replies, states)
    requires lines[i].Command? ==> log == HandlerLog(out)
    requires lines[i].Command? ==> (out == Null <==> UnknownKind(lines[i].value))
    requires lines[i].Command? ==> out == Null || (out.Obj? && "success" in out.fields)
    requires lines[i].Command? ==>
      out == ReplyJson(reply) && Handled(lines[i].value, envs[i], states[|states| - 1], s', reply)
    ensures lines[i].Malformed? ==>
      Served(lines, envs, i + 1, stdout, stderr + ["Error: " + lines[i].error + "\n"], replies, states)
    ensures lines[i].Command? ==>
      Served(lines, envs, i + 1, stdout + [out], stderr + log, replies + [reply], states + [s'])
  {
    LinesStep(lines, i);
    EnvsStep(lines, envs, i);
    StderrStep(lines, i, stdout, out);
    if lines[i].Command? {
      AnswersStep(stdout, Commands(lines[..i]), out, lines[i].value);
      ReplayedStep(Commands(lines[..i]), CommandEnvs(lines[..i], envs[..i]), stdout, replies, states,
                   lines[i].value, envs[i], out, reply, s');
    }
  }

  /** All of the input read: `Served` is what `Serve` promises. */
  lemma ServedAll(lines: seq<InputLine>, envs: seq<Env>, stdout: seq<Json>, stderr: seq<string>,
                  replies: seq<Option<Reply>>, states: seq<Store>)
    requires |lines| == |envs| && Served(lines, envs, |lines|, stdout, stderr, replies, states)
    ensures |stdout| == CountCommands(lines)
    ensures forall k :: 0 <= k < |stdout| ==> (stdout[k] == Null <==> UnknownKind(Commands(lines)[k]))
    ensures forall k :: 0 <= k < |stdout| ==> stdout[k] == Null || (stdout[k].Obj? && "success" in stdout[k].fields)
    ensures stderr == Stderr(lines, stdout)
    ensures Replayed(Commands(lines), CommandEnvs(lines, envs), stdout, replies, states)
  {
    assert lines[..|lines|] == lines;
    assert envs[..|envs|] == envs;
  }

  /** One pass of `main`'s loop: line `i` gets its reply (or its stderr line). */
  method ServeLine(pm: ProjectManager, lines: seq<InputLine>, envs: seq<Env>, i: nat, stdout: seq<Json>, stderr: seq<string>,
                   ghost replies: seq<Option<Reply>>, ghost states: seq<Store>)
    returns (stdout': seq<Json>, stderr': seq<string>, ghost replies': seq<Option<Reply>>, ghost states': seq<Store>)
    modifies pm
    requires pm.Valid() && i < |lines| == |envs| && Served(lines, envs, i, stdout, stderr, replies, states)
    requires states[|states| - 1] == pm.State()
    ensures pm.Valid() && Served(lines, envs, i + 1, stdout', stderr', replies', states')
    ensures states'[0] == states[0] && states'[|states'| - 1] == pm.State()
  {
    var line := lines[i];
    if line.Malformed? {
      ServeStep(lines, envs, i, stdout, stderr, replies, states, Null, [], None, pm.State());
      stdout', stderr', replies', states' := stdout, stderr + ["Error: " + line.error + "\n"], replies, states;
    } else {
      var out, log;
      ghost var reply;
      out, log, reply := ReplyLine(pm, line.value, envs[i]);
      ServeStep(lines, envs, i, stdout, stderr, replies, states, out, log, reply, pm.State());
      stdout', stderr', replies', states' := stdout + [out], stderr + log, replies + [reply], states + [pm.State()];
    }
  }

  /** `main`: reads lines until end of input; every parsed line gets exactly one reply
      line on stdout (`null` for an unknown type), every unparsable one a line on stderr
      and no reply, and every failure reply its log line on stderr. `envs[i]` is what
      line `i`'s command observes. Reply `k` is the one `handle_command` gives the `k`-th
      parsed command in the store the commands before it left, `states[0]` being the
      store `main` starts with and the last state the one it ends with. */
  method Serve(pm: ProjectManager, lines: seq<InputLine>, envs: seq<Env>)
    returns (stdout: seq<Json>, stderr: seq<string>, ghost replies: seq<Option<Reply>>, ghost states: seq<Store>)
    modifies pm
    requires pm.Valid() && |envs| == |lines|
    ensures pm.Valid()
    ensures |stdout| == CountCommands(lines)
    ensures forall k :: 0 <= k < |stdout| ==> (stdout[k] == Null <==> UnknownKind(Commands(lines)[k]))
    ensures forall k :: 0 <= k < |stdout| ==> stdout[k] == Null || (stdout[k].Obj? && "success" in stdout[k].fields)
    ensures stderr == Stderr(lines, stdout)
    ensures Replayed(Commands(lines), CommandEnvs(lines, envs), stdout, replies, states)
    ensures states[0] == old(pm.State()) && states[|states| - 1] == pm.State()
  {
    stdout, stderr, replies, states := [], [], [], [pm.State()];
    var i := 0;
    while i < |lines|
      invariant 0 <= i <= |lines|
      invariant pm.Valid()
      invariant Served(lines, envs, i, stdout, stderr, replies, states)
      invariant states[0] == old(pm.State()) && states[|states| - 1] == pm.State()
    {
      stdout, stderr, replies, states := ServeLine(pm, lines, envs, i, stdout, stderr, replies, states);
      i := i + 1;
    }
    ServedAll(lines, envs, stdout, stderr, replies, states);
  }
}

=== FILE: wrappers.dfy ===
/** Failure-carrying return values shared by the modules of this model. */
module Wrappers {

  /** A value that may be absent (JavaScript `undefined`, Python `None`). */
  datatype Option<+T> = None | Some(value: T) {
    /** The value, or `default` when absent. */
    function GetOr(default: T): T {
      if Some? then value else default
    }
  }

  /** Either a successful value or the error that was raised or thrown instead. */
  datatype Result<+T, +E> = Ok(value: T) | Err(error: E)
}
